=== FILE: README.md ===
# TikTutor and LearnLoop, modelled in Dafny

This project models two parts of a study-reel application.

- **The TikTutor web client** (Next.js). It covers the client store of reels
  and quiz answers, the quiz card and the quiz drawer, and four more pieces:
  the study feed page, the explore library page, the upload studio page and
  the feed's video card. Each React handler is a pure transition from one
  page state to the next. An `await` becomes an input: a `Fetch` value that
  says whether the call resolved, and with what, or rejected.
- **The LearnLoop script-to-video pipeline** (Python). It covers the script
  generation stage (`gen_script.py`) and the end-to-end driver
  (`main_video.py`). The language model, `json.loads`, the console, the FAL
  video service and the downloads are all inputs. `json.loads` arrives as
  the decoded value, or `None` when decoding raises. The console gives one
  optional line per question, where `None` means end of input. The FAL
  service and the downloads are functions of the submission index. A Python
  exception becomes `Raised(message)`.

Modules follow the source files:

| module | models |
|---|---|
| `Store` | `src/lib/store.ts` |
| `QuizCard` | `src/components/QuizCard.tsx` |
| `QuizDrawer` | `src/components/QuizDrawer.tsx` |
| `FeedPage` | `src/app/feed/page.tsx` |
| `ExplorePage` | `src/app/explore/page.tsx` (and the demo catalogue of `src/lib/videos.ts`) |
| `UploadPage` | `src/app/upload/page.tsx` |
| `VideoCard` | `src/components/VideoCard.tsx` |
| `GenScript` | `learnloop-s2v/src/stages/gen_script.py` |
| `MainVideo` | `learnloop-s2v/src/stages/main_video.py` |
| `Api`, `Json`, `Text`, `Seqs`, `Base` | shared pieces. `Api` holds the records of `src/lib/api.ts`. `Json` is a decoded JSON value with Python's `get`, truthiness and `str`. `Text` holds ASCII string operations such as `strip`, `lower`, `split`, `int()` and `str(int)`. `Seqs` holds filtering and de-duplication. `Base` holds option and result types. |

## Model

| member | source | states |
|---|---|---|
| `Store.SetIndex` | Desktop/hackathon_usc/tiktutor/src/lib/store.ts:61-65 | The cursor is clamped into the reel list. An in-range index is kept. A negative index gives 0. An index past the end gives the last reel. An empty list gives 0, which names no reel. Nothing but the cursor changes. |
| `Store.Next` | Desktop/hackathon_usc/tiktutor/src/lib/store.ts:66-69 | Moves one reel forward. On the last reel the state is unchanged. A cursor in range stays in range, and only the cursor changes. |
| `Store.Prev` | Desktop/hackathon_usc/tiktutor/src/lib/store.ts:70-73 | Moves one reel back. On the first reel the state is unchanged. A cursor in range stays in range. |
| `Store.NextPrevInverse` | Desktop/hackathon_usc/tiktutor/src/lib/store.ts:61-73 | Away from the ends of the list, `prev` undoes `next` and `next` undoes `prev`. |
| `Store.ToggleStyle` | Desktop/hackathon_usc/tiktutor/src/lib/store.ts:74-79 | The toggled style is in the result exactly when it was not in the list before. Every other style keeps both its membership and its number of occurrences. An absent style is appended at the end. Removal keeps the remaining styles in order, as a subsequence. |
| `Store.ToggleStyleTwice` | Desktop/hackathon_usc/tiktutor/src/lib/store.ts:74-79 | Toggling twice restores membership. It restores the exact state when the style was absent. When the style was present, it ends up once, at the end. |
| `Store.FindReel` | Desktop/hackathon_usc/tiktutor/src/lib/store.ts:81 | `find` returns nothing exactly when no reel has the id. Otherwise it returns a reel with that id, and no earlier reel has that id. |
| `Store.AnswerQuiz` | Desktop/hackathon_usc/tiktutor/src/lib/store.ts:80-87 | An unknown reel, or a reel without a quiz, leaves the state unchanged. Otherwise the reel's answer is recorded, and it is marked correct exactly when it equals the answer key. The answer key set grows by that reel id only. Every other answer is kept. |
| `Store.AnswerQuizLastWins` | Desktop/hackathon_usc/tiktutor/src/lib/store.ts:84-86 | Answering the same reel twice gives the same state as the second answer alone. |
| `Store.StepPreservesInvariants` | Desktop/hackathon_usc/tiktutor/src/lib/store.ts:61-87 | One action of any kind keeps three things: the reels unchanged, the cursor in range, and every recorded answer pointing at a reel with a quiz and agreeing with its answer key. |
| `Store.AnswerKeepsKeys` | Desktop/hackathon_usc/tiktutor/src/lib/store.ts:80-87 | Recording an answer keeps every recorded answer consistent with its key. |
| `Store.RunPreservesInvariants` | Desktop/hackathon_usc/tiktutor/src/lib/store.ts:56-87 | Any sequence of store actions keeps the reels, the cursor range and the answer-key agreement. |
| `Store.InitialInvariants` | Desktop/hackathon_usc/tiktutor/src/lib/store.ts:28-60 | The initial state, built on the three demo reels, has a valid cursor and no inconsistent answers. |
| `QuizCard.Render` | Desktop/hackathon_usc/tiktutor/src/components/QuizCard.tsx:9-47 | No card is shown exactly when the reel is unknown or has no quiz. There is one button per choice, with the choice's text. Buttons are disabled exactly when an answer is recorded. A button is green exactly when it is the recorded choice and that choice was correct, and red exactly when it is the recorded choice and was wrong. The feedback line is absent without an answer, and otherwise reads "Correct!" exactly when the answer was correct and "Not quite" exactly when it was not. |
| `QuizCard.Click` | Desktop/hackathon_usc/tiktutor/src/components/QuizCard.tsx:26-28 | Clicking an enabled choice calls the store's `answerQuiz` with the card's reel id and the choice index. A disabled button, which is any button once an answer is recorded, changes nothing. |
| `QuizCard.NextVideo` | Desktop/hackathon_usc/tiktutor/src/components/QuizCard.tsx:43-50 | The "Next video" button is on screen exactly when the card shows feedback. Pressing it advances the cursor and keeps the reels and the answers. |
| `QuizCard.FirstClickOutcome` | Desktop/hackathon_usc/tiktutor/src/components/QuizCard.tsx:20-47 | After the first click on a fresh card, all buttons are disabled. Only the clicked button is tinted: green exactly when it is the key, red exactly when it is not. "Correct!" shows exactly when the click was on the key. |
| `QuizDrawer.CountCorrect` | Desktop/hackathon_usc/tiktutor/src/components/QuizDrawer.tsx:22-30 | The tally never exceeds the number of questions. It equals that number exactly when every question's selection matches its key. It is 0 when nothing is selected. |
| `QuizDrawer.CountCorrectIsCardinality` | Desktop/hackathon_usc/tiktutor/src/components/QuizDrawer.tsx:22-30 | The `forEach` tally is the size of the set of correctly answered questions. |
| `QuizDrawer.ScoreOf` | Desktop/hackathon_usc/tiktutor/src/components/QuizDrawer.tsx:22-30 | The footer's total is the number of questions. "Correct" is the number of questions answered with their key, and it equals the total exactly when every question is answered correctly. |
| `QuizDrawer.PerfectSheet` | Desktop/hackathon_usc/tiktutor/src/components/QuizDrawer.tsx:22-34 | Selecting every key gives full marks and completes the quiz. A quiz with no questions counts as completed from the start. |
| `QuizDrawer.Choose` | Desktop/hackathon_usc/tiktutor/src/components/QuizDrawer.tsx:108-114 | A click on an answered question changes nothing. A click on an unanswered question records that choice for it and keeps every other selection. |
| `QuizDrawer.AnsweredOnce` | Desktop/hackathon_usc/tiktutor/src/components/QuizDrawer.tsx:108-114 | After any sequence of clicks, a question is answered exactly when it was answered before or was clicked. An earlier selection is never overwritten. A newly answered question holds the first choice clicked for it. |
| `QuizDrawer.Badge` | Desktop/hackathon_usc/tiktutor/src/components/QuizDrawer.tsx:60-86 | There is no badge before a question is answered. Afterwards the badge reads "Correct" exactly when the selection is the key, and "Review" otherwise. |
| `QuizDrawer.ChoiceMark` | Desktop/hackathon_usc/tiktutor/src/components/QuizDrawer.tsx:90-105 | Before an answer every button is plain. Afterwards the chosen button is marked right or wrong by whether it is the key. The key is highlighted when another choice was picked. All other buttons stay plain. |
| `QuizDrawer.BadgeAgreesWithMarks` | Desktop/hackathon_usc/tiktutor/src/components/QuizDrawer.tsx:60-105 | The badge reads "Correct" exactly when the chosen button is marked right. Once a question is answered, its key button is always highlighted. |
| `QuizDrawer.Open` | Desktop/hackathon_usc/tiktutor/src/components/QuizDrawer.tsx:15-20 | A freshly opened drawer scores 0. It is not complete when the quiz has questions. |
| `QuizDrawer.Receive` | Desktop/hackathon_usc/tiktutor/src/components/QuizDrawer.tsx:18-20 | A payload for another video clears the selections, so the score is 0. A payload for the same video keeps them. |
| `FeedPage.LoadFeed` | Desktop/hackathon_usc/tiktutor/src/app/feed/page.tsx:23-35 | Loading always ends. On success the videos are replaced and the error is cleared. On failure the old videos stay and the fixed error message is shown. The topic and the quiz state are untouched. |
| `FeedPage.Topics` | Desktop/hackathon_usc/tiktutor/src/app/feed/page.tsx:37-41 | The chips start with "All". The rest are exactly the videos' topics, each once. |
| `FeedPage.TopicsInFirstOccurrenceOrder` | Desktop/hackathon_usc/tiktutor/src/app/feed/page.tsx:37-41 | The chips after "All" are ordered by where each topic first occurs among the videos, as insertion into a `Set` orders them. |
| `FeedPage.SelectTopic` | Desktop/hackathon_usc/tiktutor/src/app/feed/page.tsx:92-97 | Pressing a chip makes its topic active and changes nothing else. After that only videos of that topic are listed, unless the chip is "All". |
| `FeedPage.FilteredVideos` | Desktop/hackathon_usc/tiktutor/src/app/feed/page.tsx:43-46 | "All" lists every video. Any other topic lists exactly the videos of that topic. Each video keeps its multiplicity, and the list is a subsequence of the feed. |
| `FeedPage.ViewOf` | Desktop/hackathon_usc/tiktutor/src/app/feed/page.tsx:114-145 | The list area shows exactly one of four blocks. It shows the spinner while loading. When loading is done it shows the error panel if there is an error, the empty state if the filtered list is empty, and otherwise the cards of the filtered videos. |
| `FeedPage.LoadScenarios` | Desktop/hackathon_usc/tiktutor/src/app/feed/page.tsx:23-137 | A feed that loads no videos shows the empty state, not an error. A rejected fetch shows the error panel. Retrying shows the spinner. |
| `FeedPage.FallbackQuiz` | Desktop/hackathon_usc/tiktutor/src/app/feed/page.tsx:55-64 | The fallback quiz belongs to the requested video. It has one question with the choices "Retry", "Cancel" and "Refresh feed", the key is the first choice, and the key points at a choice. |
| `FeedPage.HandleQuiz` | Desktop/hackathon_usc/tiktutor/src/app/feed/page.tsx:48-68 | Quiz loading is on while the request runs and off afterwards. The drawer opens with the fetched payload, or with the fallback quiz when the fetch rejects. Nothing else changes. |
| `FeedPage.CardOpensOwnQuiz` | Desktop/hackathon_usc/tiktutor/src/app/feed/page.tsx:48-64 | A card's brain button always opens a quiz. When the quiz service fails, the fallback quiz carries the card's video id. When it answers, the fetched payload opens unchanged, and its `videoId` is not checked. |
| `FeedPage.CloseQuiz` | Desktop/hackathon_usc/tiktutor/src/app/feed/page.tsx:150-155 | Closing the drawer drops the quiz and changes nothing else. |
| `ExplorePage.NumberOf` | Desktop/hackathon_usc/tiktutor/src/app/explore/page.tsx:184 | `Number(part)` reads blank text as 0. It is `NaN` exactly when the trimmed text is not signed decimal digits. |
| `ExplorePage.NumberOfPadded` | Desktop/hackathon_usc/tiktutor/src/app/explore/page.tsx:184 | Every integer, rendered in decimal and wrapped in any JavaScript white space, reads back as itself. |
| `ExplorePage.ParseDuration` | Desktop/hackathon_usc/tiktutor/src/app/explore/page.tsx:182-187 | "" gives 30. Text with a colon always gives a number. The result is `NaN` exactly when the text is non-empty, has no colon, and reads as a number: the seconds part is then `undefined`, which `Number.isNaN` does not catch. |
| `ExplorePage.FromParts` | Desktop/hackathon_usc/tiktutor/src/app/explore/page.tsx:184-186 | Minutes and seconds from the split parts are `NaN` exactly when there is one part and it reads as a number. |
| `ExplorePage.MinutesAndSeconds` | Desktop/hackathon_usc/tiktutor/src/app/explore/page.tsx:182-187 | "m:s" written in digits gives `m * 60 + s`. |
| `ExplorePage.BareNumberIsNaN` | Desktop/hackathon_usc/tiktutor/src/app/explore/page.tsx:182-187 | The colon-free duration "5" parses to `NaN`, not to 30 or 5. |
| `ExplorePage.UnreadablePartsGive30` | Desktop/hackathon_usc/tiktutor/src/app/explore/page.tsx:182-187 | "a:b" falls back to 30. |
| `ExplorePage.DemoDurations` | Desktop/hackathon_usc/tiktutor/src/lib/videos.ts:11-52 | The five demo durations parse to 30, 28, 32, 27 and 40 seconds. |
| `ExplorePage.Seed` | Desktop/hackathon_usc/tiktutor/src/app/explore/page.tsx:19-31 | A demo entry becomes a feed item. Its id is prefixed with "demo-", its subject becomes its topic, and its summary names the creator style and the duration. It has an empty script and no key points. Its file path is the mp4 URL or "". Its duration is the parsed duration, and it keeps its creator style. |
| `ExplorePage.SeedAll` | Desktop/hackathon_usc/tiktutor/src/app/explore/page.tsx:19-32 | Every demo entry is seeded, in order. |
| `ExplorePage.MergeLive` | Desktop/hackathon_usc/tiktutor/src/app/explore/page.tsx:34-40 | The live feed's items, tagged "AI", come first and in order, and the items listed before follow unchanged. |
| `ExplorePage.LoadExplore` | Desktop/hackathon_usc/tiktutor/src/app/explore/page.tsx:18-44 | A failed live fetch leaves the seeded catalogue alone. A successful one puts the live items in front of it. The seeded catalogue is always the tail of the list. |
| `ExplorePage.Subjects` | Desktop/hackathon_usc/tiktutor/src/app/explore/page.tsx:46-50 | The options are "All" first, then exactly the topics, with no duplicates. |
| `ExplorePage.SubjectsInFirstOccurrenceOrder` | Desktop/hackathon_usc/tiktutor/src/app/explore/page.tsx:46-50 | The subject options after "All" follow the order in which the topics first occur, as a `Set` keeps insertion order. |
| `ExplorePage.StyleList` | Desktop/hackathon_usc/tiktutor/src/app/explore/page.tsx:54-56 | The truthy styles in video order: a subsequence of the videos' styles that keeps every non-empty style as often as it occurs and drops the missing and empty ones. |
| `ExplorePage.Styles` | Desktop/hackathon_usc/tiktutor/src/app/explore/page.tsx:52-58 | The options are "All" first, then exactly the non-empty creator styles, with no duplicates. |
| `ExplorePage.StylesInFirstOccurrenceOrder` | Desktop/hackathon_usc/tiktutor/src/app/explore/page.tsx:52-58 | The style options after "All" follow the order in which the truthy styles first occur. |
| `ExplorePage.Filtered` | Desktop/hackathon_usc/tiktutor/src/app/explore/page.tsx:60-70 | A video is listed exactly when it matches the subject, the style and the search. The search is case-insensitive and looks in the title or the summary. Each matching video keeps its multiplicity, the list is a subsequence of the videos, and the default filters list everything. |
| `ExplorePage.SearchIgnoresCase` | Desktop/hackathon_usc/tiktutor/src/app/explore/page.tsx:64-67 | A lower-cased query lists the same videos as the query as typed. |
| `ExplorePage.SubjectNarrows` | Desktop/hackathon_usc/tiktutor/src/app/explore/page.tsx:60-70 | Choosing a subject lists a subset of what "All" lists, and only videos of that subject. |
| `ExplorePage.DurationLabel` | Desktop/hackathon_usc/tiktutor/src/app/explore/page.tsx:170 | The badge reads "Quick" exactly when the duration is 0 or `NaN`. Any other duration shows as its decimal rendering, sign included, followed by "s". |
| `ExplorePage.Chips` | Desktop/hackathon_usc/tiktutor/src/app/explore/page.tsx:160-167 | At most the first three key points are shown, in order. An empty point shows as "Concept highlight". |
| `UploadPage.Start` | Desktop/hackathon_usc/tiktutor/src/app/upload/page.tsx:33-39 | Choosing a file records its name, clears the previews, and is processing with the first progress frame on screen. |
| `UploadPage.ShowFrame` | Desktop/hackathon_usc/tiktutor/src/app/upload/page.tsx:26-31 | A timeline tick shows its frame and changes nothing else. |
| `UploadPage.ShowFramesFrom` | Desktop/hackathon_usc/tiktutor/src/app/upload/page.tsx:26-31 | A finished timeline leaves the last frame on screen and changes nothing else. |
| `UploadPage.Settle` | Desktop/hackathon_usc/tiktutor/src/app/upload/page.tsx:40-47 | A successful upload waits for the timeline, then shows the response's videos and completes. A failure only switches to error. |
| `UploadPage.HandleFile` | Desktop/hackathon_usc/tiktutor/src/app/upload/page.tsx:33-48 | A whole upload ends completed on success and in error on failure, under the chosen file name. The previews are the response's videos on success and empty on failure. |
| `UploadPage.ChooseFile` | Desktop/hackathon_usc/tiktutor/src/app/upload/page.tsx:118-123 | An empty selection changes nothing. A chosen file starts `handleFile`. |
| `UploadPage.NeverBackToIdle` | Desktop/hackathon_usc/tiktutor/src/app/upload/page.tsx:26-48 | Starting an upload leaves idle. Once the page is not idle, no timeline tick, settled upload or later file choice brings it back to idle. |
| `UploadPage.ReplayPhase` | Desktop/hackathon_usc/tiktutor/src/app/upload/page.tsx:33-48 | After any series of file dialogs, the page shows the name and outcome of the last file chosen: completed if its upload succeeded, error otherwise. Cancelled dialogs change nothing. The page is idle exactly when it started idle and no file was ever chosen. |
| `UploadPage.Symbol` | Desktop/hackathon_usc/tiktutor/src/app/upload/page.tsx:221-230 | A row reads "✓" exactly when done, "…" exactly when active but not done, and "—" otherwise. |
| `UploadPage.Rows` | Desktop/hackathon_usc/tiktutor/src/app/upload/page.tsx:135-137 | Upload is active once the phase leaves idle, and done unless it is idle or error. Parsing is active while processing or completed, and done when completed. Rendering is active exactly when completed, and done exactly when completed. |
| `UploadPage.DoneImpliesActive` | Desktop/hackathon_usc/tiktutor/src/app/upload/page.tsx:135-137 | In every phase, no row is done without being active. |
| `UploadPage.SymbolsPerPhase` | Desktop/hackathon_usc/tiktutor/src/app/upload/page.tsx:135-137 | Lists the three symbols in each of the five phases. Completed shows three ticks. Error shows "…" for Upload. |
| `UploadPage.ProgressLine` | Desktop/hackathon_usc/tiktutor/src/app/upload/page.tsx:139-144 | The spinner line shows exactly while processing. It shows the current progress message when there is one, and "Generating study clips…" when the message is empty. |
| `UploadPage.PreviewPoints` | Desktop/hackathon_usc/tiktutor/src/app/upload/page.tsx:210-214 | A preview shows the first three key points at most, in order. |
| `UploadPage.UploadOutcomes` | Desktop/hackathon_usc/tiktutor/src/app/upload/page.tsx:33-79 | After a successful upload the previews show exactly when the response held videos. After a failed one they never show. While processing, the first frame is on the progress line. |
| `VideoCard.NotePoints` | Desktop/hackathon_usc/tiktutor/src/components/VideoCard.tsx:67-72 | The notes are the first four key points, in order. A video without key points shows its summary alone. There are always one to four notes. |
| `VideoCard.Press` | Desktop/hackathon_usc/tiktutor/src/components/VideoCard.tsx:158-216 | The like, save, mute and notes buttons each flip their own flag and no other flag of the card. |
| `VideoCard.PressEffect` | Desktop/hackathon_usc/tiktutor/src/components/VideoCard.tsx:32-56 | Only the speaker button re-runs the player effect. That run sets the player's muted flag to the new one and calls `play()` again. |
| `VideoCard.MuteResumes` | Desktop/hackathon_usc/tiktutor/src/components/VideoCard.tsx:32-56 | Pressing the speaker button on a paused card asks the player to play. If the player then reports `play`, "Tap to Play" goes away. If `play()` is rejected, it stays. |
| `VideoCard.PressTwice` | Desktop/hackathon_usc/tiktutor/src/components/VideoCard.tsx:158-216 | Pressing a button twice restores the card. Presses of any two buttons commute. |
| `VideoCard.MuteLabel` | Desktop/hackathon_usc/tiktutor/src/components/VideoCard.tsx:199-203 | The speaker button is named "Unmute" exactly when the card is muted. |
| `VideoCard.NotesLabel` | Desktop/hackathon_usc/tiktutor/src/components/VideoCard.tsx:211-217 | The notes button reads "Hide Notes" exactly when the notes are shown. |
| `VideoCard.ClickVideo` | Desktop/hackathon_usc/tiktutor/src/components/VideoCard.tsx:89-97 | A click plays a paused video and pauses a playing one. |
| `VideoCard.Observe` | Desktop/hackathon_usc/tiktutor/src/components/VideoCard.tsx:37-50 | The playing flag is set exactly by a `play` event. It is cleared by a `pause` event and by a rejected `play()`, and nothing else changes. |
| `VideoCard.ClickRoundTrip` | Desktop/hackathon_usc/tiktutor/src/components/VideoCard.tsx:89-97 | When the video's click handler runs, pausing brings up "Tap to Play", and playing removes it. A rejected `play()` leaves it up. |
| `VideoCard.QuizRequest` | Desktop/hackathon_usc/tiktutor/src/components/VideoCard.tsx:183-184 | The brain button calls back exactly when a callback was given, and it passes the card's own video id. |
| `GenScript.Plural` | learnloop-s2v/src/stages/gen_script.py:143-145 | The plural suffix is "s" exactly when the count is not 1, and empty exactly when it is 1. |
| `GenScript.BuildPrompt` | learnloop-s2v/src/stages/gen_script.py:143-145 | An empty template renders empty. A template starting with literal text renders starting with that text. |
| `GenScript.BuildPromptAppend` | learnloop-s2v/src/stages/gen_script.py:143-145 | Rendering a concatenated template is the concatenation of the rendered parts. |
| `GenScript.SlotsRender` | learnloop-s2v/src/stages/gen_script.py:143-145 | The `{count}` slot renders as the count's decimal text. "video{plural}" renders as "video" for one video. |
| `GenScript.InputText` | learnloop-s2v/src/stages/gen_script.py:153-159 | The model input is the instructions, then the source-text header, then the user's prompt. It ends with the closing request for exactly `count` scripts, the count rendered in decimal, and nothing else. |
| `GenScript.ScriptKeyNumber` | learnloop-s2v/src/stages/gen_script.py:176-179 | A key has a number exactly when its stripped form splits into "script" in any case, then a white-space gap, then at least one decimal digit to the end. For every such split, the number is the value of the digits. |
| `GenScript.ScriptKeyDigits` | learnloop-s2v/src/stages/gen_script.py:176-179 | Any key built from "script" in any case, white space, digits and surrounding white space reads as the value of its digits. |
| `GenScript.ScriptKeyRoundTrip` | learnloop-s2v/src/stages/gen_script.py:176-179 | A key written as "script", a gap and any number reads back as that number. |
| `GenScript.KeyWithoutDigitsRejected` | learnloop-s2v/src/stages/gen_script.py:173-181 | A key with no digit is never a script key, so "script no.", "script" and "topic" are skipped. |
| `GenScript.CollectBy` | learnloop-s2v/src/stages/gen_script.py:174-182 | Collecting never yields more pairs than items. Every collected text is stripped. |
| `GenScript.Collect` | learnloop-s2v/src/stages/gen_script.py:174-182 | The pairs collected from script keys all have stripped texts. |
| `GenScript.CollectAppend` | learnloop-s2v/src/stages/gen_script.py:174-182 | Collection distributes over concatenation of items. A single item yields its pair exactly when its key has a number. |
| `GenScript.InsertStable` | learnloop-s2v/src/stages/gen_script.py:184 | Inserting a pair puts it after every pair with the same number. |
| `GenScript.SortByNum` | learnloop-s2v/src/stages/gen_script.py:184 | The sort yields pairs ordered by number, of the same length and with the same members. |
| `GenScript.SortStable` | learnloop-s2v/src/stages/gen_script.py:184 | The sort is stable: for every number, its pairs keep their order. Together with sortedness, this makes it the stable sort by number. |
| `GenScript.NonEmptyTexts` | learnloop-s2v/src/stages/gen_script.py:185 | The texts kept are the non-empty texts of the pairs. They keep the pairs' order, and each occurs as often as among the pairs. |
| `GenScript.FromScriptDict` | learnloop-s2v/src/stages/gen_script.py:169-185 | The scripts read from a `script` dict are exactly the non-empty stripped texts of its script keys. |
| `GenScript.FromScriptDictOrder` | learnloop-s2v/src/stages/gen_script.py:169-185 | The scripts are the texts of a list of non-empty pairs that is sorted by number. For every number, its pairs in that list are the non-empty pairs the dict's items gave for it, in item order. So scripts with equal numbers keep the order of their keys. |
| `GenScript.ScriptsFollowNumbers` | learnloop-s2v/src/stages/gen_script.py:174-185 | Scripts come out in number order, whatever the key order in the answer. Keys that are not script keys are skipped. |
| `GenScript.EqualNumbersKeepOrder` | learnloop-s2v/src/stages/gen_script.py:184-185 | Two keys with the same number keep their order from the answer. |
| `GenScript.PySliceTo` | learnloop-s2v/src/stages/gen_script.py:189-193 | `s[:k]` is a prefix of `s`. A non-negative `k` gives `min(k, len)` items. A negative `k` drops items from the end. |
| `GenScript.Normalize` | learnloop-s2v/src/stages/gen_script.py:191-196 | For a count of 0 or more, the result has exactly `count` scripts. Its prefix agrees with the input, and the padding is empty strings. A negative count slices from the end. |
| `GenScript.NormalizeIdempotent` | learnloop-s2v/src/stages/gen_script.py:191-196 | Normalising twice changes nothing more. |
| `GenScript.BlankLineChunks` | learnloop-s2v/src/stages/gen_script.py:188 | The fallback chunks are the stripped parts of the split at blank lines, with the empty ones dropped. They keep their order, each occurs as often as among the stripped parts, and each is non-empty and stripped. |
| `GenScript.ChunksAtBlankLine` | learnloop-s2v/src/stages/gen_script.py:188 | When the text starts with a stretch holding no blank line, its chunks are that stretch stripped, left out if empty, followed by the chunks of the text after the blank line. |
| `Text.SplitOn` | learnloop-s2v/src/stages/gen_script.py:188 | `split` parts joined by the separator give back the text. No part holds the separator, and no separator starts inside a part that a separator follows, so each cut is at the leftmost occurrence. |
| `Text.SplitAtSeparator` | learnloop-s2v/src/stages/gen_script.py:188 | When no separator starts inside `a`, splitting `a`, the separator, then `b` gives `a` followed by the parts of `b`. |
| `GenScript.OneChunk` | learnloop-s2v/src/stages/gen_script.py:188 | Text without a blank line falls back to the single stripped chunk. |
| `GenScript.NormalizeShape` | learnloop-s2v/src/stages/gen_script.py:185-196 | After normalising non-empty stripped scripts, all empty padding is at the end and every entry is stripped. |
| `GenScript.ScriptDictOf` | learnloop-s2v/src/stages/gen_script.py:166-171 | An answer that does not decode takes the fallback. A decoded non-dict gives an empty script dict. For a dict, a missing `script` gives an empty script dict, a dict `script` gives its items, and any other `script` takes the fallback. |
| `GenScript.GenerateScripts` | learnloop-s2v/src/stages/gen_script.py:148-198 | A count of 0 or less gives no scripts. Otherwise the call raises exactly when the model answer is empty. On success there are exactly `count` stripped scripts, with the padding at the end. They come from the `script` dict when there is one, and from the blank-line chunks otherwise. |
| `GenScript.ScriptNotDictFallsBack` | learnloop-s2v/src/stages/gen_script.py:166-189 | An answer whose `script` is not a dict gives the same scripts as an answer that is not JSON. |
| `GenScript.TopicOf` | learnloop-s2v/src/stages/gen_script.py:220-228 | The topic is `topic.video_topic` stripped when the answer is a dict whose `topic` is a dict holding a string `video_topic`. In every other case it is empty. |
| `GenScript.GenerateSeries` | learnloop-s2v/src/stages/gen_script.py:201-254 | The call raises exactly when the answer is empty. The topic is `topic.video_topic`. A count of 0 or more gives exactly `count` scripts: from the `script` dict, or from the chunks when decoding failed, and all empty when `script` is not a dict. The padding is at the end. |
| `GenScript.StagesAgreeOnDicts` | learnloop-s2v/src/stages/gen_script.py:148-254 | When the answer holds a `script` dict, both stages produce the same scripts. |
| `MainVideo.SlugChar` | learnloop-s2v/src/stages/main_video.py:50 | A character becomes a dash exactly when it is not alphanumeric. Otherwise it becomes its lower-case form. |
| `MainVideo.ReplaceDoubleDash` | learnloop-s2v/src/stages/main_video.py:52 | `replace("--", "-")` never lengthens the text. It keeps the first character, and it keeps the last character when that is not a dash. It keeps slug characters only. |
| `MainVideo.ReplaceShrinks` | learnloop-s2v/src/stages/main_video.py:51-52 | Each pass of the loop shortens a text that still holds "--", so the loop ends. |
| `MainVideo.SqueezeReplace` | learnloop-s2v/src/stages/main_video.py:51-52 | A pass of `replace` leaves the text with every run of dashes collapsed unchanged. |
| `MainVideo.StripDashes` | learnloop-s2v/src/stages/main_video.py:50 | `strip("-")` gives a slice of the text with only dashes cut off on either side, and no dash left at either end. It is the identity on text without a dash at either end, and it keeps slug characters only. |
| `MainVideo.Slugify` | learnloop-s2v/src/stages/main_video.py:44-53 | The loop computes the slug: non-empty, only lower-case letters, digits and dashes, no dash at either end, and no "--". |
| `MainVideo.AlnumEndsSlug` | learnloop-s2v/src/stages/main_video.py:44-53 | Text that starts and ends with an alphanumeric has nothing to strip, so its slug is its characters with dash runs collapsed. |
| `MainVideo.WordSlug` | learnloop-s2v/src/stages/main_video.py:44-53 | The slug of a word of alphanumerics is the word in lower case. |
| `MainVideo.RunBetweenWords` | learnloop-s2v/src/stages/main_video.py:44-53 | Any run of non-alphanumerics between a word and the rest becomes a single dash. |
| `MainVideo.TwoWordsSlug` | learnloop-s2v/src/stages/main_video.py:44-53 | Two lower-case words separated by a space become the words joined by a dash. |
| `MainVideo.TestingSlug` | learnloop-s2v/src/stages/main_video.py:127 | The direct path's topic "testing 101" becomes "testing-101". |
| `MainVideo.ConfirmsIff` | learnloop-s2v/src/stages/main_video.py:200-204 | An answer confirms exactly when, stripped, it spells "y" or "yes" in any case. End of input never confirms. |
| `MainVideo.ConfirmPadded` | learnloop-s2v/src/stages/main_video.py:227-231 | White space around a yes is ignored. |
| `MainVideo.ToSend` | learnloop-s2v/src/stages/main_video.py:209-225 | The count sent is always between 1 and the number of scripts. No answer, an empty answer or a non-integer keeps the maximum. An integer is clamped: below 1 gives 1, above the maximum gives the maximum, and it is taken as is exactly when it is in range. |
| `MainVideo.ToSendTyped` | learnloop-s2v/src/stages/main_video.py:209-225 | Typing a count in range sends exactly that many. |
| `Text.PyIntRoundTrip` | learnloop-s2v/src/stages/main_video.py:216 | `int` reads back every integer Python prints. |
| `MainVideo.MemberOrEmpty` | learnloop-s2v/src/stages/main_video.py:271 | `(holder or {}).get(key) or {}` fails exactly when the holder is a truthy non-dict. A falsy holder gives `{}`. A dict holder gives its member when that member is truthy, and `{}` when it is missing or falsy. |
| `MainVideo.VideoUrl` | learnloop-s2v/src/stages/main_video.py:268-272 | A URL that is found is truthy. A falsy result has no URL. A truthy result that is not a dict raises `AttributeError`. |
| `MainVideo.ExpectedShapes` | learnloop-s2v/src/stages/main_video.py:267-272 | Both documented result shapes yield their URL. |
| `MainVideo.DataTakesPrecedence` | learnloop-s2v/src/stages/main_video.py:268-272 | A truthy `data` is searched instead of the result. Its URL wins over one beside it, and without its own `video` there is no URL. |
| `MainVideo.FalsyDataIgnored` | learnloop-s2v/src/stages/main_video.py:268-272 | A falsy `data` is passed over and the result itself is searched. |
| `MainVideo.PayloadFields` | learnloop-s2v/src/stages/main_video.py:247-251 | The request carries the avatar, the text and the voice. |
| `MainVideo.PayloadBackground` | learnloop-s2v/src/stages/main_video.py:252-253 | The request asks for background removal exactly when the flag is set. |
| `MainVideo.PartFileName` | learnloop-s2v/src/stages/main_video.py:277 | A part's file name starts with the slug and holds the part number in decimal. |
| `MainVideo.PartNamesDistinct` | learnloop-s2v/src/stages/main_video.py:277 | Two parts share a file name exactly when they are the same part. |
| `MainVideo.VideoFileName` | learnloop-s2v/src/stages/main_video.py:170 | The direct path's file name is the slug followed by ".mp4". |
| `MainVideo.Classify` | learnloop-s2v/src/stages/main_video.py:260-281 | A submission ends the run exactly when FAL raises or `.get` is called on a non-dict. It is skipped exactly when there is no URL. It saves a video exactly when a URL was found and downloaded. |
| `MainVideo.SubmitFrom` | learnloop-s2v/src/stages/main_video.py:246-281 | A completed loop wrote one payload per script, in order, each carrying that script. |
| `MainVideo.SubmitRaisesIff` | learnloop-s2v/src/stages/main_video.py:246-281 | The loop raises exactly when one of its submissions crashes. |
| `MainVideo.SubmitVideos` | learnloop-s2v/src/stages/main_video.py:273-281 | The loop lists a part file exactly for the submissions whose download completed, and no other file. |
| `MainVideo.SentVideosExact` | learnloop-s2v/src/stages/main_video.py:246-281 | Within the batch, part `k`'s file is listed exactly when its download completed. |
| `MainVideo.SendFirst` | learnloop-s2v/src/stages/main_video.py:246-281 | Sending the first `n` scripts raises exactly when one of those submissions crashes. Otherwise payload `i` carries script `i`, part `k`'s file is listed exactly when its download completed, and no other file is listed. |
| `MainVideo.PromptOf` | learnloop-s2v/src/stages/main_video.py:115-120 | A non-empty `--prompt` is used as given. Otherwise the console line is used, stripped. End of input gives "". |
| `MainVideo.NonEmptyScripts` | learnloop-s2v/src/stages/main_video.py:182 | The scripts kept are exactly the non-empty ones. They keep their order, and each occurs as often as in the series. |
| `MainVideo.DirectRun` | learnloop-s2v/src/stages/main_video.py:126-178 | The prompt is sent once. The run raises exactly when that submission crashes. It exits 0 exactly when the download completes, listing "testing-101.mp4", and exits 1 with no completed file listed otherwise. |
| `MainVideo.SeriesRun` | learnloop-s2v/src/stages/main_video.py:180-284 | Without non-empty scripts the run exits 1. Unless both questions are answered yes, it exits 0 having sent nothing. Otherwise it sends the first `n` non-empty scripts, where `n` is the chosen count. It raises exactly when one of those submissions crashes. Otherwise it exits 0, payload `i` carries script `i` with the chosen avatar, voice and background flag, a part file is listed for exactly the completed downloads, and no other file is listed. |
| `MainVideo.RunMain` | learnloop-s2v/src/stages/main_video.py:105-284 | The exit code is 2 exactly when there is no prompt, and every exit code is between 0 and 2. The run then takes the direct path or the series path. On the series path a failed OpenAI request raises "OpenAI request failed", and an empty answer raises too. Anything is sent on that path only after both confirmations. |

## Left out

- Network and service code is not part of this model. That covers the fetch wrappers of `src/lib/api.ts`, the FAL wrapper `learnloop-s2v/src/utils/fal.py`, the backend server `backend/main.py` and the OpenAI call `_call_openai_json`. Their results are inputs: a `Fetch` outcome for the client, and for script generation either the raw answer plus its decoded JSON or the error with which the request failed. Which of the two OpenAI APIs answered, and how the answer's text blocks are joined, is not modelled.
- Timing and interleaving are left out. The model has no timers and no races between two uploads or two fetches in flight, and React's rendering and effects run as atomic transitions. After a failed upload the page's progress timeline keeps replacing the progress message, which is no longer on screen; the model leaves the message as it was.
- `UploadPage.Settle`: on success, the model shows all the progress frames before the response's videos. It does not model a response that arrives before the timeline has finished, because the page awaits the timeline before it shows anything.
- `ExplorePage.NumberOf`: reads only an optional sign followed by decimal digits, with surrounding white space ignored. Other JavaScript number syntax is read as `NaN`, because the model has no floating point: decimals, exponents, hexadecimal and `Infinity`. `Math.round` of a duration is therefore the identity.
- `Text.PyInt`: Python's `int` also accepts underscores between digits and non-ASCII digits, and it refuses very long digit strings. None of that is modelled.
- `GenScript.ScriptKeyNumber`: the model reads every digit run as its value. On Python 3.11 and later, `int` refuses a digit run longer than the interpreter's limit (4300 digits by default), and the `except Exception: continue` of `gen_script.py:178-181` and `gen_script.py:236-239` then skips that key. The model does not skip it, because the limit is a run-time setting of the interpreter.
- Text handling is ASCII. `isalnum`, `lower`, `strip` and JavaScript `trim`/`toLowerCase` are modelled on ASCII characters and white space. Unicode case mapping is not modelled.
- `Json.Repr`: `str()` of a list or dict value uses Python's layout but does not escape quotes or special characters inside strings.
- JSON numbers are integers only. Floating-point values are outside the `Json` model. That covers `str(value)` of a float script value (`gen_script.py:182`) and a float where the FAL result's `data`, `video` or `url` is expected.
- Decoded JSON objects are member lists in document order, and `get` returns the first member with a key. Python's `json.loads` keeps the last value of a repeated key; such answers are outside the model.
- `MainVideo.SubmitVideos`, `MainVideo.SendFirst`, `MainVideo.DirectRun` and `MainVideo.SeriesRun`: `videos` lists only completed downloads. `_download` opens the file before it streams the body (`main_video.py:74-79`). So a download that fails after the file is opened leaves a partial `{slug}_part-{idx}.mp4` or `testing-101.mp4` on disk, which `videos` does not list. The download outcome is modelled as completed or not, without the point at which it failed.
- `VideoCard.ClickVideo`: the model lets the video's `onClick` handler (`VideoCard.tsx:89-97`) run. Reading the markup, a pointer may never reach it. The "Tap to Play" overlay has no `onClick`, and it is a sibling of the video rather than its child. The two full-size gradient layers at `VideoCard.tsx:100-101` also sit above the video without `pointer-events-none`. The browser's hit-testing is not modelled.
- Files and the clock are left out. The model does not cover the timestamped output folder, `script.txt`, the `payload_{idx}.json` files, or which files remain when a run ends with an exception. The payloads and video files are recorded as lists instead.
- Console output, `.env` loading and `argparse` parsing are left out: the model starts from the parsed arguments. The `_on_update` log printer is left out because it only prints.
- The `gen_script.py` command-line entry point is left out, because it only parses arguments, calls `generate_scripts` and prints the result. So is `_timestamp_folder` in `main_video.py`.
- The prompt template's wording is left out. The template is a list of literal pieces and the two `format` slots, so the model does not fix its exact text.
- The rest of the visual presentation is left out: hover state, animation, class names, the created-date label and the comment and share buttons. Only what decides text, enabled state, highlighting and visibility is modelled.
- The other pages and components are not part of this model: the landing page, onboarding, the profile page, the reels feed, the bottom navigation, the background effects and the layout.

=== FILE: api.dfy ===
/** The records exchanged with the remote service (`src/lib/api.ts`). The
    fetch wrappers themselves are network I/O; each page model receives what
    an awaited call produced as a `Base.Fetch` value. */
module Api {
  import opened Base

  /** A JavaScript number as far as the pages use it: an integer or `NaN`. */
  datatype JsNumber = Finite(n: int) | NaN

  datatype FeedVideo = FeedVideo(
    id: string,
    title: string,
    topic: string,
    summary: string,
    script: string,
    keyPoints: seq<string>,
    filepath: string,
    duration: JsNumber,
    thumbnail: Option<string>,
    createdAt: string)

  datatype QuizQuestion = QuizQuestion(prompt: string, choices: seq<string>, answerIndex: int)

  datatype QuizPayload = QuizPayload(videoId: string, questions: seq<QuizQuestion>)

  /** The decoded body of a successful `POST /api/upload`. */
  datatype UploadResponse = UploadResponse(ok: bool, jobId: string, videos: seq<FeedVideo>)

  /** Every question's answer key points at one of its choices. */
  predicate WellFormedQuiz(q: QuizPayload) {
    forall i :: 0 <= i < |q.questions| ==>
      0 <= q.questions[i].answerIndex < |q.questions[i].choices|
  }
}

=== FILE: base.dfy ===
/** Small shared datatypes: optional values and the outcome of an awaited call. */
module Base {

  /** A value that may be absent: JavaScript `undefined`/`null`, Python `None`. */
  datatype Option<+T> = None | Some(value: T) {

    /** The value, or `default` when absent. */
    function GetOr(default: T): T {
      match this
      case Some(v) => v
      case None => default
    }
  }

  /** How an awaited call ended: it resolved with a value, or it rejected
      (the page only logs the rejection, so no error payload is kept). */
  datatype Fetch<+T> = Ok(value: T) | Failed

  /** A Python call that returns a value or raises with a message. */
  datatype Result<+T> = Success(value: T) | Raised(message: string)

  function Min(a: int, b: int): int { if a <= b then a else b }

  function Max(a: int, b: int): int { if a >= b then a else b }
}

=== FILE: explore_page.dfy ===
/** The explore library page (`src/app/explore/page.tsx`): the demo catalogue
    seeded as feed items, the live feed merged in front of it, the subject and
    style option lists, the three-way filter, and the `m:ss` duration parser. */
module ExplorePage {
  import opened Base
  import opened Api
  import opened Text
  import Seqs

  // --------------------------------------------------------------- duration

  /** JavaScript `Number(text)` restricted to the integer syntax: white space
      around the text is ignored, blank text is 0, signed decimal digits are
      their value, and anything else is `NaN`. */
  function NumberOf(text: string): (r: JsNumber)
    ensures JsTrim(text) == "" ==> r == Finite(0)
    ensures r.NaN? <==> JsTrim(text) != "" && SignedDecimal(JsTrim(text)).None?
  {
    var t := JsTrim(text);
    if t == "" then Finite(0)
    else
      match SignedDecimal(t)
      case Some(n) => Finite(n)
      case None => NaN
  }

  /** Every integer, rendered and wrapped in any JavaScript white space,
      reads back as itself. */
  lemma NumberOfPadded(front: string, n: int, back: string)
    requires forall k :: 0 <= k < |front| ==> IsJsSpace(front[k])
    requires forall k :: 0 <= k < |back| ==> IsJsSpace(back[k])
    ensures NumberOf(front + IntToDecimal(n) + back) == Finite(n)
  {
    DecimalEnds(n);
    TrimPadded(front, IntToDecimal(n), back, IsJsSpace);
    SignedDecimalRoundTrip(n);
  }

  /** `parseDuration`: "" is 30 seconds; otherwise the text is split on ':'
      and the first two parts are read as minutes and seconds. */
  function ParseDuration(duration: string): (r: JsNumber)
    ensures duration == "" ==> r == Finite(30)
    ensures ':' in duration ==> r.Finite?
    ensures r.NaN? <==> duration != "" && ':' !in duration && NumberOf(duration).Finite?
  {
    if duration == "" then Finite(30)
    else
      SplitPartsCount(duration, ':');
      FromParts(SplitOn(duration, ":"))
  }

  /** Minutes and seconds from the parts of the split: a `NaN` part gives
      30, but a single part leaves the seconds `undefined`, which
      `Number.isNaN` does not catch, so the sum itself is `NaN`. */
  function FromParts(parts: seq<string>): (r: JsNumber)
    requires |parts| >= 1
    ensures r.NaN? <==> |parts| == 1 && NumberOf(parts[0]).Finite?
  {
    var minutes := NumberOf(parts[0]);
    if minutes.NaN? then Finite(30)
    else if |parts| == 1 then NaN
    else
      var seconds := NumberOf(parts[1]);
      if seconds.NaN? then Finite(30) else Finite(minutes.n * 60 + seconds.n)
  }

  /** Minutes and seconds written in digits give `m * 60 + s`. */
  lemma MinutesAndSeconds(d: string, m: string, s: string)
    requires |m| >= 1 && IsDigits(m) && |s| >= 1 && IsDigits(s)
    requires d == m + [':'] + s
    ensures ParseDuration(d) == Finite(DigitsValue(m) * 60 + DigitsValue(s))
  {
    DigitsHaveNoColon(m);
    DigitsHaveNoColon(s);
    SplitTwo(m, s, ':');
    assert |d| > 0;
    assert ParseDuration(d) == FromParts([m, s]);
    FromDigitParts(m, s);
  }

  lemma FromDigitParts(m: string, s: string)
    requires |m| >= 1 && IsDigits(m) && |s| >= 1 && IsDigits(s)
    ensures FromParts([m, s]) == Finite(DigitsValue(m) * 60 + DigitsValue(s))
  {
    NumberOfDigits(m);
    NumberOfDigits(s);
    FromTwoParts(m, s);
  }

  /** Decimal digits read as their value. */
  lemma NumberOfDigits(d: string)
    requires |d| >= 1 && IsDigits(d)
    ensures NumberOf(d) == Finite(DigitsValue(d))
  {
    DigitsTrimUnchanged(d);
  }

  /** Two readable parts give minutes times 60 plus seconds. */
  lemma FromTwoParts(m: string, s: string)
    requires NumberOf(m).Finite? && NumberOf(s).Finite?
    ensures FromParts([m, s]) == Finite(NumberOf(m).n * 60 + NumberOf(s).n)
  {
  }

  lemma DigitsHaveNoColon(s: string)
    requires IsDigits(s)
    ensures ':' !in s
  {
    assert forall i :: 0 <= i < |s| ==> IsDigit(s[i]);
  }

  /** A colon-free number is `NaN` rather than 30. */
  lemma BareNumberIsNaN()
    ensures ParseDuration("5") == NaN
  {
    assert IsDigits("5") && |"5"| >= 1;
    NumberOfDigits("5");
  }

  /** Unreadable minutes give 30. */
  lemma UnreadablePartsGive30(d: string)
    requires d == "a:b"
    ensures ParseDuration(d) == Finite(30)
  {
    assert NumberOf("a").NaN? by {
      DigitsTrimUnchanged("a");
      assert JsTrim("a") == "a" by { TrimUnchanged("a", IsJsSpace); }
    }
    assert d == "a" + [':'] + "b";
    SplitAtFirst("a", "b", ':');
    SplitNoSeparator("b", ':');
    assert SplitOn(d, ":") == ["a", "b"];
  }

  // ----------------------------------------------------------- demo catalogue

  /** An entry of the demo catalogue (`src/lib/videos.ts`). */
  datatype DemoVideo = DemoVideo(
    id: string,
    title: string,
    subject: string,
    creatorStyle: string,
    duration: string,
    mp4Url: Option<string>)

  const DemoVideos: seq<DemoVideo> := [
    DemoVideo("v1", "Newton’s Laws Explained in 30s", "Physics", "Explainer", "0:30",
              Some("https://storage.googleapis.com/gtv-videos-bucket/sample/ForBiggerJoyrides.mp4")),
    DemoVideo("v2", "Derivatives: Intuition + Slopes", "Calculus", "Whiteboard", "0:28",
              Some("https://storage.googleapis.com/gtv-videos-bucket/sample/ForBiggerFun.mp4")),
    DemoVideo("v3", "Chain Rule in 30s", "Calculus", "Animated", "0:32",
              Some("https://storage.googleapis.com/gtv-videos-bucket/sample/ForBiggerEscapes.mp4")),
    DemoVideo("v4", "Photosynthesis Visualized", "Biology", "Show & tell", "0:27",
              Some("https://storage.googleapis.com/gtv-videos-bucket/sample/ForBiggerMeltdowns.mp4")),
    DemoVideo("v5", "Supply & Demand in 40s", "Economics", "Explainer", "0:40",
              Some("https://storage.googleapis.com/gtv-videos-bucket/sample/BigBuckBunny.mp4"))
  ]

  /** The catalogue's durations read as 30, 28, 32, 27 and 40 seconds. */
  lemma DemoDurations(i: int)
    requires 0 <= i < |DemoVideos|
    ensures ParseDuration(DemoVideos[i].duration) == Finite([30, 28, 32, 27, 40][i])
  {
    var d := DemoVideos[i].duration;
    assert |d| == 4 && d[0] == '0' && d[1] == ':' && IsDigit(d[2]) && IsDigit(d[3])
      && DigitValue(d[2]) * 10 + DigitValue(d[3]) == [30, 28, 32, 27, 40][i];
    ZeroMinutes(d, d[2], d[3]);
  }

  /** A duration "0:ab" of two second digits. */
  lemma ZeroMinutes(d: string, a: char, b: char)
    requires IsDigit(a) && IsDigit(b) && d == ['0', ':', a, b]
    ensures ParseDuration(d) == Finite(DigitValue(a) * 10 + DigitValue(b))
  {
    var s := [a, b];
    assert IsDigits("0") && IsDigits(s);
    assert DigitsValue("0") == 0;
    assert s[..1] == [a];
    assert DigitsValue(s) == DigitValue(a) * 10 + DigitValue(b);
    assert d == "0" + [':'] + s;
    MinutesAndSeconds(d, "0", s);
  }

  /** A feed item with the page's optional `creatorStyle`. */
  datatype ExploreVideo = ExploreVideo(video: FeedVideo, creatorStyle: Option<string>)

  /** A demo entry as a feed item; `now` is the ISO time stamp of seeding. */
  function Seed(demo: DemoVideo, now: string): (r: ExploreVideo)
    ensures r.video.id == "demo-" + demo.id
    ensures r.video.title == demo.title && r.video.topic == demo.subject
    ensures r.video.summary == "Creator style: " + demo.creatorStyle + ". Duration " + demo.duration + "."
    ensures r.video.script == "" && r.video.keyPoints == []
    ensures r.video.filepath == demo.mp4Url.GetOr("")
    ensures r.video.duration == ParseDuration(demo.duration)
    ensures r.video.thumbnail == None && r.video.createdAt == now
    ensures r.creatorStyle == Some(demo.creatorStyle)
  {
    var filepath := if demo.mp4Url.Some? && demo.mp4Url.value != "" then demo.mp4Url.value else "";
    ExploreVideo(
      FeedVideo(
        "demo-" + demo.id,
        demo.title,
        demo.subject,
        "Creator style: " + demo.creatorStyle + ". Duration " + demo.duration + ".",
        "",
        [],
        filepath,
        ParseDuration(demo.duration),
        None,
        now),
      Some(demo.creatorStyle))
  }

  function SeedAll(demos: seq<DemoVideo>, now: string): (r: seq<ExploreVideo>)
    ensures |r| == |demos| && forall i :: 0 <= i < |demos| ==> r[i] == Seed(demos[i], now)
  {
    seq(|demos|, i requires 0 <= i < |demos| => Seed(demos[i], now))
  }

  /** The live feed's `.then`: its items, tagged "AI", go in front of the
      items already listed. */
  function MergeLive(prev: seq<ExploreVideo>, feed: seq<FeedVideo>): (r: seq<ExploreVideo>)
    ensures |r| == |feed| + |prev|
    ensures forall i :: 0 <= i < |feed| ==> r[i] == ExploreVideo(feed[i], Some("AI"))
    ensures r[|feed|..] == prev
  {
    seq(|feed|, i requires 0 <= i < |feed| => ExploreVideo(feed[i], Some("AI"))) + prev
  }

  /** What the mount effect leaves once the live feed has settled: a failed
      fetch keeps the seeded catalogue alone. */
  function LoadExplore(demos: seq<DemoVideo>, now: string, outcome: Fetch<seq<FeedVideo>>): (r: seq<ExploreVideo>)
    ensures outcome.Failed? ==> r == SeedAll(demos, now)
    ensures outcome.Ok? ==> r == MergeLive(SeedAll(demos, now), outcome.value)
    ensures r[|r| - |demos|..] == SeedAll(demos, now)
  {
    var seeded := SeedAll(demos, now);
    match outcome
    case Ok(feed) => MergeLive(seeded, feed)
    case Failed => seeded
  }

  // ---------------------------------------------------------------- options

  function TopicList(videos: seq<ExploreVideo>): (ts: seq<string>)
    ensures |ts| == |videos| && forall i :: 0 <= i < |videos| ==> ts[i] == videos[i].video.topic
  {
    seq(|videos|, i requires 0 <= i < |videos| => videos[i].video.topic)
  }

  /** A video's style as a JavaScript condition reads it: a missing style
      counts as the empty, falsy string. */
  function StyleText(style: Option<string>): string {
    match style
    case Some(x) => x
    case None => ""
  }

  /** Each video's style text, in video order. */
  function StyleSlots(videos: seq<ExploreVideo>): (ss: seq<string>)
    ensures |ss| == |videos| && forall i :: 0 <= i < |videos| ==> ss[i] == StyleText(videos[i].creatorStyle)
  {
    seq(|videos|, i requires 0 <= i < |videos| => StyleText(videos[i].creatorStyle))
  }

  /** The styles that are set and non-empty (JavaScript truthiness), in
      video order and with every occurrence kept. */
  function StyleList(videos: seq<ExploreVideo>): (ss: seq<string>)
    ensures forall x :: x in ss <==>
      x != "" && exists i :: 0 <= i < |videos| && videos[i].creatorStyle == Some(x)
    ensures Seqs.IsSubseq(ss, StyleSlots(videos))
    ensures forall x :: x != "" ==> multiset(ss)[x] == multiset(StyleSlots(videos))[x]
    ensures "" !in ss
  {
    var slots := StyleSlots(videos);
    var truthy := (x: string) => x != "";
    Seqs.FilterKeepsOrder(slots, truthy);
    forall x | x != "" && x in slots
      ensures exists i :: 0 <= i < |videos| && videos[i].creatorStyle == Some(x)
    {
      var i :| 0 <= i < |slots| && slots[i] == x;
    }
    forall x, i | 0 <= i < |videos| && videos[i].creatorStyle == Some(x)
      ensures x in slots
    {
      assert slots[i] == x;
    }
    Seqs.Filter(slots, truthy)
  }

  /** `subjects`: "All", then each topic not yet listed. */
  function Subjects(videos: seq<ExploreVideo>): (r: seq<string>)
    ensures |r| >= 1 && r[0] == "All" && Seqs.NoDups(r)
    ensures forall t :: t in r <==> t == "All" || t in TopicList(videos)
  {
    Seqs.Distinct(["All"], TopicList(videos))
  }

  /** `styles`: "All", then each style that is set, not yet listed. */
  function Styles(videos: seq<ExploreVideo>): (r: seq<string>)
    ensures |r| >= 1 && r[0] == "All" && Seqs.NoDups(r)
    ensures forall x :: x in r <==>
      x == "All" || (x != "" && exists i :: 0 <= i < |videos| && videos[i].creatorStyle == Some(x))
  {
    Seqs.Distinct(["All"], StyleList(videos))
  }

  /** The subject options after "All" follow the order in which topics first
      occur, as a `Set` keeps insertion order. */
  lemma SubjectsInFirstOccurrenceOrder(videos: seq<ExploreVideo>, i: int, j: int)
    requires 1 <= i < j < |Subjects(videos)|
    ensures var ts, r := TopicList(videos), Subjects(videos);
      && r[i] in ts && r[j] in ts
      && Seqs.FirstIndex(ts, r[i]) < Seqs.FirstIndex(ts, r[j])
  {
    Seqs.DistinctFirstOccurrenceOrder(["All"], TopicList(videos), i, j);
  }

  /** The style options after "All" follow the order in which the set
      styles first occur. */
  lemma StylesInFirstOccurrenceOrder(videos: seq<ExploreVideo>, i: int, j: int)
    requires 1 <= i < j < |Styles(videos)|
    ensures var ss, r := StyleList(videos), Styles(videos);
      && r[i] in ss && r[j] in ss
      && Seqs.FirstIndex(ss, r[i]) < Seqs.FirstIndex(ss, r[j])
  {
    Seqs.DistinctFirstOccurrenceOrder(["All"], StyleList(videos), i, j);
  }

  // ----------------------------------------------------------------- filter

  /** Case-insensitive `includes`. */
  predicate MentionsFolded(text: string, search: string) {
    Contains(Lower(text), Lower(search))
  }

  /** The `filtered` predicate: subject, style and search must all match. */
  predicate Matches(v: ExploreVideo, subject: string, style: string, search: string) {
    && (subject == "All" || v.video.topic == subject)
    && (style == "All" || v.creatorStyle == Some(style))
    && (|search| == 0 || MentionsFolded(v.video.title, search) || MentionsFolded(v.video.summary, search))
  }

  function Filtered(videos: seq<ExploreVideo>, subject: string, style: string, search: string): (r: seq<ExploreVideo>)
    ensures forall v :: v in r <==> v in videos && Matches(v, subject, style, search)
    ensures forall v :: Matches(v, subject, style, search) ==> multiset(r)[v] == multiset(videos)[v]
    ensures Seqs.IsSubseq(r, videos)
    ensures subject == "All" && style == "All" && search == "" ==> r == videos
  {
    var matching := (v: ExploreVideo) => Matches(v, subject, style, search);
    Seqs.FilterKeepsOrder(videos, matching);
    Seqs.Filter(videos, matching)
  }

  /** The search ignores case: a lower-cased query keeps the same videos. */
  lemma SearchIgnoresCase(videos: seq<ExploreVideo>, subject: string, style: string, search: string)
    ensures Filtered(videos, subject, style, Lower(search)) == Filtered(videos, subject, style, search)
  {
    LowerIdempotent(search);
    Seqs.FilterCongruent(videos,
      (v: ExploreVideo) => Matches(v, subject, style, Lower(search)),
      (v: ExploreVideo) => Matches(v, subject, style, search));
  }

  /** Narrowing the subject from "All" keeps only that subject's videos. */
  lemma SubjectNarrows(videos: seq<ExploreVideo>, subject: string, style: string, search: string)
    requires subject != "All"
    ensures forall v :: v in Filtered(videos, subject, style, search) ==>
      v in Filtered(videos, "All", style, search) && v.video.topic == subject
  {
  }

  // ------------------------------------------------------------------- card

  /** The duration badge: a truthy number shows as seconds, `0` and `NaN`
      show "Quick". */
  function DurationLabel(d: JsNumber): (r: string)
    ensures r == "Quick" <==> d.NaN? || d == Finite(0)
    ensures d.Finite? && d.n != 0 ==> r == IntToDecimal(d.n) + "s"
  {
    if d.Finite? && d.n != 0 then
      var badge := IntToDecimal(d.n) + "s";
      assert badge[|badge| - 1] == 's';
      badge
    else "Quick"
  }

  /** The key-point chips: at most three, an empty point shown as
      "Concept highlight". */
  function Chips(keyPoints: seq<string>): (r: seq<string>)
    ensures |r| == Min(3, |keyPoints|)
    ensures forall i :: 0 <= i < |r| ==>
      r[i] == (if keyPoints[i] == "" then "Concept highlight" else keyPoints[i])
  {
    var n := Min(3, |keyPoints|);
    seq(n, i requires 0 <= i < n => if keyPoints[i] == "" then "Concept highlight" else keyPoints[i])
  }
}

=== FILE: feed_page.dfy ===
/** The study feed page (`src/app/feed/page.tsx`): loading the feed, the topic
    chips and the topic filter, which of spinner / error / empty state / cards
    is shown, and opening the quiz drawer with a fallback quiz when the quiz
    service fails. Each async handler is one atomic transition that receives
    the outcome of its awaited call. */
module FeedPage {
  import opened Base
  import opened Api
  import Seqs
  import VideoCard

  const FeedErrorMessage: string := "We couldn’t fetch the feed. Try again in a bit."
  const FallbackPrompt: string := "We couldn’t reach the quiz service. Try again?"
  const FallbackChoices: seq<string> := ["Retry", "Cancel", "Refresh feed"]

  datatype FeedState = FeedState(
    videos: seq<FeedVideo>,
    loading: bool,
    error: Option<string>,
    activeTopic: string,
    quiz: Option<QuizPayload>,
    isQuizLoading: bool)

  const Initial: FeedState := FeedState([], true, None, "All", None, false)

  /** JavaScript truthiness of the `error` state (`null` and `""` are false). */
  predicate ErrorShown(error: Option<string>) {
    error.Some? && error.value != ""
  }

  // ---------------------------------------------------------------- loading

  /** The synchronous start of `loadFeed`. */
  function StartLoad(st: FeedState): FeedState {
    st.(loading := true, error := None)
  }

  /** `loadFeed` run to completion with the outcome of `fetchFeed()`: on
      success the videos are replaced and no error is set; on failure the old
      videos stay and the error message is set; loading is over either way. */
  function LoadFeed(st: FeedState, outcome: Fetch<seq<FeedVideo>>): (r: FeedState)
    ensures !r.loading
    ensures outcome.Ok? ==> r.videos == outcome.value && r.error == None
    ensures outcome.Failed? ==>
      r.videos == st.videos && r.error == Some(FeedErrorMessage) && ErrorShown(r.error)
    ensures r.activeTopic == st.activeTopic && r.quiz == st.quiz && r.isQuizLoading == st.isQuizLoading
  {
    var started := StartLoad(st);
    match outcome
    case Ok(data) => started.(videos := data, loading := false)
    case Failed => started.(error := Some(FeedErrorMessage), loading := false)
  }

  // ----------------------------------------------------------------- topics

  function TopicList(videos: seq<FeedVideo>): (ts: seq<string>)
    ensures |ts| == |videos| && forall i :: 0 <= i < |videos| ==> ts[i] == videos[i].topic
  {
    seq(|videos|, i requires 0 <= i < |videos| => videos[i].topic)
  }

  /** The topic chips: "All", then each distinct topic once. */
  function Topics(videos: seq<FeedVideo>): (r: seq<string>)
    ensures |r| >= 1 && r[0] == "All"
    ensures forall t :: t in r[1..] <==> t in TopicList(videos)
    ensures Seqs.NoDups(r[1..])
  {
    ["All"] + Seqs.Distinct([], TopicList(videos))
  }

  /** The chips after "All" follow the order in which topics first occur. */
  lemma TopicsInFirstOccurrenceOrder(videos: seq<FeedVideo>, i: int, j: int)
    requires 1 <= i < j < |Topics(videos)|
    ensures var ts, chips := TopicList(videos), Topics(videos);
      && chips[i] in ts && chips[j] in ts
      && Seqs.FirstIndex(ts, chips[i]) < Seqs.FirstIndex(ts, chips[j])
  {
    ChipsOrder(TopicList(videos), i, j);
  }

  lemma ChipsOrder(ts: seq<string>, i: int, j: int)
    requires 1 <= i < j < 1 + |Seqs.Distinct([], ts)|
    ensures var chips := ["All"] + Seqs.Distinct([], ts);
      && chips[i] in ts && chips[j] in ts
      && Seqs.FirstIndex(ts, chips[i]) < Seqs.FirstIndex(ts, chips[j])
  {
    var d := Seqs.Distinct([], ts);
    var chips := ["All"] + d;
    assert chips[i] == d[i - 1] && chips[j] == d[j - 1];
    Seqs.DistinctFirstOccurrenceOrder([], ts, i - 1, j - 1);
  }

  /** Pressing a topic chip makes it the active topic. */
  function SelectTopic(st: FeedState, topic: string): (r: FeedState)
    ensures r.activeTopic == topic && r.(activeTopic := st.activeTopic) == st
    ensures topic != "All" ==> forall v :: v in FilteredVideos(r.videos, r.activeTopic) ==> v.topic == topic
  {
    st.(activeTopic := topic)
  }

  // ----------------------------------------------------------------- filter

  /** `filteredVideos`: everything under "All", otherwise the videos of the
      active topic in their original order. */
  function FilteredVideos(videos: seq<FeedVideo>, activeTopic: string): (r: seq<FeedVideo>)
    ensures activeTopic == "All" ==> r == videos
    ensures activeTopic != "All" ==>
      && (forall v :: v in r <==> v in videos && v.topic == activeTopic)
      && (forall v: FeedVideo :: v.topic == activeTopic ==> multiset(r)[v] == multiset(videos)[v])
      && Seqs.IsSubseq(r, videos)
  {
    if activeTopic == "All" then videos
    else
      var onTopic := (v: FeedVideo) => v.topic == activeTopic;
      Seqs.FilterKeepsOrder(videos, onTopic);
      Seqs.Filter(videos, onTopic)
  }

  // ------------------------------------------------------------------- view

  datatype View = Spinner | ErrorPanel(message: string) | EmptyState | Cards(shown: seq<FeedVideo>)

  /** Which block the list area shows; the constructors make the four
      mutually exclusive. */
  function ViewOf(st: FeedState): (v: View)
    ensures v == Spinner <==> st.loading
    ensures v.ErrorPanel? <==> !st.loading && ErrorShown(st.error)
    ensures v == EmptyState <==>
      !st.loading && !ErrorShown(st.error) && |FilteredVideos(st.videos, st.activeTopic)| == 0
    ensures v.Cards? <==>
      !st.loading && !ErrorShown(st.error) && |FilteredVideos(st.videos, st.activeTopic)| > 0
    ensures v.Cards? ==> v.shown == FilteredVideos(st.videos, st.activeTopic)
  {
    var filtered := FilteredVideos(st.videos, st.activeTopic);
    if st.loading then Spinner
    else if ErrorShown(st.error) then ErrorPanel(st.error.value)
    else if |filtered| == 0 then EmptyState
    else Cards(filtered)
  }

  /** A feed that loads with no videos shows the empty state, not an error;
      a rejected fetch shows the error panel; retrying shows the spinner. */
  lemma LoadScenarios(st: FeedState)
    ensures ViewOf(LoadFeed(st, Ok([]))) == EmptyState
    ensures ViewOf(LoadFeed(st, Failed)) == ErrorPanel(FeedErrorMessage)
    ensures ViewOf(StartLoad(LoadFeed(st, Failed))) == Spinner
  {
  }

  // ------------------------------------------------------------------- quiz

  /** The one-question quiz shown when `fetchQuiz` fails. */
  function FallbackQuiz(videoId: string): (q: QuizPayload)
    ensures q.videoId == videoId && |q.questions| == 1
    ensures q.questions[0].choices == ["Retry", "Cancel", "Refresh feed"]
    ensures q.questions[0].answerIndex == 0
    ensures WellFormedQuiz(q)
  {
    QuizPayload(videoId, [QuizQuestion(FallbackPrompt, FallbackChoices, 0)])
  }

  /** The synchronous start of `handleQuiz`. */
  function StartQuiz(st: FeedState): FeedState {
    st.(isQuizLoading := true)
  }

  /** `handleQuiz(videoId)` run to completion with the outcome of
      `fetchQuiz(videoId)`: the drawer opens with the payload, or with the
      fallback quiz for the same video; quiz loading is over either way. */
  function HandleQuiz(st: FeedState, videoId: string, outcome: Fetch<QuizPayload>): (r: FeedState)
    ensures StartQuiz(st).isQuizLoading && !r.isQuizLoading
    ensures outcome.Ok? ==> r.quiz == Some(outcome.value)
    ensures outcome.Failed? ==> r.quiz == Some(FallbackQuiz(videoId))
    ensures r.(quiz := st.quiz, isQuizLoading := st.isQuizLoading) == st
  {
    var started := StartQuiz(st);
    match outcome
    case Ok(payload) => started.(quiz := Some(payload), isQuizLoading := false)
    case Failed => started.(quiz := Some(FallbackQuiz(videoId)), isQuizLoading := false)
  }

  /** A card's brain button always opens a quiz. When the quiz service
      fails, the fallback quiz carries that card's video id; when it
      answers, its payload opens as returned, with its `videoId` unchecked. */
  lemma CardOpensOwnQuiz(st: FeedState, v: FeedVideo, outcome: Fetch<QuizPayload>)
    ensures VideoCard.QuizRequest(v, true).Some?
    ensures var r := HandleQuiz(st, VideoCard.QuizRequest(v, true).value, outcome);
      && r.quiz.Some?
      && (outcome.Failed? ==> r.quiz.value.videoId == v.id)
      && (outcome.Ok? ==> r.quiz == Some(outcome.value))
  {
  }

  /** Closing the drawer (`onClose`) drops the quiz. */
  function CloseQuiz(st: FeedState): (r: FeedState)
    ensures r.quiz == None && r.(quiz := st.quiz) == st
  {
    st.(quiz := None)
  }
}

=== FILE: gen_script.dfy ===
/** Script generation (`learnloop-s2v/src/stages/gen_script.py`): filling the
    prompt template, reading the numbered scripts out of the model's decoded
    JSON answer, the blank-line fallback for answers that are not the expected
    JSON, and the normalisation to exactly `count` scripts. The model call and
    `json.loads` are not modelled: the raw answer and its decoded value (or
    `None` when decoding raises) are inputs. */
module GenScript {
  import opened Base
  import opened Text
  import opened Json

  // ----------------------------------------------------------------- prompt

  /** The `{plural}` slot: "s" unless exactly one video is asked for. */
  function Plural(count: int): (r: string)
    ensures r == "s" <==> count != 1
    ensures r == "" <==> count == 1
  {
    if count != 1 then "s" else ""
  }

  /** A piece of the prompt template: literal text (braces already
      unescaped), or one of the two `str.format` slots. */
  datatype Piece = Literal(text: string) | CountSlot | PluralSlot

  /** `_build_generation_prompt`: `template.format(count=..., plural=...)`. */
  function BuildPrompt(template: seq<Piece>, count: int): (r: string)
    ensures |template| == 0 ==> r == ""
    ensures |template| > 0 && template[0].Literal? ==> StartsWith(r, template[0].text)
  {
    if |template| == 0 then ""
    else
      var head := match template[0]
        case Literal(text) => text
        case CountSlot => IntToDecimal(count)
        case PluralSlot => Plural(count);
      var r := head + BuildPrompt(template[1..], count);
      assert r[..|head|] == head;
      r
  }

  /** Formatting distributes over concatenation of templates. */
  lemma {:induction false} BuildPromptAppend(a: seq<Piece>, b: seq<Piece>, count: int)
    ensures BuildPrompt(a + b, count) == BuildPrompt(a, count) + BuildPrompt(b, count)
    decreases |a|
  {
    if |a| == 0 {
      assert a + b == b;
    } else {
      assert (a + b)[1..] == a[1..] + b;
      BuildPromptAppend(a[1..], b, count);
    }
  }

  /** The count slot and the plural slot render as Python prints them. */
  lemma SlotsRender(count: int)
    ensures BuildPrompt([CountSlot], count) == IntToDecimal(count)
    ensures BuildPrompt([Literal("video"), PluralSlot], count) == "video" + Plural(count)
    ensures BuildPrompt([Literal("video"), PluralSlot], 1) == "video"
  {
  }

  /** The single input sent to the model: instructions, the user's source
      text, and the closing request. */
  function InputText(instructions: string, userPrompt: string, count: int): (r: string)
    ensures StartsWith(r, instructions + "\n\nsource_text (from user):\n" + userPrompt)
    ensures var closing := "\n\nReturn exactly " + IntToDecimal(count) + " scripts inside the strict JSON schema above.";
      && |r| == |instructions + "\n\nsource_text (from user):\n" + userPrompt| + |closing|
      && r[|r| - |closing|..] == closing
  {
    var opening := instructions + "\n\nsource_text (from user):\n" + userPrompt;
    var closing := "\n\nReturn exactly " + IntToDecimal(count) + " scripts inside the strict JSON schema above.";
    var r := opening + closing;
    assert r[..|opening|] == opening;
    assert r[|r| - |closing|..] == closing;
    r
  }

  // ------------------------------------------------------------ script keys

  /** The text after "script" in a stripped key, with leading white space
      dropped: what `\s*` leaves for `([0-9]+)$`. */
  function KeyDigits(k: string): string
    requires |k| >= 6
  {
    TrimStart(k[6..], IsPySpace)
  }

  /** "script" in any letter case. */
  predicate IsScriptWord(w: string) {
    |w| == 6 && forall i :: 0 <= i < 6 ==> LowerChar(w[i]) == "script"[i]
  }

  /** The stripped key `k` is "script" in any letter case, then white space
      up to offset `j`, then decimal digits from `j` to its end. */
  predicate IsScriptKeyAt(k: string, j: int) {
    6 <= j < |k| && IsScriptWord(k[..6])
    && (forall i :: 6 <= i < j ==> IsPySpace(k[i]))
    && IsDigits(k[j..])
  }

  /** `re.match(r"^script\s*([0-9]+)$", key.strip(), re.IGNORECASE)` and
      `int` of the group: a key has a number exactly when its stripped form
      splits into "script", a white-space gap and at least one digit, and the
      number is the value of those digits. */
  function ScriptKeyNumber(key: string): (r: Option<nat>)
    ensures r.Some? <==> exists j :: IsScriptKeyAt(PyStrip(key), j)
    ensures forall j :: IsScriptKeyAt(PyStrip(key), j) ==> r == Some(DigitsValue(PyStrip(key)[j..]))
  {
    var k := PyStrip(key);
    KeyShape(k);
    if |k| > 6 && Lower(k[..6]) == "script" && |KeyDigits(k)| >= 1 && IsDigits(KeyDigits(k))
    then Some(DigitsValue(KeyDigits(k)))
    else None
  }

  /** The test the matcher performs, read as a decomposition of the key. */
  lemma KeyShape(k: string)
    ensures (|k| > 6 && Lower(k[..6]) == "script" && |KeyDigits(k)| >= 1 && IsDigits(KeyDigits(k)))
      <==> exists j :: IsScriptKeyAt(k, j)
    ensures forall j :: IsScriptKeyAt(k, j) ==> KeyDigits(k) == k[j..]
  {
    if |k| > 6 && Lower(k[..6]) == "script" && |KeyDigits(k)| >= 1 && IsDigits(KeyDigits(k)) {
      var d := KeyDigits(k);
      var j := |k| - |d|;
      assert d == k[j..];
      forall i | 6 <= i < j ensures IsPySpace(k[i]) {
        assert k[i] == k[6..][i - 6];
      }
      assert forall i :: 0 <= i < 6 ==> LowerChar(k[..6][i]) == Lower(k[..6])[i];
      assert IsScriptKeyAt(k, j);
    }
    forall j | IsScriptKeyAt(k, j) ensures KeyDigits(k) == k[j..] {
      KeyGap(k, j);
    }
    if exists j :: IsScriptKeyAt(k, j) {
      var j :| IsScriptKeyAt(k, j);
      KeyGap(k, j);
      ScriptWordLower(k[..6]);
    }
  }

  lemma KeyGap(k: string, j: int)
    requires IsScriptKeyAt(k, j)
    ensures KeyDigits(k) == k[j..]
  {
    assert k[6..] == k[6..j] + k[j..];
    assert IsDigit(k[j..][0]);
    TrimStartPrefix(k[6..j], k[j..], IsPySpace);
  }

  /** A key made of "script" in any letter case, white space, and decimal
      digits, with white space around it, reads as the value of the digits. */
  lemma ScriptKeyDigits(prefix: string, gap: string, digits: string, pad: string)
    requires IsScriptWord(prefix)
    requires forall k :: 0 <= k < |gap| ==> IsPySpace(gap[k])
    requires |digits| >= 1 && IsDigits(digits)
    requires forall k :: 0 <= k < |pad| ==> IsPySpace(pad[k])
    ensures ScriptKeyNumber(pad + prefix + gap + digits + pad) == Some(DigitsValue(digits))
  {
    var core := prefix + (gap + digits);
    ScriptCore(prefix, gap, digits);
    Regroup(pad, prefix, gap, digits);
    StripPadded(pad, core);
    StrippedScriptKey(pad + core + pad, core);
  }

  /** A key whose stripped form is a script key core reads as its digits. */
  lemma StrippedScriptKey(key: string, core: string)
    requires PyStrip(key) == core
    requires |core| > 6 && Lower(core[..6]) == "script"
    requires |KeyDigits(core)| >= 1 && IsDigits(KeyDigits(core))
    ensures ScriptKeyNumber(key) == Some(DigitsValue(KeyDigits(core)))
  {
  }

  lemma StripPadded(pad: string, core: string)
    requires forall k :: 0 <= k < |pad| ==> IsPySpace(pad[k])
    requires |core| > 0 && !IsPySpace(core[0]) && !IsPySpace(core[|core| - 1])
    ensures PyStrip(pad + core + pad) == core
  {
    TrimPadded(pad, core, pad, IsPySpace);
  }

  /** The stripped key: it neither starts nor ends with white space, spells
      "script" first, and leaves exactly the digits once the gap is dropped. */
  lemma ScriptCore(prefix: string, gap: string, digits: string)
    requires IsScriptWord(prefix)
    requires forall k :: 0 <= k < |gap| ==> IsPySpace(gap[k])
    requires |digits| >= 1 && IsDigits(digits)
    ensures var core := prefix + (gap + digits);
      && !IsPySpace(core[0]) && !IsPySpace(core[|core| - 1])
      && |core| > 6 && Lower(core[..6]) == "script" && KeyDigits(core) == digits
  {
    var tail := gap + digits;
    var core := prefix + tail;
    CoreEnds(prefix, tail, digits);
    assert core[..6] == prefix && core[6..] == tail;
    ScriptWordLower(prefix);
    TrimStartPrefix(gap, digits, IsPySpace);
  }

  /** "script" in any case starts with a letter; the digits end with one. */
  lemma CoreEnds(prefix: string, tail: string, digits: string)
    requires IsScriptWord(prefix)
    requires |digits| >= 1 && IsDigits(digits) && |tail| >= |digits| && tail[|tail| - |digits|..] == digits
    ensures var core := prefix + tail; !IsPySpace(core[0]) && !IsPySpace(core[|core| - 1])
  {
    var core := prefix + tail;
    assert core[0] == prefix[0] && LowerChar(prefix[0]) == 's';
    assert core[|core| - 1] == tail[|tail| - 1] == digits[|digits| - 1];
    assert IsDigit(digits[|digits| - 1]);
  }

  /** Regrouping the key's pieces, kept apart so the sequence algebra stays
      out of the key proofs. */
  lemma Regroup(pad: string, prefix: string, gap: string, digits: string)
    ensures pad + prefix + gap + digits + pad == pad + (prefix + (gap + digits)) + pad
  {
  }

  lemma ScriptWordLower(w: string)
    requires IsScriptWord(w)
    ensures Lower(w) == "script"
  {
  }

  /** Every key rendered as "script", white space, then a number reads back
      as that number. */
  lemma ScriptKeyRoundTrip(prefix: string, gap: string, n: nat, pad: string)
    requires IsScriptWord(prefix)
    requires forall k :: 0 <= k < |gap| ==> IsPySpace(gap[k])
    requires forall k :: 0 <= k < |pad| ==> IsPySpace(pad[k])
    ensures ScriptKeyNumber(pad + prefix + gap + NatToDecimal(n) + pad) == Some(n)
  {
    ScriptKeyDigits(prefix, gap, NatToDecimal(n), pad);
    DecimalRoundTrip(n);
  }

  /** A key without any digit is never a script key; "script no.", "script"
      and "topic" are such keys. */
  lemma KeyWithoutDigitsRejected(key: string)
    requires forall i :: 0 <= i < |key| ==> !IsDigit(key[i])
    ensures ScriptKeyNumber(key) == None
  {
    var k := PyStrip(key);
    if |k| > 6 {
      var d := KeyDigits(k);
      if |d| >= 1 {
        var at := TrimOffset(key, IsPySpace) + 6 + (|k| - 6 - |d|);
        assert d[0] == k[6..][|k| - 6 - |d|] == key[at];
      }
    }
  }

  // ------------------------------------------------------------- extraction

  /** A `(num, text)` pair collected from a script key. */
  datatype Numbered = Numbered(num: nat, text: string)

  /** The pairs for the items whose key `number` reads as a script number,
      in item order, each text being `str(value).strip()`. The key reader is
      a parameter so that reasoning about the list does not unfold it. */
  function CollectBy(number: string -> Option<nat>, members: seq<Member>): (r: seq<Numbered>)
    ensures |r| <= |members|
    ensures forall x :: x in r ==> PyStripped(x.text)
  {
    if |members| == 0 then []
    else
      var m := members[0];
      var rest := CollectBy(number, members[1..]);
      match number(m.key)
      case Some(n) =>
        var text := PyStrip(PyStr(m.value));
        PyStrippedIff(PyStr(m.value));
        [Numbered(n, text)] + rest
      case None => rest
  }

  /** The pairs for the script keys among a dict's items. */
  function Collect(members: seq<Member>): (r: seq<Numbered>)
    ensures forall x :: x in r ==> PyStripped(x.text)
  {
    CollectBy(ScriptKeyNumber, members)
  }

  /** Collecting works item by item: a list of items is collected piecewise,
      and a single item gives its pair exactly when its key has a number. */
  lemma {:induction false} CollectAppend(number: string -> Option<nat>, a: seq<Member>, b: seq<Member>)
    ensures CollectBy(number, a + b) == CollectBy(number, a) + CollectBy(number, b)
    decreases |a|
  {
    if |a| == 0 {
      assert a + b == b;
    } else {
      assert (a + b)[1..] == a[1..] + b;
      CollectAppend(number, a[1..], b);
    }
  }

  lemma CollectOne(number: string -> Option<nat>, m: Member)
    ensures number(m.key).None? ==> CollectBy(number, [m]) == []
    ensures number(m.key).Some? ==>
      CollectBy(number, [m]) == [Numbered(number(m.key).value, PyStrip(PyStr(m.value)))]
  {
    assert [m][1..] == [];
  }

  /** Every pair's number is at most the next one's. */
  predicate SortedByNum(s: seq<Numbered>) {
    forall i :: 0 < i < |s| ==> s[i - 1].num <= s[i].num
  }

  /** Sorted by number in the usual sense: no pair precedes one with a
      smaller number. */
  lemma {:induction false} SortedPairwise(s: seq<Numbered>, i: int, j: int)
    requires SortedByNum(s) && 0 <= i <= j < |s|
    ensures s[i].num <= s[j].num
    decreases j - i
  {
    if i < j {
      SortedPairwise(s, i, j - 1);
    }
  }

  /** The pairs numbered `k`, in order. */
  function WithNum(s: seq<Numbered>, k: nat): seq<Numbered> {
    if |s| == 0 then []
    else (if s[0].num == k then [s[0]] else []) + WithNum(s[1..], k)
  }

  /** `WithNum` keeps exactly the pairs numbered `k`. */
  lemma {:induction false} WithNumMembers(s: seq<Numbered>, k: nat)
    ensures forall x :: x in WithNum(s, k) <==> x in s && x.num == k
    decreases |s|
  {
    if |s| > 0 {
      WithNumMembers(s[1..], k);
      assert s == [s[0]] + s[1..];
    }
  }

  lemma {:induction false} WithNumAppend(a: seq<Numbered>, b: seq<Numbered>, k: nat)
    ensures WithNum(a + b, k) == WithNum(a, k) + WithNum(b, k)
    decreases |a|
  {
    if |a| == 0 {
      assert a + b == b;
    } else {
      assert (a + b)[1..] == a[1..] + b;
      WithNumAppend(a[1..], b, k);
    }
  }

  /** Puts `x` after every pair whose number is not larger. */
  function Insert(x: Numbered, s: seq<Numbered>): (r: seq<Numbered>)
    requires SortedByNum(s)
    ensures SortedByNum(r)
    ensures |r| == |s| + 1
    ensures forall y :: y in r <==> y in s || y == x
    ensures r[0] == x || (|s| > 0 && r[0] == s[0])
  {
    if |s| == 0 then [x]
    else if s[0].num > x.num then [x] + s
    else
      var rest := Insert(x, s[1..]);
      assert forall y :: y in s <==> y == s[0] || y in s[1..] by {
        assert s == [s[0]] + s[1..];
      }
      assert rest[0].num >= s[0].num by {
        if rest[0] != x {
          assert rest[0] == s[1];
        }
      }
      [s[0]] + rest
  }

  lemma {:induction false} WithNumAbsent(s: seq<Numbered>, k: nat)
    requires SortedByNum(s) && (|s| == 0 || s[0].num > k)
    ensures WithNum(s, k) == []
    decreases |s|
  {
    if |s| > 0 {
      WithNumAbsent(s[1..], k);
    }
  }

  /** Inserting `x` adds it after every pair with the same number. */
  lemma {:induction false} InsertStable(x: Numbered, s: seq<Numbered>, k: nat)
    requires SortedByNum(s)
    ensures WithNum(Insert(x, s), k) == WithNum(s, k) + (if x.num == k then [x] else [])
    decreases |s|
  {
    if |s| == 0 {
      WithNumOne(x, k);
    } else if s[0].num > x.num {
      WithNumCons(x, s, k);
      if x.num == k {
        WithNumAbsent(s, k);
      }
    } else {
      InsertStable(x, s[1..], k);
      InsertStableStep(x, s, k);
    }
  }

  /** The inductive step of `InsertStable`: `x` goes past the first pair. */
  lemma InsertStableStep(x: Numbered, s: seq<Numbered>, k: nat)
    requires SortedByNum(s) && |s| > 0 && s[0].num <= x.num
    requires WithNum(Insert(x, s[1..]), k) == WithNum(s[1..], k) + (if x.num == k then [x] else [])
    ensures WithNum(Insert(x, s), k) == WithNum(s, k) + (if x.num == k then [x] else [])
  {
    InsertPast(x, s);
    WithNumCons(s[0], Insert(x, s[1..]), k);
    assert WithNum(s, k) == (if s[0].num == k then [s[0]] else []) + WithNum(s[1..], k);
  }

  /** The pairs numbered `k` of a list with one more pair in front. */
  lemma WithNumCons(x: Numbered, t: seq<Numbered>, k: nat)
    ensures WithNum([x] + t, k) == (if x.num == k then [x] else []) + WithNum(t, k)
  {
    assert ([x] + t)[1..] == t;
  }

  /** `numbered.sort(key=lambda x: x[0])`: sorted by number, holding the
      same pairs (`SortStable` shows it is a stable permutation). */
  function SortByNum(xs: seq<Numbered>): (r: seq<Numbered>)
    ensures SortedByNum(r)
    ensures |r| == |xs|
    ensures forall y :: y in r <==> y in xs
  {
    if |xs| == 0 then []
    else
      var init := xs[..|xs| - 1];
      assert forall y :: y in xs <==> y in init || y == xs[|xs| - 1] by {
        assert xs == init + [xs[|xs| - 1]];
      }
      Insert(xs[|xs| - 1], SortByNum(init))
  }

  /** The pairs numbered `k` in a one-pair list. */
  lemma WithNumOne(x: Numbered, k: nat)
    ensures WithNum([x], k) == if x.num == k then [x] else []
  {
    assert [x][1..] == [];
  }

  /** The pairs numbered `k` of a list, split before its last pair. */
  lemma WithNumLast(xs: seq<Numbered>, k: nat)
    requires |xs| > 0
    ensures WithNum(xs, k) == WithNum(xs[..|xs| - 1], k) + WithNum([xs[|xs| - 1]], k)
  {
    assert xs == xs[..|xs| - 1] + [xs[|xs| - 1]];
    WithNumAppend(xs[..|xs| - 1], [xs[|xs| - 1]], k);
  }

  /** Python's sort is stable: the pairs with any one number keep the order
      they had among the items. With `SortedByNum` this makes the sort the
      stable permutation by number. */
  /** A pair numbered no more than `x` stays in front of it. */
  lemma InsertPast(x: Numbered, s: seq<Numbered>)
    requires SortedByNum(s) && |s| > 0 && s[0].num <= x.num
    ensures Insert(x, s) == [s[0]] + Insert(x, s[1..])
  {
  }

  lemma {:induction false} SortStable(xs: seq<Numbered>, k: nat)
    ensures WithNum(SortByNum(xs), k) == WithNum(xs, k)
    decreases |xs|
  {
    if |xs| > 0 {
      var init := xs[..|xs| - 1];
      var last := xs[|xs| - 1];
      SortStable(init, k);
      assert SortByNum(xs) == Insert(last, SortByNum(init));
      InsertStable(last, SortByNum(init), k);
      WithNumLast(xs, k);
      WithNumOne(last, k);
    }
  }

  /** The texts of the pairs, in order. */
  function Texts(s: seq<Numbered>): (r: seq<string>)
    ensures |r| == |s|
    ensures forall i :: 0 <= i < |s| ==> r[i] == s[i].text
  {
    if |s| == 0 then [] else [s[0].text] + Texts(s[1..])
  }

  /** `[text for _, text in numbered if text]`: the non-empty texts, each as
      often as it occurs and in the order of the pairs. */
  function NonEmptyTexts(s: seq<Numbered>): (r: seq<string>)
    ensures |r| <= |s|
    ensures forall t :: t in r <==> t != "" && exists x :: x in s && x.text == t
    ensures Seqs.IsSubseq(r, Texts(s))
    ensures forall t :: t != "" ==> multiset(r)[t] == multiset(Texts(s))[t]
  {
    if |s| == 0 then []
    else
      var rest := NonEmptyTexts(s[1..]);
      NonEmptyTextsStep(s, rest);
      if s[0].text != "" then [s[0].text] + rest else rest
  }

  /** One step of `NonEmptyTexts`: the first pair's text goes in front of
      the rest's result unless it is empty. */
  lemma NonEmptyTextsStep(s: seq<Numbered>, rest: seq<string>)
    requires |s| > 0 && |rest| <= |s| - 1
    requires forall t :: t in rest <==> t != "" && exists x :: x in s[1..] && x.text == t
    requires Seqs.IsSubseq(rest, Texts(s[1..]))
    requires forall t :: t != "" ==> multiset(rest)[t] == multiset(Texts(s[1..]))[t]
    ensures var r := if s[0].text != "" then [s[0].text] + rest else rest;
      && |r| <= |s|
      && (forall t :: t in r <==> t != "" && exists x :: x in s && x.text == t)
      && Seqs.IsSubseq(r, Texts(s))
      && (forall t :: t != "" ==> multiset(r)[t] == multiset(Texts(s))[t])
  {
    assert forall x :: x in s <==> x == s[0] || x in s[1..] by {
      assert s == [s[0]] + s[1..];
    }
    TextsCons(s[0], s[1..]);
    assert [s[0]] + s[1..] == s;
    KeepNonEmpty(s[0].text, rest, Texts(s[1..]));
  }

  lemma TextsCons(x: Numbered, t: seq<Numbered>)
    ensures Texts([x] + t) == [x.text] + Texts(t)
  {
  }

  /** The pairs whose text is non-empty, in order. */
  function NonEmptyPairs(s: seq<Numbered>): (r: seq<Numbered>)
    ensures forall x :: x in r <==> x in s && x.text != ""
  {
    if |s| == 0 then []
    else
      assert forall x :: x in s <==> x == s[0] || x in s[1..] by {
        assert s == [s[0]] + s[1..];
      }
      (if s[0].text != "" then [s[0]] else []) + NonEmptyPairs(s[1..])
  }

  /** The non-empty texts are the texts of the pairs with non-empty text. */
  lemma {:induction false} NonEmptyTextsOfPairs(s: seq<Numbered>)
    ensures NonEmptyTexts(s) == Texts(NonEmptyPairs(s))
  {
    if |s| > 0 {
      NonEmptyTextsOfPairs(s[1..]);
      assert NonEmptyPairs(s) == (if s[0].text != "" then [s[0]] else []) + NonEmptyPairs(s[1..]);
      assert NonEmptyTexts(s) == (if s[0].text != "" then [s[0].text] else []) + NonEmptyTexts(s[1..]);
      TextsCons(s[0], NonEmptyPairs(s[1..]));
    }
  }

  /** Dropping the pairs with empty text keeps a list sorted by number. */
  lemma {:induction false} NonEmptyPairsSorted(s: seq<Numbered>)
    requires SortedByNum(s)
    ensures SortedByNum(NonEmptyPairs(s))
  {
    if |s| > 0 {
      SortedTail(s);
      NonEmptyPairsSorted(s[1..]);
      var rest := NonEmptyPairs(s[1..]);
      if s[0].text != "" && |rest| > 0 {
        assert rest[0] in s[1..];
        var j :| 0 <= j < |s[1..]| && s[1..][j] == rest[0];
        SortedPairwise(s, 0, j + 1);
        SortedCons(s[0], rest);
      }
    }
  }

  lemma SortedTail(s: seq<Numbered>)
    requires SortedByNum(s) && |s| > 0
    ensures SortedByNum(s[1..])
  {
    forall i | 0 < i < |s| - 1 ensures s[1..][i - 1].num <= s[1..][i].num {
      assert s[1..][i - 1] == s[i] && s[1..][i] == s[i + 1];
    }
  }

  lemma SortedCons(x: Numbered, t: seq<Numbered>)
    requires SortedByNum(t) && (|t| > 0 ==> x.num <= t[0].num)
    ensures SortedByNum([x] + t)
  {
    var r := [x] + t;
    forall i | 0 < i < |r| ensures r[i - 1].num <= r[i].num {
      if i > 1 {
        assert r[i - 1] == t[i - 2] && r[i] == t[i - 1];
      }
    }
  }

  /** Picking the pairs numbered `k` and dropping the empty texts can be done
      in either order. */
  lemma {:induction false} WithNumNonEmpty(s: seq<Numbered>, k: nat)
    ensures WithNum(NonEmptyPairs(s), k) == NonEmptyPairs(WithNum(s, k))
  {
    if |s| > 0 {
      var x := s[0];
      WithNumNonEmpty(s[1..], k);
      var kept := if x.text != "" then [x] else [];
      var picked := if x.num == k then [x] else [];
      assert NonEmptyPairs(s) == kept + NonEmptyPairs(s[1..]);
      WithNumAppend(kept, NonEmptyPairs(s[1..]), k);
      WithNumOne(x, k);
      assert WithNum([], k) == [];
      NonEmptyPairsAppend(picked, WithNum(s[1..], k));
      NonEmptyPairsOne(x);
    }
  }

  lemma NonEmptyPairsOne(x: Numbered)
    ensures NonEmptyPairs([x]) == if x.text != "" then [x] else []
    ensures NonEmptyPairs([]) == []
  {
    assert [x][1..] == [];
  }

  lemma {:induction false} NonEmptyPairsAppend(a: seq<Numbered>, b: seq<Numbered>)
    ensures NonEmptyPairs(a + b) == NonEmptyPairs(a) + NonEmptyPairs(b)
  {
    if |a| == 0 {
      assert a + b == b;
    } else {
      assert (a + b)[1..] == a[1..] + b;
      NonEmptyPairsAppend(a[1..], b);
    }
  }

  /** The scripts read from a `script` dict: the non-empty texts of the
      collected pairs, sorted by number. */
  function FromScriptDict(members: seq<Member>): (r: seq<string>)
    ensures forall t :: t in r ==> t != "" && PyStripped(t)
    ensures forall t :: t in r <==> t != "" && exists x :: x in Collect(members) && x.text == t
  {
    var collected := Collect(members);
    var sorted := SortByNum(collected);
    NonEmptyTexts(sorted)
  }

  /** The order of the scripts: they are the texts of a list of pairs sorted
      by number, and the pairs carrying any one number are exactly the
      non-empty ones the dict's items gave for it, in item order. So the
      scripts follow their numbers, and scripts sharing a number keep the
      order of their keys. */
  lemma FromScriptDictOrder(members: seq<Member>)
    ensures var pairs := NonEmptyPairs(SortByNum(Collect(members)));
      && FromScriptDict(members) == Texts(pairs)
      && SortedByNum(pairs)
      && forall k: nat :: WithNum(pairs, k) == NonEmptyPairs(WithNum(Collect(members), k))
  {
    var collected := Collect(members);
    var sorted := SortByNum(collected);
    NonEmptyTextsOfPairs(sorted);
    NonEmptyPairsSorted(sorted);
    forall k: nat ensures WithNum(NonEmptyPairs(sorted), k) == NonEmptyPairs(WithNum(collected, k)) {
      WithNumNonEmpty(sorted, k);
      SortStable(collected, k);
    }
  }

  /** Scripts come out in the order of their numbers, whatever the order of
      the keys in the answer, and keys that are not script keys are skipped. */
  lemma ScriptsFollowNumbers(k1: string, k2: string, kx: string, a: string, b: string, v: Json)
    requires ScriptKeyNumber(k1) == Some(1) && ScriptKeyNumber(k2) == Some(2)
    requires ScriptKeyNumber(kx).None?
    requires a != "" && PyStripped(a) && b != "" && PyStripped(b)
    ensures FromScriptDict([Member(k2, JString(b)), Member(kx, v), Member(k1, JString(a))]) == [a, b]
  {
    CollectThree(ScriptKeyNumber, k1, k2, kx, a, b, v);
    SortTwo(Numbered(2, b), Numbered(1, a));
    NonEmptyTwo(Numbered(1, a), Numbered(2, b));
  }

  /** A key with a number and a string value gives that number and the string. */
  lemma CollectString(number: string -> Option<nat>, key: string, n: nat, text: string)
    requires number(key) == Some(n) && PyStripped(text)
    ensures CollectBy(number, [Member(key, JString(text))]) == [Numbered(n, text)]
  {
    CollectOne(number, Member(key, JString(text)));
    PyStrippedIff(text);
  }

  lemma CollectThree(number: string -> Option<nat>, k1: string, k2: string, kx: string, a: string, b: string, v: Json)
    requires number(k1) == Some(1) && number(k2) == Some(2) && number(kx).None?
    requires PyStripped(a) && PyStripped(b)
    ensures CollectBy(number, [Member(k2, JString(b)), Member(kx, v), Member(k1, JString(a))]) ==
            [Numbered(2, b)] + [Numbered(1, a)]
  {
    var m2, mx, m1 := Member(k2, JString(b)), Member(kx, v), Member(k1, JString(a));
    var tail := [mx] + [m1];
    assert [m2, mx, m1] == [m2] + tail;
    CollectSkip(number, mx, [m1]);
    CollectString(number, k1, 1, a);
    CollectString(number, k2, 2, b);
    CollectAppend(number, [m2], tail);
  }

  lemma CollectTwo(number: string -> Option<nat>, k: string, k': string, n: nat, a: string, b: string)
    requires number(k) == Some(n) && number(k') == Some(n)
    requires PyStripped(a) && PyStripped(b)
    ensures CollectBy(number, [Member(k, JString(a)), Member(k', JString(b))]) ==
            [Numbered(n, a)] + [Numbered(n, b)]
  {
    var ma, mb := Member(k, JString(a)), Member(k', JString(b));
    assert [ma, mb] == [ma] + [mb];
    CollectString(number, k, n, a);
    CollectString(number, k', n, b);
    CollectAppend(number, [ma], [mb]);
  }

  /** An item whose key has no number contributes nothing. */
  lemma CollectSkip(number: string -> Option<nat>, m: Member, rest: seq<Member>)
    requires number(m.key).None?
    ensures CollectBy(number, [m] + rest) == CollectBy(number, rest)
  {
    CollectOne(number, m);
    CollectAppend(number, [m], rest);
  }

  /** Two pairs come out ordered by number, the first one first when the
      numbers are equal. */
  lemma SortTwo(x: Numbered, y: Numbered)
    ensures SortByNum([x] + [y]) == if y.num < x.num then [y] + [x] else [x] + [y]
  {
    var xs := [x] + [y];
    assert xs[..|xs| - 1] == [x] && xs[|xs| - 1] == y;
    assert SortByNum([x]) == [x] by {
      assert [x][..0] == [];
    }
    assert SortByNum(xs) == Insert(y, [x]);
    assert [x][1..] == [];
    assert Insert(y, []) == [y];
  }

  lemma NonEmptyTwo(x: Numbered, y: Numbered)
    requires x.text != "" && y.text != ""
    ensures NonEmptyTexts([x] + [y]) == [x.text, y.text]
  {
    var xs := [x] + [y];
    assert xs[1..] == [y];
    assert [y][1..] == [];
  }

  /** Two keys with the same number keep the order of the answer. */
  lemma EqualNumbersKeepOrder(k: string, k': string, n: nat, a: string, b: string)
    requires ScriptKeyNumber(k) == Some(n) && ScriptKeyNumber(k') == Some(n)
    requires a != "" && PyStripped(a) && b != "" && PyStripped(b)
    ensures FromScriptDict([Member(k, JString(a)), Member(k', JString(b))]) == [a, b]
  {
    CollectTwo(ScriptKeyNumber, k, k', n, a, b);
    SortTwo(Numbered(n, a), Numbered(n, b));
    NonEmptyTwo(Numbered(n, a), Numbered(n, b));
  }

  // ----------------------------------------------------------- normalising

  /** Python `s[:k]`, where a negative `k` counts from the end. */
  function PySliceTo<T>(s: seq<T>, k: int): (r: seq<T>)
    ensures |r| <= |s| && r == s[..|r|]
    ensures k >= 0 ==> |r| == Min(k, |s|)
    ensures k < 0 ==> |r| == Max(0, |s| + k)
  {
    if k >= 0 then s[..Min(k, |s|)] else s[..Max(0, |s| + k)]
  }

  lemma SliceMembers<T>(s: seq<T>, k: int)
    ensures forall x :: x in PySliceTo(s, k) ==> x in s
  {
    var r := PySliceTo(s, k);
    forall x | x in r ensures x in s {
      var i :| 0 <= i < |r| && r[i] == x;
      assert s[i] == x;
    }
  }

  /** The closing truncate-or-pad step. */
  function Normalize(result: seq<string>, count: int): (r: seq<string>)
    ensures count >= 0 ==> |r| == count
    ensures count >= 0 ==> r[..Min(count, |result|)] == result[..Min(count, |result|)]
    ensures count >= 0 ==> forall i :: |result| <= i < count ==> r[i] == ""
    ensures count < 0 ==> r == PySliceTo(result, count)
  {
    if |result| > count then PySliceTo(result, count)
    else if |result| < count then result + seq(count - |result|, _ => "")
    else result
  }

  /** Normalising twice changes nothing more. */
  lemma NormalizeIdempotent(result: seq<string>, count: int)
    requires count >= 0
    ensures Normalize(Normalize(result, count), count) == Normalize(result, count)
  {
  }

  /** `[chunk.strip() for chunk in raw.split("\n\n") if chunk.strip()]`:
      the stripped non-empty chunks between blank lines, in order (see
      `ChunksAtBlankLine` for the chunks read one at a time). */
  function BlankLineChunks(raw: string): (r: seq<string>)
    ensures forall t :: t in r ==> t != "" && PyStripped(t)
    ensures Seqs.IsSubseq(r, StripAll(SplitOn(raw, "\n\n")))
    ensures forall t :: t != "" ==> multiset(r)[t] == multiset(StripAll(SplitOn(raw, "\n\n")))[t]
  {
    StrippedNonEmpty(SplitOn(raw, "\n\n"))
  }

  /** Each chunk stripped, in order. */
  function StripAll(chunks: seq<string>): (r: seq<string>)
    ensures |r| == |chunks|
    ensures forall i :: 0 <= i < |chunks| ==> r[i] == PyStrip(chunks[i])
  {
    if |chunks| == 0 then [] else [PyStrip(chunks[0])] + StripAll(chunks[1..])
  }

  /** `[c.strip() for c in chunks if c.strip()]`: the stripped chunks that
      are not empty, each as often as it occurs and in order. */
  function StrippedNonEmpty(chunks: seq<string>): (r: seq<string>)
    ensures |r| <= |chunks|
    ensures forall t :: t in r ==> t != "" && PyStripped(t)
    ensures Seqs.IsSubseq(r, StripAll(chunks))
    ensures forall t :: t != "" ==> multiset(r)[t] == multiset(StripAll(chunks))[t]
  {
    if |chunks| == 0 then []
    else
      var rest := StrippedNonEmpty(chunks[1..]);
      var c := PyStrip(chunks[0]);
      StrippedStep(chunks, rest);
      if c != "" then [c] + rest else rest
  }

  /** One step of `StrippedNonEmpty`: the first chunk, stripped, goes in
      front of the rest's result unless it is empty. */
  lemma StrippedStep(chunks: seq<string>, rest: seq<string>)
    requires |chunks| > 0
    requires forall t :: t in rest ==> t != "" && PyStripped(t)
    requires Seqs.IsSubseq(rest, StripAll(chunks[1..]))
    requires forall t :: t != "" ==> multiset(rest)[t] == multiset(StripAll(chunks[1..]))[t]
    ensures var c := PyStrip(chunks[0]); var r := if c != "" then [c] + rest else rest;
      && (forall t :: t in r ==> t != "" && PyStripped(t))
      && Seqs.IsSubseq(r, StripAll(chunks))
      && (forall t :: t != "" ==> multiset(r)[t] == multiset(StripAll(chunks))[t])
  {
    var c := PyStrip(chunks[0]);
    PyStrippedIff(chunks[0]);
    KeepStripped(c, rest, StripAll(chunks[1..]));
  }

  lemma KeepStripped(c: string, a: seq<string>, b: seq<string>)
    requires PyStripped(c)
    requires forall t :: t in a ==> t != "" && PyStripped(t)
    requires Seqs.IsSubseq(a, b)
    requires forall t :: t != "" ==> multiset(a)[t] == multiset(b)[t]
    ensures var r := if c != "" then [c] + a else a;
      && (forall t :: t in r ==> t != "" && PyStripped(t))
      && Seqs.IsSubseq(r, [c] + b)
      && (forall t :: t != "" ==> multiset(r)[t] == multiset([c] + b)[t])
  {
    KeepNonEmpty(c, a, b);
  }

  /** Keeping a non-empty head, or skipping an empty one, keeps the order
      and the counts of the non-empty strings. */
  lemma KeepNonEmpty(c: string, a: seq<string>, b: seq<string>)
    requires Seqs.IsSubseq(a, b)
    requires forall t :: t != "" ==> multiset(a)[t] == multiset(b)[t]
    ensures var r := if c != "" then [c] + a else a;
      && Seqs.IsSubseq(r, [c] + b)
      && forall t :: t != "" ==> multiset(r)[t] == multiset([c] + b)[t]
  {
    Seqs.KeepOrSkip(c, a, b, c != "");
  }

  /** The chunks of text that starts with a stretch free of blank lines:
      that stretch, stripped, unless it is empty, then the chunks of the
      rest. */
  lemma ChunksAtBlankLine(a: string, b: string)
    requires !Contains(a + "\n", "\n\n")
    ensures BlankLineChunks(a + "\n\n" + b)
      == (if PyStrip(a) != "" then [PyStrip(a)] else []) + BlankLineChunks(b)
  {
    assert "\n\n"[..1] == "\n";
    SplitAtSeparator(a, b, "\n\n");
    var parts := [a] + SplitOn(b, "\n\n");
    assert parts[1..] == SplitOn(b, "\n\n");
  }

  /** Text without a blank line is a single chunk, stripped. */
  lemma OneChunk(raw: string)
    requires forall i :: 0 <= i < |raw| - 1 ==> !(raw[i] == '\n' && raw[i + 1] == '\n')
    requires PyStrip(raw) != ""
    ensures BlankLineChunks(raw) == [PyStrip(raw)]
  {
    SplitWithoutBlankLine(raw);
    assert [raw][1..] == [];
  }

  lemma {:induction false} SplitWithoutBlankLine(s: string)
    requires forall i :: 0 <= i < |s| - 1 ==> !(s[i] == '\n' && s[i + 1] == '\n')
    ensures SplitOn(s, "\n\n") == [s]
    decreases |s|
  {
    if |s| >= 2 {
      assert s[..2] != "\n\n" by { assert !(s[0] == '\n' && s[1] == '\n'); }
      SplitWithoutBlankLine(s[1..]);
      assert [s[0]] + s[1..] == s;
    }
  }

  /** Scripts padded out to a count: the non-empty ones first, then only
      empty placeholders. */
  predicate PaddedAtEnd(r: seq<string>) {
    forall i, j :: 0 <= i < j < |r| && r[i] == "" ==> r[j] == ""
  }

  /** Normalising a list of non-empty stripped scripts leaves the padding at
      the end, and every entry stripped. */
  lemma NormalizeShape(result: seq<string>, count: int)
    requires forall t :: t in result ==> t != "" && PyStripped(t)
    ensures PaddedAtEnd(Normalize(result, count))
    ensures forall t :: t in Normalize(result, count) ==> PyStripped(t)
  {
    var r := Normalize(result, count);
    assert forall i :: 0 <= i < |result| ==> result[i] in result;
    if |result| > count {
      SliceMembers(result, count);
      assert forall i :: 0 <= i < |r| ==> r[i] in r;
    } else {
      assert forall i :: 0 <= i < |r| ==> r[i] == "" || r[i] in result;
    }
  }

  // ---------------------------------------------------------------- stages

  /** What the `try` block yields: the scripts of a `script` dict, or `None`
      where it raises (decoding failed, or `script` is not a dict) and the
      blank-line fallback takes over. */
  function ScriptDictOf(decoded: Option<Json>): (r: Option<seq<Member>>)
    ensures decoded.Some? && !decoded.value.JObject? ==> r == Some([])
    ensures decoded.None? ==> r.None?
    ensures decoded.Some? && decoded.value.JObject? ==>
      var script := Get(decoded.value.members, "script");
      && (script.None? ==> r == Some([]))
      && (script.Some? && script.value.JObject? ==> r == Some(script.value.members))
      && (script.Some? && !script.value.JObject? ==> r.None?)
  {
    if decoded.None? then None
    else
      var data := decoded.value;
      var scriptObj := if data.JObject? then Get(data.members, "script").GetOr(JObject([])) else JObject([]);
      if scriptObj.JObject? then Some(scriptObj.members) else None
  }

  /** `generate_scripts` given the model's raw answer (`None` when the model
      returned no content) and its decoded value. */
  function GenerateScripts(count: int, raw: Option<string>, decoded: Option<Json>): (r: Result<seq<string>>)
    ensures count <= 0 ==> r == Success([])
    ensures count > 0 ==>
      (r.Raised? <==> raw.None? || raw.value == "")
    ensures r.Raised? ==> r.message == "Empty response from model"
    ensures r.Success? ==> |r.value| == Max(count, 0)
    ensures r.Success? ==> PaddedAtEnd(r.value)
    ensures r.Success? ==> forall t :: t in r.value ==> PyStripped(t)
    ensures r.Success? && count > 0 ==>
      var dict := ScriptDictOf(decoded);
      && (dict.Some? ==> r.value == Normalize(FromScriptDict(dict.value), count))
      && (dict.None? ==> r.value == Normalize(PySliceTo(BlankLineChunks(raw.value), count), count))
  {
    if count <= 0 then Success([])
    else if raw.None? || raw.value == "" then Raised("Empty response from model")
    else
      var dict := ScriptDictOf(decoded);
      var result := if dict.Some? then FromScriptDict(dict.value) else PySliceTo(BlankLineChunks(raw.value), count);
      SliceMembers(BlankLineChunks(raw.value), count);
      NormalizeShape(result, count);
      Success(Normalize(result, count))
  }

  /** An answer whose `script` is not a dict falls back to blank-line
      chunks, exactly like an answer that is not JSON at all. */
  lemma ScriptNotDictFallsBack(count: int, raw: string, members: seq<Member>)
    requires count > 0 && raw != ""
    requires Get(members, "script").Some? && !Get(members, "script").value.JObject?
    ensures GenerateScripts(count, Some(raw), Some(JObject(members))) == GenerateScripts(count, Some(raw), None)
  {
  }

  datatype Series = Series(topic: string, scripts: seq<string>)

  /** The topic of the answer: `topic.video_topic`, stripped, when it is a
      string, and "" otherwise. */
  function TopicOf(decoded: Option<Json>): (t: string)
    ensures t != "" ==> decoded.Some? && decoded.value.JObject?
    ensures PyStripped(t)
    ensures var topic := if decoded.Some? && decoded.value.JObject? then Get(decoded.value.members, "topic") else None;
      var video := if topic.Some? && topic.value.JObject? then Get(topic.value.members, "video_topic") else None;
      && (video.Some? && video.value.JString? ==> t == PyStrip(video.value.s))
      && (video.None? || !video.value.JString? ==> t == "")
  {
    if decoded.None? || !decoded.value.JObject? then ""
    else
      var topicObj := Get(decoded.value.members, "topic").GetOr(JObject([]));
      var topicVal := if topicObj.JObject? then Get(topicObj.members, "video_topic") else None;
      if topicVal.Some? && topicVal.value.JString? then
        PyStrippedIff(topicVal.value.s);
        PyStrip(topicVal.value.s)
      else ""
  }

  /** `generate_series`: no guard on `count`, and a `script` that is not a
      dict gives no scripts instead of the fallback. */
  function GenerateSeries(count: int, raw: Option<string>, decoded: Option<Json>): (r: Result<Series>)
    ensures r.Raised? <==> raw.None? || raw.value == ""
    ensures r.Raised? ==> r.message == "Empty response from model"
    ensures r.Success? ==> r.value.topic == TopicOf(decoded)
    ensures r.Success? && count >= 0 ==> |r.value.scripts| == count
    ensures r.Success? && decoded.None? ==>
      r.value.scripts == Normalize(PySliceTo(BlankLineChunks(raw.value), count), count)
    ensures r.Success? && ScriptDictOf(decoded).Some? ==>
      r.value.scripts == Normalize(FromScriptDict(ScriptDictOf(decoded).value), count)
    ensures r.Success? ==> PaddedAtEnd(r.value.scripts)
    ensures r.Success? && decoded.Some? && ScriptDictOf(decoded).None? ==>
      forall i :: 0 <= i < |r.value.scripts| ==> r.value.scripts[i] == ""
  {
    if raw.None? || raw.value == "" then Raised("Empty response from model")
    else
      var scripts :=
        if decoded.None? then PySliceTo(BlankLineChunks(raw.value), count)
        else
          var dict := ScriptDictOf(decoded);
          if dict.Some? then FromScriptDict(dict.value) else [];
      SliceMembers(BlankLineChunks(raw.value), count);
      NormalizeShape(scripts, count);
      Success(Series(TopicOf(decoded), Normalize(scripts, count)))
  }

  /** The two stages agree whenever the answer holds a `script` dict. */
  lemma StagesAgreeOnDicts(count: int, raw: string, decoded: Option<Json>)
    requires count > 0 && raw != "" && ScriptDictOf(decoded).Some?
    ensures GenerateScripts(count, Some(raw), decoded).value ==
            GenerateSeries(count, Some(raw), decoded).value.scripts
  {
  }
}

=== FILE: json.dfy ===
/** A decoded JSON value as Python's `json.loads` returns it, with the few
    Python operations the pipeline applies to it: `dict.get`, truthiness and
    `str()`. Numbers are integers; floating point is not modelled. */
module Json {
  import opened Base
  import Text

  datatype Json =
    | JNull                          // None
    | JBool(b: bool)                 // True / False
    | JInt(n: int)                   // int
    | JString(s: string)             // str
    | JArray(items: seq<Json>)       // list
    | JObject(members: seq<Member>)  // dict, members in insertion order

  datatype Member = Member(key: string, value: Json)

  /** `d.get(key)` on a dict: the value of the first member named `key`,
      Python `None` when there is none. */
  function Get(members: seq<Member>, key: string): (r: Option<Json>)
    ensures r.None? <==> forall i :: 0 <= i < |members| ==> members[i].key != key
    ensures r.Some? ==> exists i :: 0 <= i < |members| && members[i] == Member(key, r.value)
  {
    if |members| == 0 then None
    else if members[0].key == key then Some(members[0].value)
    else Get(members[1..], key)
  }

  /** `d.get(key)` with Python's default of `None`. */
  function GetOrNull(members: seq<Member>, key: string): Json {
    Get(members, key).GetOr(JNull)
  }

  /** Python truth value: `None`, `False`, `0`, and empty strings, lists and
      dicts are false. */
  predicate Truthy(j: Json) {
    match j
    case JNull => false
    case JBool(b) => b
    case JInt(n) => n != 0
    case JString(s) => s != ""
    case JArray(items) => |items| > 0
    case JObject(members) => |members| > 0
  }

  /** Python `str(value)`: a string is itself; other values are rendered as
      Python prints them (see `Repr`). */
  function PyStr(j: Json): string {
    if j.JString? then j.s else Repr(j)
  }

  /** Python `repr` of a value. Strings are quoted with `'` and not escaped. */
  function Repr(j: Json): string
    decreases j, 1
  {
    match j
    case JNull => "None"
    case JBool(b) => if b then "True" else "False"
    case JInt(n) => Text.IntToDecimal(n)
    case JString(s) => "'" + s + "'"
    case JArray(items) => "[" + ReprItems(j, items) + "]"
    case JObject(members) => "{" + ReprMembers(j, members) + "}"
  }

  function ReprItems(parent: Json, items: seq<Json>): string
    requires forall i :: 0 <= i < |items| ==> items[i] < parent
    decreases parent, 0, |items|
  {
    if |items| == 0 then ""
    else if |items| == 1 then Repr(items[0])
    else Repr(items[0]) + ", " + ReprItems(parent, items[1..])
  }

  function ReprMembers(parent: Json, members: seq<Member>): string
    requires forall i :: 0 <= i < |members| ==> members[i].value < parent
    decreases parent, 0, |members|
  {
    if |members| == 0 then ""
    else
      var m := members[0];
      var one := "'" + m.key + "': " + Repr(m.value);
      if |members| == 1 then one else one + ", " + ReprMembers(parent, members[1..])
  }
}

=== FILE: main_video.dfy ===
/** The end-to-end driver (`learnloop-s2v/src/stages/main_video.py`): the
    slug used for folder and file names, the yes/no and "how many" answers
    read from the console, the extraction of the video URL from a FAL
    result, the payload and file name of each submission, and the exit code
    of a whole run. The console, the FAL service, downloads, the clock and
    the file system are inputs: each answer read from the console is
    `None` at end of input, and the FAL result and download outcome of the
    `k`-th submission are given as functions of `k`. */
module MainVideo {
  import opened Base
  import opened Text
  import opened Json
  import GenScript
  import Seqs

  // ------------------------------------------------------------------- slug

  /** One character of the slug before clean-up: `ch.lower() if
      ch.isalnum() else "-"`. */
  function SlugChar(c: char): (r: char)
    ensures r == '-' <==> !IsAlnum(c)
    ensures IsAlnum(c) ==> r == LowerChar(c) && (IsLower(r) || IsDigit(r))
  {
    if IsAlnum(c) then LowerChar(c) else '-'
  }

  /** The characters a slug is made of. */
  predicate IsSlugChar(c: char) {
    IsLower(c) || IsDigit(c) || c == '-'
  }

  function SlugChars(value: string): (r: string)
    ensures |r| == |value|
    ensures forall i :: 0 <= i < |r| ==> r[i] == SlugChar(value[i])
  {
    seq(|value|, i requires 0 <= i < |value| => SlugChar(value[i]))
  }

  predicate IsDash(c: char) {
    c == '-'
  }

  /** "--" occurs at offset `i`. */
  predicate DashPairAt(s: string, i: int) {
    0 <= i < |s| - 1 && s[i] == '-' && s[i + 1] == '-'
  }

  /** `"--" in s`. */
  predicate HasDoubleDash(s: string) {
    exists i :: 0 <= i < |s| - 1 && DashPairAt(s, i)
  }

  /** `s.replace("--", "-")`: scanning left to right, every non-overlapping
      "--" becomes "-". */
  function ReplaceDoubleDash(s: string): (r: string)
    ensures |r| <= |s|
    ensures |r| == 0 <==> |s| == 0
    ensures |s| > 0 ==> r[0] == s[0]
    ensures |s| > 0 && s[|s| - 1] != '-' ==> r[|r| - 1] == s[|s| - 1]
    ensures (forall i :: 0 <= i < |s| ==> IsSlugChar(s[i])) ==>
      forall i :: 0 <= i < |r| ==> IsSlugChar(r[i])
    decreases |s|
  {
    if |s| >= 2 && s[0] == '-' && s[1] == '-' then "-" + ReplaceDoubleDash(s[2..])
    else if |s| == 0 then ""
    else [s[0]] + ReplaceDoubleDash(s[1..])
  }

  /** Each pass of the loop shortens a slug that still holds "--". */
  lemma {:induction false} ReplaceShrinks(s: string)
    requires HasDoubleDash(s)
    ensures |ReplaceDoubleDash(s)| < |s|
    decreases |s|
  {
    if !(|s| >= 2 && s[0] == '-' && s[1] == '-') {
      var i :| 0 <= i < |s| - 1 && DashPairAt(s, i);
      assert DashPairAt(s[1..], i - 1);
      ReplaceShrinks(s[1..]);
    }
  }

  /** Every run of dashes collapsed to a single dash: what the loop
      computes. */
  function Squeeze(s: string): string
    decreases |s|
  {
    if |s| >= 2 && s[0] == '-' && s[1] == '-' then Squeeze(s[1..])
    else if |s| == 0 then ""
    else [s[0]] + Squeeze(s[1..])
  }

  lemma SqueezeCons(c: char, x: string)
    ensures Squeeze([c] + x) ==
      if c == '-' && |x| > 0 && x[0] == '-' then Squeeze(x) else [c] + Squeeze(x)
  {
    assert ([c] + x)[1..] == x;
  }

  /** A pass of `replace` does not change what the runs collapse to. */
  lemma {:induction false} SqueezeReplace(s: string)
    ensures Squeeze(ReplaceDoubleDash(s)) == Squeeze(s)
    decreases |s|
  {
    if |s| >= 2 && s[0] == '-' && s[1] == '-' {
      var t := s[2..];
      SqueezeReplace(t);
      SqueezeCons('-', ReplaceDoubleDash(t));
      SqueezeCons('-', t);
      assert s[1..] == "-" + t;
    } else if |s| > 0 {
      SqueezeReplace(s[1..]);
      SqueezeCons(s[0], ReplaceDoubleDash(s[1..]));
      SqueezeCons(s[0], s[1..]);
      assert s == [s[0]] + s[1..];
    }
  }

  /** Text without "--" collapses to itself. */
  lemma {:induction false} SqueezeNoDoubleDash(s: string)
    requires !HasDoubleDash(s)
    ensures Squeeze(s) == s
    decreases |s|
  {
    if |s| > 0 {
      assert !DashPairAt(s, 0);
      assert !HasDoubleDash(s[1..]) by {
        forall i | 0 <= i < |s[1..]| - 1 ensures !DashPairAt(s[1..], i) {
          assert !DashPairAt(s, i + 1);
        }
      }
      SqueezeNoDoubleDash(s[1..]);
      assert s == [s[0]] + s[1..];
    }
  }

  /** Leading dashes dropped. */
  function DropLeadingDashes(s: string): (r: string)
    ensures |r| <= |s| && r == s[|s| - |r|..]
    ensures forall k :: 0 <= k < |s| - |r| ==> s[k] == '-'
    ensures |r| == 0 || r[0] != '-'
    decreases |s|
  {
    if |s| > 0 && s[0] == '-' then DropLeadingDashes(s[1..]) else s
  }

  /** Trailing dashes dropped. */
  function DropTrailingDashes(s: string): (r: string)
    ensures |r| <= |s| && r == s[..|r|]
    ensures forall k :: |r| <= k < |s| ==> s[k] == '-'
    ensures |r| == 0 || r[|r| - 1] != '-'
    decreases |s|
  {
    if |s| > 0 && s[|s| - 1] == '-' then DropTrailingDashes(s[..|s| - 1]) else s
  }

  /** `r` is the slice of `s` at offset `i`, with only dashes around it. */
  predicate DashesAround(s: string, r: string, i: int) {
    && 0 <= i && i + |r| <= |s| && r == s[i..i + |r|]
    && (forall k :: 0 <= k < i ==> s[k] == '-')
    && (forall k :: i + |r| <= k < |s| ==> s[k] == '-')
  }

  /** `s.strip("-")`: the slice of `s` left once the dashes at both ends are
      cut off. */
  function StripDashes(s: string): (r: string)
    ensures exists i :: DashesAround(s, r, i)
    ensures |r| == 0 || (r[0] != '-' && r[|r| - 1] != '-')
    ensures (|s| == 0 || (s[0] != '-' && s[|s| - 1] != '-')) ==> r == s
    ensures (forall i :: 0 <= i < |s| ==> IsSlugChar(s[i])) ==>
      forall i :: 0 <= i < |r| ==> IsSlugChar(r[i])
  {
    var t := DropLeadingDashes(s);
    var r := DropTrailingDashes(t);
    assert |r| > 0 ==> r[0] == t[0];
    var i := |s| - |t|;
    assert r == s[i..i + |r|];
    assert forall k :: i + |r| <= k < |s| ==> s[k] == t[k - i];
    assert DashesAround(s, r, i);
    r
  }

  /** The slug the driver computes: lower-cased alphanumerics, every other
      character a dash, dashes stripped from both ends and runs of dashes
      collapsed; "untitled" when nothing is left. */
  function SlugOf(value: string): string {
    var s := Squeeze(StripDashes(SlugChars(value)));
    if s == "" then "untitled" else s
  }

  /** Slug text: slug characters only, and no dash at either end. */
  predicate CleanEnds(s: string) {
    && (forall i :: 0 <= i < |s| ==> IsSlugChar(s[i]))
    && (|s| == 0 || (s[0] != '-' && s[|s| - 1] != '-'))
  }

  /** The stripped characters are where the loop starts. */
  lemma StrippedClean(value: string)
    ensures CleanEnds(StripDashes(SlugChars(value)))
  {
    var c := SlugChars(value);
    assert forall i :: 0 <= i < |c| ==> IsSlugChar(c[i]);
  }

  /** One pass of the loop: shorter, the same collapsed form, still clean. */
  lemma ReplaceStep(s: string)
    requires CleanEnds(s) && HasDoubleDash(s)
    ensures CleanEnds(ReplaceDoubleDash(s))
    ensures Squeeze(ReplaceDoubleDash(s)) == Squeeze(s)
    ensures |ReplaceDoubleDash(s)| < |s|
  {
    SqueezeReplace(s);
    ReplaceShrinks(s);
  }

  /** The fallback is a slug. */
  lemma UntitledClean()
    ensures CleanEnds("untitled") && !HasDoubleDash("untitled")
  {
    var u := "untitled";
    assert forall i :: 0 <= i < |u| ==> IsLower(u[i]);
    assert forall i :: 0 <= i < |u| - 1 ==> !DashPairAt(u, i);
  }

  /** `_slugify`, with its `while "--" in slug` loop. */
  method Slugify(value: string) returns (slug: string)
    ensures slug == SlugOf(value)
    ensures slug != ""
    ensures forall i :: 0 <= i < |slug| ==> IsSlugChar(slug[i])
    ensures slug[0] != '-' && slug[|slug| - 1] != '-'
    ensures !HasDoubleDash(slug)
  {
    var s := StripDashes(SlugChars(value));
    StrippedClean(value);
    ghost var squeezed := Squeeze(s);
    while HasDoubleDash(s)
      invariant CleanEnds(s)
      invariant Squeeze(s) == squeezed
      decreases |s|
    {
      ReplaceStep(s);
      s := ReplaceDoubleDash(s);
    }
    SqueezeNoDoubleDash(s);
    if s == "" {
      UntitledClean();
      slug := "untitled";
    } else {
      slug := s;
    }
  }

  /** Lower-cased alphanumerics stay as they are. */
  lemma {:induction false} SqueezeWord(x: string, y: string)
    requires forall i :: 0 <= i < |x| ==> x[i] != '-'
    ensures Squeeze(x + y) == x + Squeeze(y)
    decreases |x|
  {
    if |x| > 0 {
      SqueezeWord(x[1..], y);
      assert (x + y)[1..] == x[1..] + y;
      SqueezeCons(x[0], x[1..] + y);
      assert x + y == [x[0]] + (x[1..] + y);
      assert x == [x[0]] + x[1..];
    } else {
      assert x + y == y;
    }
  }

  /** A run of dashes before a word collapses to one dash. */
  lemma {:induction false} SqueezeDashes(d: string, y: string)
    requires |d| > 0 && forall i :: 0 <= i < |d| ==> d[i] == '-'
    requires |y| > 0 && y[0] != '-'
    ensures Squeeze(d + y) == "-" + Squeeze(y)
    decreases |d|
  {
    assert d + y == [d[0]] + (d[1..] + y);
    SqueezeCons('-', d[1..] + y);
    if |d| > 1 {
      SqueezeDashes(d[1..], y);
    } else {
      assert d[1..] + y == y;
    }
  }

  /** Text without a dash collapses to itself. */
  lemma SqueezeNoDash(x: string)
    requires forall i :: 0 <= i < |x| ==> x[i] != '-'
    ensures Squeeze(x) == x
  {
    assert !HasDoubleDash(x);
    SqueezeNoDoubleDash(x);
  }

  /** Alphanumerics map to their lower-case forms. */
  lemma WordLower(w: string)
    requires forall i :: 0 <= i < |w| ==> IsAlnum(w[i])
    ensures SlugChars(w) == Lower(w)
  {
  }

  /** A word of alphanumerics has no dash to strip or collapse. */
  lemma WordSlugChars(w: string)
    requires |w| > 0 && forall i :: 0 <= i < |w| ==> IsAlnum(w[i])
    ensures SlugOf(w) == SlugChars(w)
  {
    var c := SlugChars(w);
    assert forall i :: 0 <= i < |c| ==> c[i] != '-';
    SqueezeNoDash(c);
    assert StripDashes(c) == c;
  }

  /** The slug of a word of alphanumerics is the word in lower case. */
  lemma WordSlug(w: string)
    requires |w| > 0 && forall i :: 0 <= i < |w| ==> IsAlnum(w[i])
    ensures SlugOf(w) == Lower(w)
  {
    WordSlugChars(w);
    WordLower(w);
  }

  /** Collapsing keeps a first character that is not a dash. */
  lemma SqueezeNonEmpty(c: string)
    requires |c| > 0 && c[0] != '-'
    ensures Squeeze(c) != ""
  {
    SqueezeCons(c[0], c[1..]);
    assert c == [c[0]] + c[1..];
  }

  /** Text with no dash at either end is its own `strip("-")`. */
  lemma StripClean(c: string)
    requires |c| > 0 && c[0] != '-' && c[|c| - 1] != '-'
    ensures StripDashes(c) == c
  {
  }

  /** Text that starts and ends with an alphanumeric has no dash to strip,
      so its slug is its collapsed characters. */
  lemma AlnumEndsSlug(value: string)
    requires |value| > 0 && IsAlnum(value[0]) && IsAlnum(value[|value| - 1])
    ensures SlugChars(value)[0] != '-'
    ensures SlugOf(value) == Squeeze(SlugChars(value))
  {
    var c := SlugChars(value);
    assert c[0] != '-' && c[|c| - 1] != '-';
    SqueezeNonEmpty(c);
    StripClean(c);
  }

  /** Characters map one by one, so concatenation carries over. */
  lemma SlugCharsAppend(a: string, b: string)
    ensures SlugChars(a + b) == SlugChars(a) + SlugChars(b)
  {
  }

  /** A run of characters that are not alphanumeric maps to dashes. */
  lemma RunDashes(run: string)
    requires forall i :: 0 <= i < |run| ==> !IsAlnum(run[i])
    ensures forall i :: 0 <= i < |run| ==> SlugChars(run)[i] == '-'
  {
  }

  /** The characters of three pieces, side by side. */
  lemma ThreeChars(a: string, b: string, c: string)
    ensures SlugChars(a + b + c) == SlugChars(a) + (SlugChars(b) + SlugChars(c))
  {
    SlugCharsAppend(a + b, c);
    SlugCharsAppend(a, b);
    var x, y, z := SlugChars(a), SlugChars(b), SlugChars(c);
    assert x + y + z == x + (y + z);
  }

  /** A word, a run of dashes and text starting with a word collapse to the
      word, one dash and the collapsed text. */
  lemma SqueezeWordRun(x: string, d: string, y: string)
    requires forall i :: 0 <= i < |x| ==> x[i] != '-'
    requires |d| > 0 && forall i :: 0 <= i < |d| ==> d[i] == '-'
    requires |y| > 0 && y[0] != '-'
    ensures Squeeze(x + (d + y)) == x + "-" + Squeeze(y)
  {
    SqueezeWord(x, d + y);
    SqueezeDashes(d, y);
  }

  /** Lower-cased alphanumerics hold no dash. */
  lemma LowerWordNoDash(w: string)
    requires forall i :: 0 <= i < |w| ==> IsAlnum(w[i])
    ensures forall i :: 0 <= i < |Lower(w)| ==> Lower(w)[i] != '-'
  {
  }

  /** A run of characters that are not alphanumeric, between a word and text
      that starts and ends with an alphanumeric, becomes a single dash. */
  lemma RunBetweenWords(w: string, run: string, rest: string)
    requires |w| > 0 && forall i :: 0 <= i < |w| ==> IsAlnum(w[i])
    requires |run| > 0 && forall i :: 0 <= i < |run| ==> !IsAlnum(run[i])
    requires |rest| > 0 && IsAlnum(rest[0]) && IsAlnum(rest[|rest| - 1])
    ensures SlugOf(w + run + rest) == Lower(w) + "-" + SlugOf(rest)
  {
    var value := w + run + rest;
    assert value[0] == w[0] && value[|value| - 1] == rest[|rest| - 1];
    AlnumEndsSlug(value);
    AlnumEndsSlug(rest);
    ThreeChars(w, run, rest);
    WordLower(w);
    RunDashes(run);
    LowerWordNoDash(w);
    SqueezeWordRun(Lower(w), SlugChars(run), SlugChars(rest));
  }

  /** Text already in lower case is unchanged by lower-casing. */
  lemma LowerOfLowercase(w: string)
    requires forall i :: 0 <= i < |w| ==> IsLower(w[i]) || IsDigit(w[i])
    ensures Lower(w) == w
  {
  }

  /** Two lower-case words separated by a space. */
  lemma TwoWordsSlug(w: string, rest: string)
    requires |w| > 0 && forall i :: 0 <= i < |w| ==> IsLower(w[i]) || IsDigit(w[i])
    requires |rest| > 0 && forall i :: 0 <= i < |rest| ==> IsLower(rest[i]) || IsDigit(rest[i])
    ensures SlugOf(w + " " + rest) == w + "-" + rest
  {
    RunBetweenWords(w, " ", rest);
    WordSlug(rest);
    LowerOfLowercase(w);
    LowerOfLowercase(rest);
  }

  /** The topic the direct path names its video after. */
  const DirectTopic: string := "testing 101"

  /** The slug of the direct path, whose topic is "testing 101". */
  lemma TestingSlug()
    ensures SlugOf(DirectTopic) == "testing-101"
  {
    var w, rest := DirectTopic[..7], DirectTopic[8..];
    assert DirectTopic == w + " " + rest;
    TwoWordsSlug(w, rest);
  }

  // ---------------------------------------------------------------- answers

  /** A yes/no answer: `input(...).strip().lower()` must be "y" or "yes";
      end of input reads as "n". */
  predicate Confirms(answer: Option<string>) {
    answer.Some? && (Lower(PyStrip(answer.value)) == "y" || Lower(PyStrip(answer.value)) == "yes")
  }

  /** `c` is the letter `l` in either case. */
  predicate SameLetter(c: char, l: char)
    requires IsLower(l)
  {
    c == l || c == (l as int - 32) as char
  }

  /** "y" or "yes" in any mix of cases. */
  predicate SpellsYes(w: string) {
    || (|w| == 1 && SameLetter(w[0], 'y'))
    || (|w| == 3 && SameLetter(w[0], 'y') && SameLetter(w[1], 'e') && SameLetter(w[2], 's'))
  }

  lemma LowerIsLetter(c: char, l: char)
    requires IsLower(l)
    ensures LowerChar(c) == l <==> SameLetter(c, l)
  {
  }

  /** The answer says yes exactly when, stripped, it spells "y" or "yes" in
      any case; end of input never does. */
  lemma ConfirmsIff(answer: Option<string>)
    ensures Confirms(answer) <==> answer.Some? && SpellsYes(PyStrip(answer.value))
    ensures !Confirms(None)
  {
    if answer.Some? {
      var w := PyStrip(answer.value);
      var lw := Lower(w);
      if |w| == 1 {
        LowerIsLetter(w[0], 'y');
        assert lw == "y" <==> lw[0] == 'y';
      } else if |w| == 3 {
        LowerIsLetter(w[0], 'y');
        LowerIsLetter(w[1], 'e');
        LowerIsLetter(w[2], 's');
        assert lw == "yes" <==> lw[0] == 'y' && lw[1] == 'e' && lw[2] == 's';
      }
    }
  }

  /** White space around a yes is ignored. */
  lemma ConfirmPadded(front: string, word: string, back: string)
    requires forall i :: 0 <= i < |front| ==> IsPySpace(front[i])
    requires forall i :: 0 <= i < |back| ==> IsPySpace(back[i])
    requires SpellsYes(word)
    ensures Confirms(Some(front + word + back))
  {
    TrimPadded(front, word, back, IsPySpace);
    ConfirmsIff(Some(front + word + back));
  }

  /** How many scripts to send: the answer, read with `int`, clamped into
      `[1, maxCount]`; no answer, an empty one or one `int` rejects keeps
      `maxCount`. */
  function ToSend(maxCount: int, answer: Option<string>): (r: int)
    requires maxCount >= 1
    ensures 1 <= r <= maxCount
    ensures answer.None? ==> r == maxCount
    ensures answer.Some? && PyInt(answer.value).None? ==> r == maxCount
    ensures answer.Some? && PyInt(answer.value).Some? ==>
      (r == PyInt(answer.value).value <==> 1 <= PyInt(answer.value).value <= maxCount)
    ensures answer.Some? && PyInt(answer.value).Some? && PyInt(answer.value).value < 1 ==> r == 1
    ensures answer.Some? && PyInt(answer.value).Some? && PyInt(answer.value).value > maxCount ==>
      r == maxCount
  {
    if answer.None? then maxCount
    else
      var raw := PyStrip(answer.value);
      PyStrippedIff(answer.value);
      assert PyInt(raw) == PyInt(answer.value);
      if raw == "" then maxCount
      else
        match PyInt(raw)
        case None => maxCount
        case Some(v) =>
          var value := if v < 1 then 1 else v;
          if value > maxCount then maxCount else value
  }

  /** Typing a count in range sends exactly that many. */
  lemma ToSendTyped(maxCount: int, n: int)
    requires 1 <= n <= maxCount
    ensures ToSend(maxCount, Some(IntToDecimal(n))) == n
  {
    PyIntRoundTrip(n);
  }

  // -------------------------------------------------------------- video URL

  /** Where the driver looks for the video URL: a truthy URL, none, or an
      `AttributeError` from calling `.get` on a value that is not a dict. */
  datatype UrlLookup = Found(url: Json) | NoUrl | NotADict

  const AttributeErrorMessage: string := "AttributeError: object has no attribute 'get'"

  /** `(holder or {}).get(key) or {}`-style step: the member `key` of a
      truthy dict, or `{}` when the holder or the member is falsy; `None`
      when the holder is a truthy non-dict. */
  function MemberOrEmpty(holder: Json, key: string): (r: Option<Json>)
    ensures r.None? <==> Truthy(holder) && !holder.JObject?
    ensures r.Some? ==> Truthy(r.value) || r.value == JObject([])
    ensures !Truthy(holder) ==> r == Some(JObject([]))
    ensures holder.JObject? ==>
      var v := Get(holder.members, key);
      && (v.Some? && Truthy(v.value) ==> r == v)
      && (v.None? || !Truthy(v.value) ==> r == Some(JObject([])))
  {
    if !Truthy(holder) then Some(JObject([]))
    else if !holder.JObject? then None
    else
      var v := Get(holder.members, key);
      if v.Some? && Truthy(v.value) then v else Some(JObject([]))
  }

  /** The URL extraction: `result["data"]` when it is truthy, else `result`
      itself; then its `video`, then the video's `url`. */
  function VideoUrl(result: Json): (r: UrlLookup)
    ensures r.Found? ==> Truthy(r.url)
    ensures !Truthy(result) ==> r == NoUrl
    ensures Truthy(result) && !result.JObject? ==> r == NotADict
  {
    var data0 := if result.JObject? then Get(result.members, "data") else None;
    var data := if data0.Some? && Truthy(data0.value) then data0.value else result;
    match MemberOrEmpty(data, "video")
    case None => NotADict
    case Some(video) =>
      if !video.JObject? then NotADict
      else
        var url := Get(video.members, "url");
        if url.Some? && Truthy(url.value) then Found(url.value) else NoUrl
  }

  /** The two shapes the driver expects, `{"data": {"video": {"url": u}}}`
      and `{"video": {"url": u}}`, both yield `u`. */
  lemma ExpectedShapes(u: Json)
    requires Truthy(u)
    ensures VideoUrl(JObject([Member("data", JObject([Member("video", JObject([Member("url", u)]))]))])) == Found(u)
    ensures VideoUrl(JObject([Member("video", JObject([Member("url", u)]))])) == Found(u)
  {
  }

  /** A truthy `data` dict is searched instead of the result: its URL wins
      over one beside it, and without a `video` of its own there is no URL
      even when the result has one. */
  lemma DataTakesPrecedence(u: Json, v: Json)
    requires Truthy(u)
    ensures VideoUrl(JObject([Member("video", JObject([Member("url", v)])),
                              Member("data", JObject([Member("video", JObject([Member("url", u)]))]))]))
            == Found(u)
    ensures VideoUrl(JObject([Member("data", JObject([Member("status", JString("done"))])),
                              Member("video", JObject([Member("url", u)]))]))
            == NoUrl
  {
    var ms := [Member("video", JObject([Member("url", v)])),
               Member("data", JObject([Member("video", JObject([Member("url", u)]))]))];
    assert Get(ms, "data") == Get(ms[1..], "data");
    var status := JObject([Member("status", JString("done"))]);
    assert Get(status.members, "video") == Get(status.members[1..], "video");
  }

  /** A falsy `data` member is passed over and the result itself searched. */
  lemma FalsyDataIgnored(u: Json, data: Json)
    requires Truthy(u) && !Truthy(data)
    ensures VideoUrl(JObject([Member("data", data), Member("video", JObject([Member("url", u)]))])) == Found(u)
  {
    var ms := [Member("data", data), Member("video", JObject([Member("url", u)]))];
    assert Get(ms, "video") == Get(ms[1..], "video");
  }

  // -------------------------------------------------------- payload, files

  /** The request sent to FAL for one text. */
  function Payload(avatar: string, text: string, voice: string, removeBackground: bool): Json {
    var base := [Member("avatar", JString(avatar)), Member("text", JString(text)), Member("voice", JString(voice))];
    JObject(if removeBackground then base + [Member("remove_background", JBool(true))] else base)
  }

  /** The request carries the avatar, the text and the voice. */
  lemma PayloadFields(avatar: string, text: string, voice: string, removeBackground: bool)
    ensures Payload(avatar, text, voice, removeBackground).JObject?
    ensures Get(Payload(avatar, text, voice, removeBackground).members, "avatar") == Some(JString(avatar))
    ensures Get(Payload(avatar, text, voice, removeBackground).members, "text") == Some(JString(text))
    ensures Get(Payload(avatar, text, voice, removeBackground).members, "voice") == Some(JString(voice))
  {
    var members := Payload(avatar, text, voice, removeBackground).members;
    assert members[1] == Member("text", JString(text));
    GetAt(members, 1, "text");
    assert members[2] == Member("voice", JString(voice));
    GetAt(members, 2, "voice");
  }

  /** The request asks for background removal exactly when the flag is
      set. */
  lemma PayloadBackground(avatar: string, text: string, voice: string, removeBackground: bool)
    ensures var members := Payload(avatar, text, voice, removeBackground).members;
      Get(members, "remove_background") == if removeBackground then Some(JBool(true)) else None
  {
    var members := Payload(avatar, text, voice, removeBackground).members;
    if removeBackground {
      assert members[3] == Member("remove_background", JBool(true));
      GetAt(members, 3, "remove_background");
    } else {
      assert forall i :: 0 <= i < |members| ==> members[i].key != "remove_background";
    }
  }

  /** `get` finds the member at `i` when no earlier member has its key. */
  lemma {:induction false} GetAt(members: seq<Member>, i: nat, key: string)
    requires i < |members| && members[i].key == key
    requires forall j :: 0 <= j < i ==> members[j].key != key
    ensures Get(members, key) == Some(members[i].value)
    decreases i
  {
    if i > 0 {
      GetAt(members[1..], i - 1, key);
    }
  }

  /** The file one video of the series is saved to. */
  function PartFileName(slug: string, idx: nat): (name: string)
    ensures |name| == |slug| + 6 + |NatToDecimal(idx)| + 4
    ensures name[..|slug|] == slug && name[|slug| + 6..|name| - 4] == NatToDecimal(idx)
  {
    slug + "_part-" + NatToDecimal(idx) + ".mp4"
  }

  /** Different parts never share a file. */
  lemma PartNamesDistinct(slug: string, i: nat, j: nat)
    ensures PartFileName(slug, i) == PartFileName(slug, j) <==> i == j
  {
    if PartFileName(slug, i) == PartFileName(slug, j) {
      DecimalRoundTrip(i);
      DecimalRoundTrip(j);
    }
  }

  /** The file the direct path saves its video to. */
  function VideoFileName(slug: string): (name: string)
    ensures |name| == |slug| + 4 && name[..|slug|] == slug
  {
    slug + ".mp4"
  }

  // ------------------------------------------------------------------- runs

  /** The command line: `--prompt`, `--avatar`, `--voice`,
      `--remove-background`, `--count` and `--direct-to-fal`. */
  datatype Args = Args(
    prompt: Option<string>,
    avatar: string,
    voice: string,
    removeBackground: bool,
    count: int,
    directToFal: bool)

  /** The console lines read, in the order they are asked for; `None` is end
      of input. */
  datatype Answers = Answers(
    prompt: Option<string>,
    proceed: Option<string>,
    howMany: Option<string>,
    confirm: Option<string>)

  /** What the language model answered `generate_series`: the raw text and
      the JSON it parses to, if any; or the error with which both OpenAI
      calls failed, which `_call_openai_json` raises as a `RuntimeError`. */
  datatype Reply = Answered(raw: Option<string>, decoded: Option<Json>) | RequestFailed(error: string)

  /** The environment of the submissions: the FAL result (or the exception
      `subscribe` raised) and whether the download succeeded, for the
      submission with 1-based index `k`. */
  datatype Service = Service(fal: nat -> Result<Json>, downloads: nat -> bool)

  /** What happened to one submission: an exception that ends the run (from
      `subscribe`, or `.get` on a non-dict), no URL in the result, or a URL
      whose download succeeded or failed. */
  datatype Step = Crash(message: string) | NoVideo | Downloaded | DownloadFailed

  function Classify(fal: Result<Json>, downloaded: bool): (s: Step)
    ensures s.Crash? <==> fal.Raised? || VideoUrl(fal.value) == NotADict
    ensures s == NoVideo <==> fal.Success? && VideoUrl(fal.value) == NoUrl
    ensures s == Downloaded <==> fal.Success? && VideoUrl(fal.value).Found? && downloaded
  {
    match fal
    case Raised(m) => Crash(m)
    case Success(result) =>
      match VideoUrl(result)
      case NotADict => Crash(AttributeErrorMessage)
      case NoUrl => NoVideo
      case Found(_) => if downloaded then Downloaded else DownloadFailed
  }

  /** The outcome of every submission. */
  function Steps(svc: Service): nat -> Step {
    (k: nat) => Classify(svc.fal(k), svc.downloads(k))
  }

  /** What the submission loop wrote: one payload per script and the video
      files whose download completed. */
  datatype Sent = Sent(payloads: seq<Json>, videos: seq<string>)

  /** The submission loop from index `idx` on: each script is sent, a result
      without a URL is skipped, and a failed download is reported and
      skipped. */
  function SubmitFrom(args: Args, slug: string, batch: seq<string>, idx: nat, steps: nat -> Step): (r: Result<Sent>)
    ensures r.Success? ==> |r.value.payloads| == |batch|
    ensures r.Success? ==> forall i :: 0 <= i < |batch| ==>
      r.value.payloads[i] == Payload(args.avatar, batch[i], args.voice, args.removeBackground)
    decreases |batch|
  {
    if |batch| == 0 then Success(Sent([], []))
    else
      var payload := Payload(args.avatar, batch[0], args.voice, args.removeBackground);
      var rest := SubmitFrom(args, slug, batch[1..], idx + 1, steps);
      if steps(idx).Crash? then Raised(steps(idx).message)
      else if rest.Raised? then rest
      else
        var video := if steps(idx) == Downloaded then [PartFileName(slug, idx)] else [];
        Success(Sent([payload] + rest.value.payloads, video + rest.value.videos))
  }

  /** The loop ends with an exception exactly when one of its submissions
      crashes. */
  lemma {:induction false} SubmitRaisesIff(args: Args, slug: string, batch: seq<string>, idx: nat, steps: nat -> Step)
    ensures SubmitFrom(args, slug, batch, idx, steps).Raised? <==>
      exists k :: idx <= k < idx + |batch| && steps(k).Crash?
    decreases |batch|
  {
    if |batch| > 0 {
      SubmitRaisesIff(args, slug, batch[1..], idx + 1, steps);
      if SubmitFrom(args, slug, batch, idx, steps).Raised? && !steps(idx).Crash? {
        var k :| idx + 1 <= k < idx + 1 + |batch[1..]| && steps(k).Crash?;
      }
    }
  }

  /** The loop lists the part file of a submission exactly when that
      submission's download completed, and lists nothing else. */
  lemma {:induction false} SubmitVideos(args: Args, slug: string, batch: seq<string>, idx: nat, steps: nat -> Step)
    requires SubmitFrom(args, slug, batch, idx, steps).Success?
    ensures var videos := SubmitFrom(args, slug, batch, idx, steps).value.videos;
      forall v :: v in videos ==>
        exists k :: idx <= k < idx + |batch| && v == PartFileName(slug, k) && steps(k) == Downloaded
    ensures var videos := SubmitFrom(args, slug, batch, idx, steps).value.videos;
      forall k :: idx <= k < idx + |batch| && steps(k) == Downloaded ==> PartFileName(slug, k) in videos
    decreases |batch|
  {
    if |batch| > 0 {
      SubmitVideos(args, slug, batch[1..], idx + 1, steps);
    }
  }

  /** What a run ends with: the exit code, the payloads written and the
      video files whose download completed. */
  datatype Run = Run(exitCode: int, payloads: seq<Json>, videos: seq<string>)

  /** The prompt: the command-line one when it is not empty, else the
      stripped console line. */
  function PromptOf(args: Args, answers: Answers): (p: string)
    ensures args.prompt.Some? && args.prompt.value != "" ==> p == args.prompt.value
    ensures (args.prompt.None? || args.prompt.value == "") && answers.prompt.Some? ==>
      p == PyStrip(answers.prompt.value)
    ensures (args.prompt.None? || args.prompt.value == "") && answers.prompt.None? ==> p == ""
  {
    if args.prompt.Some? && args.prompt.value != "" then args.prompt.value
    else if answers.prompt.Some? then PyStrip(answers.prompt.value)
    else ""
  }

  /** The series scripts worth sending: the non-empty ones, in order. */
  function NonEmptyScripts(scripts: seq<string>): (r: seq<string>)
    ensures |r| <= |scripts|
    ensures forall t :: t in r <==> t in scripts && t != ""
    ensures Seqs.IsSubseq(r, scripts)
    ensures forall t :: t != "" ==> multiset(r)[t] == multiset(scripts)[t]
  {
    if |scripts| == 0 then []
    else
      var rest := NonEmptyScripts(scripts[1..]);
      assert scripts == [scripts[0]] + scripts[1..];
      assert multiset(scripts) == multiset{scripts[0]} + multiset(scripts[1..]);
      if scripts[0] != "" then
        var r := [scripts[0]] + rest;
        assert r[1..] == rest;
        r
      else
        Seqs.SubseqOfTail(rest, scripts);
        rest
  }

  /** The direct path: the prompt itself is sent once and the video saved
      under the slug of "testing 101". */
  function DirectRun(args: Args, prompt: string, svc: Service): (r: Result<Run>)
    ensures var step := Classify(svc.fal(1), svc.downloads(1));
      && (r.Raised? <==> step.Crash?)
      && (r.Success? ==> r.value.payloads == [Payload(args.avatar, prompt, args.voice, args.removeBackground)])
      && (r.Success? ==> (r.value.exitCode == 0 <==> step == Downloaded))
      && (r.Success? ==> (r.value.exitCode == 1 <==> step != Downloaded))
      && (r.Success? && r.value.exitCode == 0 ==> r.value.videos == [VideoFileName("testing-101")])
      && (r.Success? && r.value.exitCode == 1 ==> r.value.videos == [])
  {
    TestingSlug();
    var payload := Payload(args.avatar, prompt, args.voice, args.removeBackground);
    match Classify(svc.fal(1), svc.downloads(1))
    case Crash(m) => Raised(m)
    case Downloaded => Success(Run(0, [payload], [VideoFileName(SlugOf(DirectTopic))]))
    case _ => Success(Run(1, [payload], []))
  }

  /** The series path after the scripts are generated: both questions must
      be answered yes before anything is sent. */
  function SeriesRun(args: Args, answers: Answers, series: GenScript.Series, svc: Service): (r: Result<Run>)
    ensures var scripts := NonEmptyScripts(series.scripts);
      && (|scripts| == 0 ==> r == Success(Run(1, [], [])))
      && (|scripts| > 0 && !(Confirms(answers.proceed) && Confirms(answers.confirm)) ==>
            r == Success(Run(0, [], [])))
      && (|scripts| > 0 && Confirms(answers.proceed) && Confirms(answers.confirm) ==>
            var n := ToSend(|scripts|, answers.howMany);
            && (r.Raised? <==> exists k :: 1 <= k <= n && Steps(svc)(k).Crash?)
            && (r.Success? ==> r.value.exitCode == 0 && |r.value.payloads| == n)
            && (r.Success? ==> forall i :: 0 <= i < n ==>
                  r.value.payloads[i] == Payload(args.avatar, scripts[i], args.voice, args.removeBackground))
            && (r.Success? ==> forall k :: 1 <= k <= n ==>
                  (PartFileName(SlugOf(series.topic), k) in r.value.videos <==> Steps(svc)(k) == Downloaded))
            && (r.Success? ==> forall v :: v in r.value.videos ==>
                  exists k :: 1 <= k <= n && v == PartFileName(SlugOf(series.topic), k) && Steps(svc)(k) == Downloaded))
  {
    var scripts := NonEmptyScripts(series.scripts);
    if |scripts| == 0 then Success(Run(1, [], []))
    else
      var slug := SlugOf(series.topic);
      if !Confirms(answers.proceed) then Success(Run(0, [], []))
      else
        var n := ToSend(|scripts|, answers.howMany);
        if !Confirms(answers.confirm) then Success(Run(0, [], []))
        else
          var sent := SubmitFrom(args, slug, scripts[..n], 1, Steps(svc));
          SendFirst(args, slug, scripts, n, Steps(svc));
          if sent.Raised? then Raised(sent.message)
          else Success(Run(0, sent.value.payloads, sent.value.videos))
  }

  /** Sending the first `n` scripts: the loop raises exactly when one of
      their submissions crashes; otherwise payload `i` carries script `i`
      and a part file is listed exactly for the completed downloads, and no
      other file is listed. */
  lemma SendFirst(args: Args, slug: string, scripts: seq<string>, n: int, steps: nat -> Step)
    requires 0 <= n <= |scripts|
    ensures var sent := SubmitFrom(args, slug, scripts[..n], 1, steps);
      && (sent.Raised? <==> exists k :: 1 <= k <= n && steps(k).Crash?)
      && (sent.Success? ==> |sent.value.payloads| == n)
      && (sent.Success? ==> forall i :: 0 <= i < n ==>
            sent.value.payloads[i] == Payload(args.avatar, scripts[i], args.voice, args.removeBackground))
      && (sent.Success? ==> forall k :: 1 <= k <= n ==>
            (PartFileName(slug, k) in sent.value.videos <==> steps(k) == Downloaded))
      && (sent.Success? ==> forall v :: v in sent.value.videos ==>
            exists k :: 1 <= k <= n && v == PartFileName(slug, k) && steps(k) == Downloaded)
  {
    var batch := scripts[..n];
    var sent := SubmitFrom(args, slug, batch, 1, steps);
    SubmitRaisesIff(args, slug, batch, 1, steps);
    if sent.Success? {
      SentVideosExact(args, slug, batch, steps, sent.value);
      SubmitVideos(args, slug, batch, 1, steps);
    }
  }

  /** Inside the batch a part's file is saved exactly when its submission's
      video was downloaded. */
  lemma SentVideosExact(args: Args, slug: string, batch: seq<string>, steps: nat -> Step, sent: Sent)
    requires SubmitFrom(args, slug, batch, 1, steps) == Success(sent)
    ensures forall k :: 1 <= k <= |batch| ==> (PartFileName(slug, k) in sent.videos <==> steps(k) == Downloaded)
  {
    SubmitVideos(args, slug, batch, 1, steps);
    forall k | 1 <= k <= |batch| && PartFileName(slug, k) in sent.videos
      ensures steps(k) == Downloaded
    {
      var j :| 1 <= j < 1 + |batch| && PartFileName(slug, k) == PartFileName(slug, j) && steps(j) == Downloaded;
      PartNamesDistinct(slug, k, j);
    }
  }

  /** `main`: exit code 2 without a prompt, then either the direct path or
      the series path. A failed OpenAI request, an empty answer, and an
      exception from FAL end the run as `Raised`. */
  function RunMain(args: Args, answers: Answers, reply: Reply, svc: Service): (r: Result<Run>)
    ensures PromptOf(args, answers) == "" ==> r == Success(Run(2, [], []))
    ensures r.Success? && r.value.exitCode == 2 ==> PromptOf(args, answers) == ""
    ensures r.Success? ==> 0 <= r.value.exitCode <= 2
    ensures PromptOf(args, answers) != "" && args.directToFal ==>
      r == DirectRun(args, PromptOf(args, answers), svc)
    ensures PromptOf(args, answers) != "" && !args.directToFal && reply.RequestFailed? ==>
      r == Raised("OpenAI request failed: " + reply.error)
    ensures PromptOf(args, answers) != "" && !args.directToFal && reply.Answered? ==>
      var series := GenScript.GenerateSeries(args.count, reply.raw, reply.decoded);
      && (series.Raised? ==> r == Raised(series.message))
      && (series.Success? ==> r == SeriesRun(args, answers, series.value, svc))
    ensures r.Success? && !args.directToFal && |r.value.payloads| > 0 ==>
      Confirms(answers.proceed) && Confirms(answers.confirm)
  {
    var prompt := PromptOf(args, answers);
    if prompt == "" then Success(Run(2, [], []))
    else if args.directToFal then DirectRun(args, prompt, svc)
    else
      match reply
      case RequestFailed(error) => Raised("OpenAI request failed: " + error)
      case Answered(raw, decoded) =>
        match GenScript.GenerateSeries(args.count, raw, decoded)
        case Raised(m) => Raised(m)
        case Success(series) => SeriesRun(args, answers, series, svc)
  }
}

=== FILE: quiz_card.dfy ===
/** The store-backed quiz card (`src/components/QuizCard.tsx`): what it shows
    for a reel id given the store state, and what a click on a choice does. */
module QuizCard {
  import opened Base
  import Store

  datatype Tint = Neutral | Green | Red

  datatype ChoiceButton = ChoiceButton(text: string, disabled: bool, tint: Tint)

  /** The rendered card; `feedback` is the line shown once answered. */
  datatype Card = Card(prompt: string, buttons: seq<ChoiceButton>, feedback: Option<string>)

  function ButtonFor(text: string, answered: Option<Store.Answer>, idx: int): ChoiceButton {
    var isSelected := answered.Some? && answered.value.selectedIndex == idx;
    var isCorrect := isSelected && answered.value.correct;
    var isWrong := isSelected && !answered.value.correct;
    ChoiceButton(text, answered.Some?, if isCorrect then Green else if isWrong then Red else Neutral)
  }

  function Buttons(choices: seq<string>, answered: Option<Store.Answer>): (bs: seq<ChoiceButton>)
    ensures |bs| == |choices|
    ensures forall i :: 0 <= i < |choices| ==> bs[i] == ButtonFor(choices[i], answered, i)
  {
    seq(|choices|, i requires 0 <= i < |choices| => ButtonFor(choices[i], answered, i))
  }

  /** The recorded answer for `reelId`, if any (`quizAnswers[reelId]`). */
  function AnswerOf(s: Store.AppState, reelId: string): Option<Store.Answer> {
    if reelId in s.quizAnswers then Some(s.quizAnswers[reelId]) else None
  }

  /** The card for `reelId`: nothing for an unknown reel or one without a
      quiz; otherwise one button per choice, all disabled once an answer is
      recorded, and only the recorded choice tinted (green iff correct). */
  function Render(s: Store.AppState, reelId: string): (r: Option<Card>)
    ensures r.None? <==> Store.QuizOf(s, reelId).None?
    ensures r.Some? ==>
      var choices := Store.QuizOf(s, reelId).value.choices;
      var bs := r.value.buttons;
      && |bs| == |choices|
      && (forall i :: 0 <= i < |bs| ==> bs[i].text == choices[i])
      && (forall i :: 0 <= i < |bs| ==> (bs[i].disabled <==> reelId in s.quizAnswers))
      && (forall i :: 0 <= i < |bs| ==>
            (bs[i].tint == Green <==>
               reelId in s.quizAnswers && s.quizAnswers[reelId].selectedIndex == i
               && s.quizAnswers[reelId].correct))
      && (forall i :: 0 <= i < |bs| ==>
            (bs[i].tint == Red <==>
               reelId in s.quizAnswers && s.quizAnswers[reelId].selectedIndex == i
               && !s.quizAnswers[reelId].correct))
    ensures r.Some? ==>
      && (r.value.feedback.None? <==> reelId !in s.quizAnswers)
      && (r.value.feedback == Some("Correct!") <==>
            reelId in s.quizAnswers && s.quizAnswers[reelId].correct)
      && (r.value.feedback == Some("Not quite") <==>
            reelId in s.quizAnswers && !s.quizAnswers[reelId].correct)
  {
    var quiz := Store.QuizOf(s, reelId);
    if quiz.None? then None
    else
      var answered := AnswerOf(s, reelId);
      var feedback :=
        if answered.None? then None
        else if answered.value.correct then Some("Correct!")
        else Some("Not quite");
      Some(Card(quiz.value.prompt, Buttons(quiz.value.choices, answered), feedback))
  }

  /** A click on choice `idx`: a disabled button does nothing, an enabled one
      calls the store's `answerQuiz` with this card's reel id. */
  function Click(s: Store.AppState, reelId: string, idx: int): (r: Store.AppState)
    requires Store.QuizOf(s, reelId).Some?
    requires 0 <= idx < |Store.QuizOf(s, reelId).value.choices|
    ensures reelId in s.quizAnswers ==> r == s
    ensures reelId !in s.quizAnswers ==> r == Store.AnswerQuiz(s, reelId, idx)
  {
    if reelId in s.quizAnswers then s else Store.AnswerQuiz(s, reelId, idx)
  }

  /** The "Next video" button, shown beside the feedback once answered:
      `None` when it is not on screen, otherwise the store's `next`, which
      keeps every recorded answer. */
  function NextVideo(s: Store.AppState, reelId: string): (r: Option<Store.AppState>)
    ensures r.Some? <==> Render(s, reelId).Some? && Render(s, reelId).value.feedback.Some?
    ensures r.Some? ==> r.value.quizAnswers == s.quizAnswers && r.value.reels == s.reels
    ensures r.Some? && 0 <= s.currentIndex < |s.reels| - 1 ==> r.value.currentIndex == s.currentIndex + 1
  {
    if Store.QuizOf(s, reelId).Some? && reelId in s.quizAnswers then Some(Store.Next(s)) else None
  }

  /** After the first click on a fresh card, exactly the clicked choice is
      tinted, green iff it is the answer key, every button is disabled, and
      the feedback reads "Correct!" iff the choice was right. */
  lemma FirstClickOutcome(s: Store.AppState, reelId: string, idx: int)
    requires Store.QuizOf(s, reelId).Some?
    requires 0 <= idx < |Store.QuizOf(s, reelId).value.choices|
    requires reelId !in s.quizAnswers
    ensures var key := Store.QuizOf(s, reelId).value.answerIndex;
      var card := Render(Click(s, reelId, idx), reelId);
      && card.Some?
      && (forall i :: 0 <= i < |card.value.buttons| ==> card.value.buttons[i].disabled)
      && (forall i :: 0 <= i < |card.value.buttons| && i != idx ==> card.value.buttons[i].tint == Neutral)
      && (card.value.buttons[idx].tint == Green <==> idx == key)
      && (card.value.buttons[idx].tint == Red <==> idx != key)
      && (card.value.feedback == Some("Correct!") <==> idx == key)
  {
    var t := Click(s, reelId, idx);
    assert Store.FindReel(t.reels, reelId) == Store.FindReel(s.reels, reelId);
  }
}

=== FILE: quiz_drawer.dfy ===
/** The quiz drawer (`src/components/QuizDrawer.tsx`): per-question selections
    over a quiz payload, the score and completion computed from them, the
    per-question badge and choice highlighting, buttons frozen once a question
    is answered, and the reset when the payload's video changes. */
module QuizDrawer {
  import opened Base
  import opened Api

  /** Question index to selected choice index (`Record<number, number>`). */
  type Selections = map<int, int>

  /** Question `i` has a selection equal to its answer key. */
  predicate IsCorrectAt(qs: seq<QuizQuestion>, sel: Selections, i: int)
    requires 0 <= i < |qs|
  {
    i in sel && sel[i] == qs[i].answerIndex
  }

  /** The questions among the first `n` answered correctly. */
  ghost function CorrectBelow(qs: seq<QuizQuestion>, sel: Selections, n: nat): set<int>
    requires n <= |qs|
  {
    set i | 0 <= i < n && IsCorrectAt(qs, sel, i)
  }

  /** The `forEach` tally over the first `n` questions. */
  function CountCorrect(qs: seq<QuizQuestion>, sel: Selections, n: nat): (c: nat)
    requires n <= |qs|
    ensures c <= n
    ensures c == n <==> forall i :: 0 <= i < n ==> IsCorrectAt(qs, sel, i)
    ensures (forall i :: 0 <= i < n ==> i !in sel) ==> c == 0
  {
    if n == 0 then 0
    else CountCorrect(qs, sel, n - 1) + (if IsCorrectAt(qs, sel, n - 1) then 1 else 0)
  }

  /** The tally counts exactly the correctly answered questions. */
  lemma {:induction false} CountCorrectIsCardinality(qs: seq<QuizQuestion>, sel: Selections, n: nat)
    requires n <= |qs|
    ensures CountCorrect(qs, sel, n) == |CorrectBelow(qs, sel, n)|
  {
    if n > 0 {
      CountCorrectIsCardinality(qs, sel, n - 1);
      var below := CorrectBelow(qs, sel, n - 1);
      assert n - 1 !in below;
      if IsCorrectAt(qs, sel, n - 1) {
        assert CorrectBelow(qs, sel, n) == below + {n - 1};
      } else {
        assert CorrectBelow(qs, sel, n) == below;
      }
    }
  }

  datatype Score = Score(correct: nat, total: nat)

  /** The footer's `correct/total mastered`. */
  function ScoreOf(quiz: QuizPayload, sel: Selections): (r: Score)
    ensures r.total == |quiz.questions|
    ensures r.correct <= r.total
    ensures r.correct == |CorrectBelow(quiz.questions, sel, |quiz.questions|)|
    ensures r.correct == r.total <==>
      forall i :: 0 <= i < |quiz.questions| ==> IsCorrectAt(quiz.questions, sel, i)
  {
    CountCorrectIsCardinality(quiz.questions, sel, |quiz.questions|);
    Score(CountCorrect(quiz.questions, sel, |quiz.questions|), |quiz.questions|)
  }

  /** `questions.every((_, i) => selections[i] !== undefined)`. */
  predicate AllAnswered(quiz: QuizPayload, sel: Selections) {
    forall i :: 0 <= i < |quiz.questions| ==> i in sel
  }

  /** A perfect sheet scores full marks and completes the quiz; a quiz with
      no questions is complete before anything is chosen. */
  lemma PerfectSheet(quiz: QuizPayload, sel: Selections)
    ensures (forall i :: 0 <= i < |quiz.questions| ==> i in sel && sel[i] == quiz.questions[i].answerIndex)
      ==> ScoreOf(quiz, sel).correct == ScoreOf(quiz, sel).total && AllAnswered(quiz, sel)
    ensures |quiz.questions| == 0 ==> AllAnswered(quiz, map[])
  {
  }

  // ------------------------------------------------------------- choosing

  /** A question's choice buttons are disabled once it has a selection. */
  predicate Disabled(sel: Selections, question: int) {
    question in sel
  }

  /** A click on choice `choice` of question `question`; the button exists,
      so both indices are in range. A disabled button ignores the click. */
  function Choose(quiz: QuizPayload, sel: Selections, question: int, choice: int): (r: Selections)
    requires 0 <= question < |quiz.questions|
    requires 0 <= choice < |quiz.questions[question].choices|
    ensures Disabled(sel, question) ==> r == sel
    ensures !Disabled(sel, question) ==>
      && r.Keys == sel.Keys + {question}
      && r[question] == choice
      && forall q :: q in sel ==> r[q] == sel[q]
  {
    if Disabled(sel, question) then sel else sel[question := choice]
  }

  datatype Click = Click(question: int, choice: int)

  predicate ValidClicks(quiz: QuizPayload, clicks: seq<Click>) {
    forall k :: 0 <= k < |clicks| ==>
      0 <= clicks[k].question < |quiz.questions| &&
      0 <= clicks[k].choice < |quiz.questions[clicks[k].question].choices|
  }

  function ApplyClicks(quiz: QuizPayload, sel: Selections, clicks: seq<Click>): Selections
    requires ValidClicks(quiz, clicks)
    decreases |clicks|
  {
    if |clicks| == 0 then sel
    else ApplyClicks(quiz, Choose(quiz, sel, clicks[0].question, clicks[0].choice), clicks[1..])
  }

  /** The first choice clicked for `question`, if any. */
  function FirstChoice(clicks: seq<Click>, question: int): (r: Option<int>)
    ensures r.None? <==> forall k :: 0 <= k < |clicks| ==> clicks[k].question != question
  {
    if |clicks| == 0 then None
    else if clicks[0].question == question then Some(clicks[0].choice)
    else FirstChoice(clicks[1..], question)
  }

  /** Each question is answerable once: after any clicks, a question keeps
      the selection it had, or else holds the first choice clicked for it. */
  lemma {:induction false} AnsweredOnce(quiz: QuizPayload, sel: Selections, clicks: seq<Click>, q: int)
    requires ValidClicks(quiz, clicks)
    ensures var r := ApplyClicks(quiz, sel, clicks);
      && (q in r <==> q in sel || FirstChoice(clicks, q).Some?)
      && (q in sel ==> r[q] == sel[q])
      && (q !in sel && FirstChoice(clicks, q).Some? ==> r[q] == FirstChoice(clicks, q).value)
    decreases |clicks|
  {
    if |clicks| > 0 {
      var c := clicks[0];
      var sel' := Choose(quiz, sel, c.question, c.choice);
      assert ValidClicks(quiz, clicks[1..]);
      AnsweredOnce(quiz, sel', clicks[1..], q);
    }
  }

  // ------------------------------------------------------------- feedback

  /** The badge beside an answered question. */
  function Badge(quiz: QuizPayload, sel: Selections, question: int): (r: Option<string>)
    requires 0 <= question < |quiz.questions|
    ensures r.None? <==> question !in sel
    ensures r == Some("Correct") <==> IsCorrectAt(quiz.questions, sel, question)
    ensures r == Some("Review") <==> question in sel && !IsCorrectAt(quiz.questions, sel, question)
  {
    if question !in sel then None
    else if sel[question] == quiz.questions[question].answerIndex then Some("Correct")
    else Some("Review")
  }

  /** How a choice button is highlighted. */
  datatype Mark = Plain | PickedRight | PickedWrong | ShowKey

  function ChoiceMark(quiz: QuizPayload, sel: Selections, question: int, choice: int): (m: Mark)
    requires 0 <= question < |quiz.questions|
    ensures question !in sel ==> m == Plain
    ensures question in sel && choice == sel[question] ==>
      (m == PickedRight <==> choice == quiz.questions[question].answerIndex) &&
      (m == PickedWrong <==> choice != quiz.questions[question].answerIndex)
    ensures question in sel && choice != sel[question] ==>
      (m == ShowKey <==> choice == quiz.questions[question].answerIndex) &&
      (m == Plain <==> choice != quiz.questions[question].answerIndex)
  {
    var answered := question in sel;
    var isSelected := answered && sel[question] == choice;
    var isKey := quiz.questions[question].answerIndex == choice;
    if answered && isSelected then (if isKey then PickedRight else PickedWrong)
    else if answered && isKey then ShowKey
    else Plain
  }

  /** The badge and the highlighting agree: "Correct" exactly when the chosen
      button is marked right, and once answered the key is always shown. */
  lemma BadgeAgreesWithMarks(quiz: QuizPayload, sel: Selections, question: int)
    requires 0 <= question < |quiz.questions|
    requires question in sel
    ensures Badge(quiz, sel, question) == Some("Correct") <==>
      ChoiceMark(quiz, sel, question, sel[question]) == PickedRight
    ensures ChoiceMark(quiz, sel, question, quiz.questions[question].answerIndex) in {PickedRight, ShowKey}
  {
  }

  // ---------------------------------------------------------------- reset

  datatype Drawer = Drawer(quiz: QuizPayload, selections: Selections)

  /** Mounting the drawer starts with no selections. */
  function Open(quiz: QuizPayload): (d: Drawer)
    ensures d.quiz == quiz && ScoreOf(quiz, d.selections).correct == 0
    ensures |quiz.questions| > 0 ==> !AllAnswered(quiz, d.selections)
  {
    Drawer(quiz, map[])
  }

  /** The drawer receives a (possibly new) payload; a different `videoId`
      clears the selections, the same one keeps them. */
  function Receive(d: Drawer, quiz: QuizPayload): (r: Drawer)
    ensures r.quiz == quiz
    ensures quiz.videoId != d.quiz.videoId ==>
      r.selections == map[] && ScoreOf(quiz, r.selections).correct == 0
    ensures quiz.videoId == d.quiz.videoId ==> r.selections == d.selections
  {
    if quiz.videoId != d.quiz.videoId then Drawer(quiz, map[]) else d.(quiz := quiz)
  }
}

=== FILE: seqs.dfy ===
/** Sequence helpers shared by the page models: `Array.prototype.filter`,
    insertion-ordered de-duplication (a JavaScript `Set` read back with
    `Array.from`), and the subsequence order they preserve. */
module Seqs {

  /** `a` can be obtained from `b` by deleting elements, keeping the order. */
  predicate IsSubseq<T(==)>(a: seq<T>, b: seq<T>)
    decreases |b|
  {
    if |a| == 0 then true
    else if |b| == 0 then false
    else if a[0] == b[0] then IsSubseq(a[1..], b[1..])
    else IsSubseq(a, b[1..])
  }

  /** No element occurs twice. */
  predicate NoDups<T(==)>(s: seq<T>) {
    forall i, j :: 0 <= i < j < |s| ==> s[i] != s[j]
  }

  /** The position of the first occurrence of `x` in `s`. */
  function FirstIndex<T(==)>(s: seq<T>, x: T): (k: nat)
    requires x in s
    ensures k < |s| && s[k] == x
    ensures forall j :: 0 <= j < k ==> s[j] != x
  {
    if s[0] == x then 0 else 1 + FirstIndex(s[1..], x)
  }

  /** `Array.prototype.filter`: the elements satisfying `p`, in order (see
      `FilterKeepsOrder`). */
  function Filter<T(==,!new)>(s: seq<T>, p: T -> bool): (r: seq<T>)
    ensures |r| <= |s|
    ensures forall x :: x in r <==> x in s && p(x)
    ensures (forall i :: 0 <= i < |s| ==> p(s[i])) ==> r == s
  {
    if |s| == 0 then []
    else
      var rest := Filter(s[1..], p);
      if p(s[0]) then
        var r := [s[0]] + rest;
        assert r[1..] == rest;
        r
      else rest
  }

  /** Filtering keeps every occurrence of a kept element and the order of
      the kept elements. */
  lemma {:induction false} FilterKeepsOrder<T(!new)>(s: seq<T>, p: T -> bool)
    ensures forall x :: multiset(Filter(s, p))[x] == if p(x) then multiset(s)[x] else 0
    ensures IsSubseq(Filter(s, p), s)
  {
    if |s| > 0 {
      var rest := Filter(s[1..], p);
      FilterKeepsOrder(s[1..], p);
      assert s == [s[0]] + s[1..];
      assert multiset(s) == multiset{s[0]} + multiset(s[1..]);
      if p(s[0]) {
        assert Filter(s, p) == [s[0]] + rest;
        assert Filter(s, p)[1..] == rest;
      } else {
        SubseqOfTail(rest, s);
      }
    }
  }

  lemma SubseqOfTail<T>(a: seq<T>, b: seq<T>)
    requires |b| > 0 && IsSubseq(a, b[1..])
    ensures IsSubseq(a, b)
    decreases |b|, 1
  {
    if |a| > 0 && a[0] == b[0] {
      SubseqDropHead(a, b[1..]);
    }
  }

  lemma SubseqDropHead<T>(a: seq<T>, b: seq<T>)
    requires |a| > 0 && IsSubseq(a, b)
    ensures IsSubseq(a[1..], b)
    decreases |b|, 2
  {
    if a[0] != b[0] {
      SubseqDropHead(a, b[1..]);
      SubseqOfTail(a[1..], b);
    } else if |a| > 1 {
      SubseqOfTail(a[1..], b);
    }
  }

  /** One step of an order-preserving filter: a kept head stays in front,
      a dropped one is skipped, and the counts follow. */
  lemma KeepOrSkip<T>(x: T, a: seq<T>, b: seq<T>, keep: bool)
    requires IsSubseq(a, b)
    ensures keep ==> IsSubseq([x] + a, [x] + b)
    ensures !keep ==> IsSubseq(a, [x] + b)
    ensures multiset([x] + a) == multiset{x} + multiset(a)
    ensures multiset([x] + b) == multiset{x} + multiset(b)
  {
    assert ([x] + a)[1..] == a;
    assert ([x] + b)[1..] == b;
    if !keep {
      SubseqOfTail(a, [x] + b);
    }
  }

  /** Filtering distributes over concatenation. */
  lemma {:induction false} FilterAppend<T(!new)>(a: seq<T>, b: seq<T>, p: T -> bool)
    ensures Filter(a + b, p) == Filter(a, p) + Filter(b, p)
  {
    if |a| == 0 {
      assert a + b == b;
    } else {
      assert (a + b)[1..] == a[1..] + b;
      FilterAppend(a[1..], b, p);
    }
  }

  /** Filtering with predicates that agree on the elements gives the same
      result. */
  lemma {:induction false} FilterCongruent<T(!new)>(s: seq<T>, p: T -> bool, q: T -> bool)
    requires forall i :: 0 <= i < |s| ==> p(s[i]) == q(s[i])
    ensures Filter(s, p) == Filter(s, q)
  {
    if |s| > 0 {
      FilterCongruent(s[1..], p, q);
    }
  }

  /** Appends each element of `s` to `seen` unless it is already there: the
      insertion order of a JavaScript `Set` that already holds `seen`. */
  function Distinct<T(==,!new)>(seen: seq<T>, s: seq<T>): (r: seq<T>)
    ensures |seen| <= |r| && r[..|seen|] == seen
    ensures forall x :: x in r <==> x in seen || x in s
    ensures forall i :: |seen| <= i < |r| ==> r[i] !in seen && r[i] in s
    ensures NoDups(seen) ==> NoDups(r)
    decreases |s|
  {
    if |s| == 0 then seen
    else if s[0] in seen then Distinct(seen, s[1..])
    else
      var r := Distinct(seen + [s[0]], s[1..]);
      assert r[..|seen|] == (r[..|seen| + 1])[..|seen|];
      r
  }

  /** The values added after `seen` appear in the order of their first
      occurrence in `s`. */
  lemma {:induction false} DistinctFirstOccurrenceOrder<T(!new)>(seen: seq<T>, s: seq<T>, i: int, j: int)
    requires |seen| <= i < j < |Distinct(seen, s)|
    ensures Distinct(seen, s)[i] in s && Distinct(seen, s)[j] in s
    ensures FirstIndex(s, Distinct(seen, s)[i]) < FirstIndex(s, Distinct(seen, s)[j])
    decreases |s|
  {
    var r := Distinct(seen, s);
    if s[0] in seen {
      DistinctFirstOccurrenceOrder(seen, s[1..], i, j);
    } else {
      var seen' := seen + [s[0]];
      assert r == Distinct(seen', s[1..]);
      assert r[|seen|] == seen'[|seen|] == s[0];
      if i == |seen| {
        assert r[j] !in seen';
      } else {
        DistinctFirstOccurrenceOrder(seen', s[1..], i, j);
        assert r[i] != s[0] && r[j] != s[0];
      }
    }
  }
}

=== FILE: store.dfy ===
/** The client reel store (`src/lib/store.ts`): a list of reels, a cursor into
    it, the user's preferred styles and the recorded quiz answers, changed only
    through `setIndex`, `next`, `prev`, `toggleStyle` and `answerQuiz`. Each
    action is a pure function from the previous state to the next one. */
module Store {
  import opened Base
  import Seqs

  /** The single question a demo reel may carry. */
  datatype ReelQuiz = ReelQuiz(prompt: string, choices: seq<string>, answerIndex: int)

  /** `quiz` is `None` both when the field is absent and when it is `null`:
      the store treats the two alike. */
  datatype ReelItem = ReelItem(
    id: string,
    title: string,
    subtitle: Option<string>,
    thumbnailUrl: Option<string>,
    videoUrl: Option<string>,
    quiz: Option<ReelQuiz>)

  datatype Answer = Answer(selectedIndex: int, correct: bool)

  datatype AppState = AppState(
    reels: seq<ReelItem>,
    currentIndex: int,
    preferredStyles: seq<string>,
    quizAnswers: map<string, Answer>)

  /** The demo reels the store starts with. */
  const MockReels: seq<ReelItem> := [
    ReelItem("1", "What is a Derivative?", Some("Intuition with slopes"), Some("/window.svg"), None, None),
    ReelItem("2", "Chain Rule in 30s", Some("Compose and differentiate"), Some("/globe.svg"), None,
             Some(ReelQuiz("d/dx of (3x^2) is?", ["3x", "6x", "x^3", "9x^2"], 1))),
    ReelItem("3", "Limits: Squeeze Theorem", Some("Visual proof sketch"), Some("/file.svg"), None, None)
  ]

  const Initial: AppState := AppState(MockReels, 0, [], map[])

  /** The cursor names a reel. */
  predicate ValidCursor(s: AppState) {
    0 <= s.currentIndex < |s.reels|
  }

  /** What every reachable state satisfies: the cursor names a reel, or it
      is 0 when there are no reels (and then names nothing). */
  predicate CursorInRange(s: AppState) {
    if |s.reels| == 0 then s.currentIndex == 0 else ValidCursor(s)
  }

  // ------------------------------------------------------------ navigation

  /** `setIndex(i)`: `Math.max(0, Math.min(i, reels.length - 1))`. */
  function SetIndex(s: AppState, i: int): (r: AppState)
    ensures r == s.(currentIndex := r.currentIndex)
    ensures |s.reels| > 0 ==> ValidCursor(r)
    ensures 0 <= i < |s.reels| ==> r.currentIndex == i
    ensures i < 0 ==> r.currentIndex == 0
    ensures |s.reels| > 0 && i >= |s.reels| ==> r.currentIndex == |s.reels| - 1
    ensures |s.reels| == 0 ==> r.currentIndex == 0 && !ValidCursor(r)
  {
    s.(currentIndex := Max(0, Min(i, |s.reels| - 1)))
  }

  /** `next()`: one reel forward, staying put on the last reel. */
  function Next(s: AppState): (r: AppState)
    ensures r == s.(currentIndex := r.currentIndex)
    ensures 0 <= s.currentIndex < |s.reels| - 1 ==> r.currentIndex == s.currentIndex + 1
    ensures |s.reels| > 0 && s.currentIndex == |s.reels| - 1 ==> r == s
    ensures CursorInRange(s) ==> CursorInRange(r)
  {
    SetIndex(s, s.currentIndex + 1)
  }

  /** `prev()`: one reel back, staying put on the first reel. */
  function Prev(s: AppState): (r: AppState)
    ensures r == s.(currentIndex := r.currentIndex)
    ensures 0 < s.currentIndex < |s.reels| ==> r.currentIndex == s.currentIndex - 1
    ensures s.currentIndex == 0 ==> r == s
    ensures CursorInRange(s) ==> CursorInRange(r)
  {
    SetIndex(s, s.currentIndex - 1)
  }

  /** Away from the ends, `next` and `prev` undo each other. */
  lemma NextPrevInverse(s: AppState)
    ensures 0 <= s.currentIndex < |s.reels| - 1 ==> Prev(Next(s)) == s
    ensures 0 < s.currentIndex < |s.reels| ==> Next(Prev(s)) == s
  {
  }

  // ----------------------------------------------------------- preferences

  /** `toggleStyle(style)`: appends `style` when absent, otherwise removes
      every occurrence of it and keeps the rest in order. */
  function ToggleStyle(s: AppState, style: string): (r: AppState)
    ensures r == s.(preferredStyles := r.preferredStyles)
    ensures style in r.preferredStyles <==> style !in s.preferredStyles
    ensures forall x :: x != style ==> (x in r.preferredStyles <==> x in s.preferredStyles)
    ensures style !in s.preferredStyles ==> r.preferredStyles == s.preferredStyles + [style]
    ensures style in s.preferredStyles ==>
      Seqs.IsSubseq(r.preferredStyles, s.preferredStyles)
      && forall x :: x != style ==>
           multiset(r.preferredStyles)[x] == multiset(s.preferredStyles)[x]
  {
    var current := s.preferredStyles;
    var notStyle := (x: string) => x != style;
    if style in current then
      Seqs.FilterKeepsOrder(current, notStyle);
      s.(preferredStyles := Seqs.Filter(current, notStyle))
    else s.(preferredStyles := current + [style])
  }

  /** Toggling twice restores membership; it restores the exact list when the
      style was absent, and moves it to the end (once) when it was present. */
  lemma ToggleStyleTwice(s: AppState, style: string)
    ensures var r := ToggleStyle(ToggleStyle(s, style), style);
      && (forall x :: x in r.preferredStyles <==> x in s.preferredStyles)
      && (style !in s.preferredStyles ==> r == s)
      && (style in s.preferredStyles ==>
            r.preferredStyles == Seqs.Filter(s.preferredStyles, x => x != style) + [style])
  {
    var p := s.preferredStyles;
    var notStyle := (x: string) => x != style;
    if style !in p {
      Seqs.FilterAppend(p, [style], notStyle);
      assert Seqs.Filter([style], notStyle) == [];
    }
  }

  // ----------------------------------------------------------------- quiz

  /** `reels.find(r => r.id === id)`: the first reel with that id. */
  function FindReel(reels: seq<ReelItem>, id: string): (r: Option<ReelItem>)
    ensures r.None? <==> forall i :: 0 <= i < |reels| ==> reels[i].id != id
    ensures r.Some? ==> r.value.id == id
    ensures r.Some? ==>
      exists i :: 0 <= i < |reels| && reels[i] == r.value
                  && forall j :: 0 <= j < i ==> reels[j].id != id
  {
    if |reels| == 0 then None
    else if reels[0].id == id then Some(reels[0])
    else
      var r := FindReel(reels[1..], id);
      if r.Some? then
        var i :| 0 <= i < |reels[1..]| && reels[1..][i] == r.value
                 && forall j :: 0 <= j < i ==> reels[1..][j].id != id;
        assert reels[i + 1] == r.value;
        r
      else r
  }

  /** The quiz of the reel `answerQuiz(id, _)` would grade against. */
  function QuizOf(s: AppState, reelId: string): Option<ReelQuiz> {
    var reel := FindReel(s.reels, reelId);
    if reel.Some? then reel.value.quiz else None
  }

  /** `answerQuiz(reelId, k)`: records `k` and whether it is the answer key,
      replacing any earlier answer for that reel; nothing happens for an
      unknown reel or one without a quiz. */
  function AnswerQuiz(s: AppState, reelId: string, k: int): (r: AppState)
    ensures r == s.(quizAnswers := r.quizAnswers)
    ensures QuizOf(s, reelId).None? ==> r == s
    ensures QuizOf(s, reelId).Some? ==>
      && reelId in r.quizAnswers
      && r.quizAnswers[reelId].selectedIndex == k
      && (r.quizAnswers[reelId].correct <==> k == QuizOf(s, reelId).value.answerIndex)
      && r.quizAnswers.Keys == s.quizAnswers.Keys + {reelId}
    ensures forall id :: id != reelId && id in s.quizAnswers ==>
      id in r.quizAnswers && r.quizAnswers[id] == s.quizAnswers[id]
  {
    var reel := FindReel(s.reels, reelId);
    if reel.None? || reel.value.quiz.None? then s
    else
      var correct := k == reel.value.quiz.value.answerIndex;
      s.(quizAnswers := s.quizAnswers[reelId := Answer(k, correct)])
  }

  /** Answering again overwrites: only the last answer is kept. */
  lemma AnswerQuizLastWins(s: AppState, reelId: string, k1: int, k2: int)
    ensures AnswerQuiz(AnswerQuiz(s, reelId, k1), reelId, k2) == AnswerQuiz(s, reelId, k2)
  {
  }

  // ------------------------------------------------------------- actions

  datatype Action =
    | SetIndexAction(index: int)
    | NextAction
    | PrevAction
    | ToggleStyleAction(style: string)
    | AnswerQuizAction(reelId: string, selectedIndex: int)

  function Step(s: AppState, a: Action): AppState {
    match a
    case SetIndexAction(i) => SetIndex(s, i)
    case NextAction => Next(s)
    case PrevAction => Prev(s)
    case ToggleStyleAction(style) => ToggleStyle(s, style)
    case AnswerQuizAction(id, k) => AnswerQuiz(s, id, k)
  }

  function Run(s: AppState, actions: seq<Action>): AppState
    decreases |actions|
  {
    if |actions| == 0 then s else Run(Step(s, actions[0]), actions[1..])
  }

  /** Every recorded answer belongs to a reel with a quiz and agrees with
      that quiz's answer key. */
  predicate AnswersAgreeWithKeys(s: AppState) {
    forall id :: id in s.quizAnswers ==>
      QuizOf(s, id).Some? &&
      (s.quizAnswers[id].correct <==> s.quizAnswers[id].selectedIndex == QuizOf(s, id).value.answerIndex)
  }

  /** No action changes the reels, and every action keeps the cursor in range
      and the recorded answers consistent with the answer keys. */
  lemma {:induction false} RunPreservesInvariants(s: AppState, actions: seq<Action>)
    requires CursorInRange(s) && AnswersAgreeWithKeys(s)
    ensures Run(s, actions).reels == s.reels
    ensures CursorInRange(Run(s, actions))
    ensures AnswersAgreeWithKeys(Run(s, actions))
    decreases |actions|
  {
    if |actions| > 0 {
      var t := Step(s, actions[0]);
      StepPreservesInvariants(s, actions[0]);
      RunPreservesInvariants(t, actions[1..]);
    }
  }

  /** One action keeps the reels, the cursor range and the answer keys. */
  lemma StepPreservesInvariants(s: AppState, a: Action)
    requires CursorInRange(s) && AnswersAgreeWithKeys(s)
    ensures Step(s, a).reels == s.reels
    ensures CursorInRange(Step(s, a))
    ensures AnswersAgreeWithKeys(Step(s, a))
  {
    var t := Step(s, a);
    if a.AnswerQuizAction? {
      AnswerKeepsKeys(s, a.reelId, a.selectedIndex);
    } else {
      assert t.reels == s.reels && t.quizAnswers == s.quizAnswers;
      SameReelsSameKeys(s, t);
    }
  }

  /** The answer keys depend only on the reels. */
  lemma SameReelsSameKeys(s: AppState, t: AppState)
    requires t.reels == s.reels && t.quizAnswers == s.quizAnswers
    requires AnswersAgreeWithKeys(s)
    ensures AnswersAgreeWithKeys(t)
  {
    forall id | id in t.quizAnswers
      ensures QuizOf(t, id) == QuizOf(s, id)
    {
    }
  }

  /** Recording an answer keeps every recorded answer in line with its key. */
  lemma AnswerKeepsKeys(s: AppState, reelId: string, k: int)
    requires AnswersAgreeWithKeys(s)
    ensures AnswersAgreeWithKeys(AnswerQuiz(s, reelId, k))
  {
    var t := AnswerQuiz(s, reelId, k);
    forall id | id in t.quizAnswers
      ensures QuizOf(t, id).Some?
      ensures t.quizAnswers[id].correct <==> t.quizAnswers[id].selectedIndex == QuizOf(t, id).value.answerIndex
    {
      assert QuizOf(t, id) == QuizOf(s, id);
    }
  }

  /** The store's starting state satisfies the invariants. */
  lemma InitialInvariants()
    ensures CursorInRange(Initial) && ValidCursor(Initial)
    ensures AnswersAgreeWithKeys(Initial)
  {
  }
}

=== FILE: text.dfy ===
/** Character and string primitives of the two runtimes, over ASCII:
    whitespace trimming (Python `str.strip`, JavaScript `String.prototype.trim`),
    lower-casing, substring search, `split`/`join` on a separator, and the
    decimal integer syntax read by Python `int` and JavaScript `Number`. */
module Text {
  import opened Base
  import Seqs

  // ---------------------------------------------------------------- classes

  /** Python `str.isspace` on ASCII: the C whitespace set plus the four
      information separators U+001C..U+001F. */
  predicate IsPySpace(c: char) {
    c == ' ' || c == '\t' || c == '\n' || c == '\r' || c == '\U{000B}' || c == '\U{000C}'
    || ('\U{001C}' <= c <= '\U{001F}')
  }

  /** JavaScript white space and line terminators on ASCII. */
  predicate IsJsSpace(c: char) {
    c == ' ' || c == '\t' || c == '\n' || c == '\r' || c == '\U{000B}' || c == '\U{000C}'
  }

  predicate IsDigit(c: char) { '0' <= c <= '9' }

  predicate IsUpper(c: char) { 'A' <= c <= 'Z' }

  predicate IsLower(c: char) { 'a' <= c <= 'z' }

  /** Python `str.isalnum` on ASCII. */
  predicate IsAlnum(c: char) { IsDigit(c) || IsUpper(c) || IsLower(c) }

  /** ASCII lower-casing of one character (`str.lower`, `toLowerCase`). */
  function LowerChar(c: char): (r: char)
    ensures IsUpper(c) ==> IsLower(r)
    ensures !IsUpper(c) ==> r == c
    ensures IsAlnum(c) <==> IsAlnum(r)
  {
    if IsUpper(c) then (c as int + 32) as char else c
  }

  function Lower(s: string): (r: string)
    ensures |r| == |s|
    ensures forall i :: 0 <= i < |s| ==> r[i] == LowerChar(s[i])
  {
    if |s| == 0 then "" else [LowerChar(s[0])] + Lower(s[1..])
  }

  lemma LowerAppend(a: string, b: string)
    ensures Lower(a + b) == Lower(a) + Lower(b)
  {
  }

  /** Lower-casing twice is lower-casing once. */
  lemma LowerIdempotent(s: string)
    ensures Lower(Lower(s)) == Lower(s)
  {
    assert forall i :: 0 <= i < |s| ==> LowerChar(LowerChar(s[i])) == LowerChar(s[i]);
  }

  // --------------------------------------------------------------- trimming

  /** Drops the leading characters satisfying `ws`. */
  function TrimStart(s: string, ws: char -> bool): (r: string)
    ensures |r| <= |s| && r == s[|s| - |r|..]
    ensures forall k :: 0 <= k < |s| - |r| ==> ws(s[k])
    ensures |r| > 0 ==> !ws(r[0])
  {
    if |s| > 0 && ws(s[0]) then TrimStart(s[1..], ws) else s
  }

  /** Drops the trailing characters satisfying `ws`. */
  function TrimEnd(s: string, ws: char -> bool): (r: string)
    ensures |r| <= |s| && r == s[..|r|]
    ensures forall k :: |r| <= k < |s| ==> ws(s[k])
    ensures |r| > 0 ==> !ws(r[|r| - 1])
  {
    if |s| > 0 && ws(s[|s| - 1]) then TrimEnd(s[..|s| - 1], ws) else s
  }

  /** `s` with the characters satisfying `ws` removed from both ends: the
      result is the slice of `s` starting at `TrimOffset(s, ws)`, and every
      character cut off satisfies `ws`. */
  function Trim(s: string, ws: char -> bool): (r: string)
    ensures |r| == 0 || (!ws(r[0]) && !ws(r[|r| - 1]))
    ensures TrimOffset(s, ws) + |r| <= |s|
    ensures r == s[TrimOffset(s, ws)..TrimOffset(s, ws) + |r|]
  {
    var t := TrimStart(s, ws);
    var r := TrimEnd(t, ws);
    assert r == t[..|r|];
    assert |r| > 0 ==> r[0] == t[0];
    r
  }

  /** Everything `Trim` cuts from either end is a trimmed character. */
  lemma TrimCuts(s: string, ws: char -> bool)
    ensures forall k :: 0 <= k < TrimOffset(s, ws) ==> ws(s[k])
    ensures forall k :: TrimOffset(s, ws) + |Trim(s, ws)| <= k < |s| ==> ws(s[k])
  {
    var t := TrimStart(s, ws);
    var r := TrimEnd(t, ws);
    var i := |s| - |t|;
    assert r == Trim(s, ws);
    forall k | i + |r| <= k < |s| ensures ws(s[k]) {
      assert s[k] == t[k - i];
    }
  }

  /** How many characters `Trim` cuts from the front. */
  function TrimOffset(s: string, ws: char -> bool): (i: nat)
    ensures i <= |s|
  {
    |s| - |TrimStart(s, ws)|
  }

  /** Python `str.strip()` with no arguments. */
  function PyStrip(s: string): string { Trim(s, IsPySpace) }

  /** `s.strip() == s` in Python: `s` neither starts nor ends with white
      space (see `PyStrippedIff`). */
  predicate PyStripped(s: string) {
    |s| == 0 || (!IsPySpace(s[0]) && !IsPySpace(s[|s| - 1]))
  }

  lemma PyStrippedIff(s: string)
    ensures PyStripped(s) <==> PyStrip(s) == s
    ensures PyStripped(PyStrip(s))
  {
    if PyStripped(s) {
      TrimUnchanged(s, IsPySpace);
    }
  }

  /** JavaScript `String.prototype.trim`. */
  function JsTrim(s: string): string { Trim(s, IsJsSpace) }

  /** Trimming a string whose ends are not trimmed characters changes nothing. */
  lemma TrimUnchanged(s: string, ws: char -> bool)
    requires |s| == 0 || (!ws(s[0]) && !ws(s[|s| - 1]))
    ensures Trim(s, ws) == s
  {
  }

  /** Stripping is idempotent. */
  lemma TrimIdempotent(s: string, ws: char -> bool)
    ensures Trim(Trim(s, ws), ws) == Trim(s, ws)
  {
    TrimUnchanged(Trim(s, ws), ws);
  }

  /** Dropping leading `ws` characters from a run of them followed by text
      that does not start with one leaves that text. */
  lemma {:induction false} TrimStartPrefix(gap: string, d: string, ws: char -> bool)
    requires forall k :: 0 <= k < |gap| ==> ws(gap[k])
    requires |d| == 0 || !ws(d[0])
    ensures TrimStart(gap + d, ws) == d
    decreases |gap|
  {
    if |gap| > 0 {
      assert (gap + d)[1..] == gap[1..] + d;
      TrimStartPrefix(gap[1..], d, ws);
    } else {
      assert gap + d == d;
    }
  }

  /** The mirror image: trailing `ws` characters after text that does not
      end with one are dropped, and the text stays. */
  lemma {:induction false} TrimEndSuffix(d: string, gap: string, ws: char -> bool)
    requires forall k :: 0 <= k < |gap| ==> ws(gap[k])
    requires |d| == 0 || !ws(d[|d| - 1])
    ensures TrimEnd(d + gap, ws) == d
    decreases |gap|
  {
    if |gap| > 0 {
      assert (d + gap)[..|d + gap| - 1] == d + gap[..|gap| - 1];
      TrimEndSuffix(d, gap[..|gap| - 1], ws);
    } else {
      assert d + gap == d;
    }
  }

  /** Stripping `ws` characters wrapped around text that neither starts nor
      ends with one gives the text. */
  lemma TrimPadded(front: string, d: string, back: string, ws: char -> bool)
    requires forall k :: 0 <= k < |front| ==> ws(front[k])
    requires forall k :: 0 <= k < |back| ==> ws(back[k])
    requires |d| == 0 || (!ws(d[0]) && !ws(d[|d| - 1]))
    ensures Trim(front + d + back, ws) == d
  {
    if |d| == 0 {
      assert front + d + back == front + back;
      TrimStartPrefix(front + back, "", ws);
      assert front + back + "" == front + back;
    } else {
      assert front + d + back == front + (d + back);
      assert (d + back)[0] == d[0];
      TrimStartPrefix(front, d + back, ws);
      TrimEndSuffix(d, back, ws);
    }
  }

  // ---------------------------------------------------------------- search

  predicate StartsWith(s: string, prefix: string) {
    |prefix| <= |s| && s[..|prefix|] == prefix
  }

  /** `needle` occurs in `hay` starting at offset `i`. */
  predicate OccursAt(hay: string, needle: string, i: int) {
    0 <= i && i + |needle| <= |hay| && hay[i..i + |needle|] == needle
  }

  /** `String.prototype.includes`: `needle` occurs in `hay` at some offset. */
  predicate Contains(hay: string, needle: string) {
    exists i :: 0 <= i <= |hay| - |needle| && OccursAt(hay, needle, i)
  }

  /** Every string contains the empty string. */
  lemma ContainsEmpty(hay: string)
    ensures Contains(hay, "")
  {
    assert OccursAt(hay, "", 0);
  }

  // -------------------------------------------------------- split and join

  /** `parts` joined with `sep` between consecutive parts. */
  function Join(parts: seq<string>, sep: string): string
    requires |parts| >= 1
  {
    if |parts| == 1 then parts[0] else parts[0] + sep + Join(parts[1..], sep)
  }

  /** `str.split(sep)` of both runtimes: cuts `s` at every occurrence of `sep`
      found scanning left to right, occurrences not overlapping. The parts
      joined back give `s`; no part holds the separator, and no occurrence
      starts inside a part that a separator follows, so each cut is at the
      leftmost occurrence. */
  function SplitOn(s: string, sep: string): (parts: seq<string>)
    requires |sep| > 0
    ensures |parts| >= 1
    ensures Join(parts, sep) == s
    ensures forall i :: 0 <= i < |parts| ==> !Contains(parts[i], sep)
    ensures forall i :: 0 <= i < |parts| - 1 ==> !Contains(parts[i] + sep[..|sep| - 1], sep)
    decreases |s|
  {
    if |s| < |sep| then
      NoOccurrenceShort(s, sep);
      [s]
    else if s[..|sep|] == sep then
      var rest := SplitOn(s[|sep|..], sep);
      assert s == sep + s[|sep|..];
      SplitEmptyHead(rest, sep);
      [""] + rest
    else
      var rest := SplitOn(s[1..], sep);
      assert s == [s[0]] + s[1..];
      SplitHead(s, sep, rest);
      SplitGrowHead(s[0], rest, sep);
      [[s[0]] + rest[0]] + rest[1..]
  }

  /** A cut right at the start gives an empty first part. */
  lemma SplitEmptyHead(rest: seq<string>, sep: string)
    requires |sep| > 0 && |rest| >= 1
    requires forall i :: 0 <= i < |rest| ==> !Contains(rest[i], sep)
    requires forall i :: 0 <= i < |rest| - 1 ==> !Contains(rest[i] + sep[..|sep| - 1], sep)
    ensures var parts := [""] + rest;
      && (forall i :: 0 <= i < |parts| ==> !Contains(parts[i], sep))
      && (forall i :: 0 <= i < |parts| - 1 ==> !Contains(parts[i] + sep[..|sep| - 1], sep))
  {
    var parts := [""] + rest;
    NoOccurrenceShort("", sep);
    NoOccurrenceShort("" + sep[..|sep| - 1], sep);
    assert parts[1..] == rest;
    assert forall i :: 1 <= i < |parts| ==> parts[i] == rest[i - 1];
  }

  /** The first part grown by one character, the later parts unchanged. */
  lemma SplitGrowHead(c: char, rest: seq<string>, sep: string)
    requires |sep| > 0 && |rest| >= 1
    requires !Contains([c] + rest[0], sep)
    requires |rest| >= 2 ==> !Contains([c] + rest[0] + sep[..|sep| - 1], sep)
    requires forall i :: 0 <= i < |rest| ==> !Contains(rest[i], sep)
    requires forall i :: 0 <= i < |rest| - 1 ==> !Contains(rest[i] + sep[..|sep| - 1], sep)
    ensures var parts := [[c] + rest[0]] + rest[1..];
      && (forall i :: 0 <= i < |parts| ==> !Contains(parts[i], sep))
      && (forall i :: 0 <= i < |parts| - 1 ==> !Contains(parts[i] + sep[..|sep| - 1], sep))
  {
    var parts := [[c] + rest[0]] + rest[1..];
    assert parts[1..] == rest[1..];
    assert forall i :: 1 <= i < |parts| ==> parts[i] == rest[i];
  }

  lemma SplitHead(s: string, sep: string, rest: seq<string>)
    requires |sep| > 0 && |s| >= |sep| && s[..|sep|] != sep
    requires |rest| >= 1 && Join(rest, sep) == s[1..]
    requires !Contains(rest[0], sep)
    requires |rest| >= 2 ==> !Contains(rest[0] + sep[..|sep| - 1], sep)
    ensures !Contains([s[0]] + rest[0], sep)
    ensures |rest| >= 2 ==> !Contains([s[0]] + rest[0] + sep[..|sep| - 1], sep)
  {
    assert s == [s[0]] + s[1..];
    if |rest| == 1 {
      assert s == [s[0]] + rest[0] + "";
      HeadNoOccurrence(s[0], rest[0], sep, s, "");
    } else {
      SplitHeadCut(s, sep, rest[0], Join(rest[1..], sep));
    }
  }

  lemma SplitHeadCut(s: string, sep: string, first: string, more: string)
    requires |sep| > 0 && |s| >= |sep| && s[..|sep|] != sep
    requires s == [s[0]] + (first + sep + more)
    requires !Contains(first, sep) && !Contains(first + sep[..|sep| - 1], sep)
    ensures !Contains([s[0]] + first, sep)
    ensures !Contains([s[0]] + first + sep[..|sep| - 1], sep)
  {
    var sep' := sep[..|sep| - 1];
    assert sep == sep' + [sep[|sep| - 1]];
    assert s == [s[0]] + first + (sep + more);
    HeadNoOccurrence(s[0], first, sep, s, sep + more);
    assert s == [s[0]] + (first + sep') + ([sep[|sep| - 1]] + more);
    HeadNoOccurrence(s[0], first + sep', sep, s, [sep[|sep| - 1]] + more);
    assert [s[0]] + (first + sep') == [s[0]] + first + sep';
  }

  /** A prefix of `s` grown from a separator-free `t` holds no separator
      when `s` does not start with one. */
  lemma HeadNoOccurrence(c: char, t: string, sep: string, s: string, u: string)
    requires |sep| > 0 && !Contains(t, sep)
    requires |s| >= |sep| && s[..|sep|] != sep
    requires s == [c] + t + u
    ensures !Contains([c] + t, sep)
  {
    if |[c] + t| >= |sep| {
      assert ([c] + t)[..|sep|] == s[..|sep|];
    }
    ConsNoOccurrence(c, t, sep);
  }

  /** Text shorter than `needle` does not hold it. */
  lemma NoOccurrenceShort(t: string, needle: string)
    requires |t| < |needle|
    ensures !Contains(t, needle)
  {
  }

  /** An occurrence in `[c] + t` that does not start at the front lies in `t`. */
  lemma ConsNoOccurrence(c: char, t: string, needle: string)
    requires |needle| > 0 && !Contains(t, needle)
    requires |[c] + t| < |needle| || ([c] + t)[..|needle|] != needle
    ensures !Contains([c] + t, needle)
  {
    if Contains([c] + t, needle) {
      var i :| 0 <= i <= |[c] + t| - |needle| && OccursAt([c] + t, needle, i);
      assert i > 0;
      assert ([c] + t)[i..i + |needle|] == t[i - 1..i - 1 + |needle|];
      assert OccursAt(t, needle, i - 1);
    }
  }

  /** Splitting text whose first part is `a`: when no occurrence of `sep`
      starts inside `a`, the first cut comes right after `a`. */
  lemma {:induction false} SplitAtSeparator(a: string, b: string, sep: string)
    requires |sep| > 0
    requires !Contains(a + sep[..|sep| - 1], sep)
    ensures SplitOn(a + sep + b, sep) == [a] + SplitOn(b, sep)
    decreases |a|
  {
    var s := a + sep + b;
    var sep' := sep[..|sep| - 1];
    if |a| == 0 {
      assert s[..|sep|] == sep && s[|sep|..] == b;
    } else {
      SeparatorNotInFront(a, b, sep);
      NoSeparatorInTail(a, sep);
      assert s[1..] == a[1..] + sep + b;
      SplitAtSeparator(a[1..], b, sep);
      assert [a[0]] + a[1..] == a;
    }
  }

  lemma SeparatorNotInFront(a: string, b: string, sep: string)
    requires |sep| > 0 && |a| > 0
    requires !Contains(a + sep[..|sep| - 1], sep)
    ensures (a + sep + b)[..|sep|] != sep
  {
    var sep' := sep[..|sep| - 1];
    assert (a + sep')[..|sep|] == (a + sep + b)[..|sep|];
    assert !OccursAt(a + sep', sep, 0);
  }

  lemma NoSeparatorInTail(a: string, sep: string)
    requires |sep| > 0 && |a| > 0
    requires !Contains(a + sep[..|sep| - 1], sep)
    ensures !Contains(a[1..] + sep[..|sep| - 1], sep)
  {
    var sep' := sep[..|sep| - 1];
    if Contains(a[1..] + sep', sep) {
      var i :| 0 <= i <= |a[1..] + sep'| - |sep| && OccursAt(a[1..] + sep', sep, i);
      assert (a + sep')[i + 1..i + 1 + |sep|] == (a[1..] + sep')[i..i + |sep|];
      assert OccursAt(a + sep', sep, i + 1);
    }
  }

  /** Two separator-free strings joined by the separator split back apart. */
  lemma SplitTwo(a: string, b: string, c: char)
    requires c !in a && c !in b
    ensures SplitOn(a + [c] + b, [c]) == [a, b]
  {
    SplitAtFirst(a, b, c);
    SplitNoSeparator(b, c);
  }

  /** A string splits into several parts exactly when it holds the
      separator character. */
  lemma SplitPartsCount(s: string, c: char)
    ensures c in s ==> |SplitOn(s, [c])| >= 2
    ensures c !in s ==> SplitOn(s, [c]) == [s]
  {
    if c in s {
      var k := Seqs.FirstIndex(s, c);
      assert s == s[..k] + [c] + s[k + 1..];
      SplitAtFirst(s[..k], s[k + 1..], c);
    } else {
      SplitNoSeparator(s, c);
    }
  }

  /** Text of digits has no white space to trim. */
  lemma DigitsTrimUnchanged(s: string)
    ensures IsDigits(s) ==> JsTrim(s) == s && PyStrip(s) == s
  {
    if IsDigits(s) && |s| > 0 {
      assert IsDigit(s[0]) && IsDigit(s[|s| - 1]);
      TrimUnchanged(s, IsJsSpace);
      TrimUnchanged(s, IsPySpace);
    }
  }

  /** A string without the separator character is one part. */
  lemma {:induction false} SplitNoSeparator(s: string, c: char)
    requires c !in s
    ensures SplitOn(s, [c]) == [s]
    decreases |s|
  {
    if |s| >= 1 {
      assert s[..1] != [c] by { assert s[0] != c; }
      SplitNoSeparator(s[1..], c);
      assert [s[0]] + s[1..] == s;
    }
  }

  /** Splitting at the first separator character. */
  lemma {:induction false} SplitAtFirst(a: string, b: string, c: char)
    requires c !in a
    ensures SplitOn(a + [c] + b, [c]) == [a] + SplitOn(b, [c])
    decreases |a|
  {
    var s := a + [c] + b;
    if |a| == 0 {
      assert s[..1] == [c];
      assert s[1..] == b;
    } else {
      assert s[..1] != [c] by { assert s[0] == a[0] != c; }
      assert s[1..] == a[1..] + [c] + b;
      SplitAtFirst(a[1..], b, c);
      assert [a[0]] + a[1..] == a;
    }
  }

  // ------------------------------------------------------- decimal numbers

  predicate IsDigits(s: string) {
    forall i :: 0 <= i < |s| ==> IsDigit(s[i])
  }

  function DigitValue(c: char): (d: nat)
    requires IsDigit(c)
    ensures d < 10
  {
    c as int - '0' as int
  }

  function DigitChar(d: nat): (c: char)
    requires d < 10
    ensures IsDigit(c) && DigitValue(c) == d
  {
    ('0' as int + d) as char
  }

  /** The value of a string of decimal digits, most significant first. */
  function DigitsValue(s: string): nat
    requires IsDigits(s)
  {
    if |s| == 0 then 0 else DigitsValue(s[..|s| - 1]) * 10 + DigitValue(s[|s| - 1])
  }

  /** Decimal digits without a superfluous leading zero. */
  predicate IsCanonicalDigits(s: string) {
    |s| >= 1 && IsDigits(s) && (s[0] == '0' ==> |s| == 1)
  }

  /** Python `str(n)` / JavaScript `String(n)` of a natural number. */
  function NatToDecimal(n: nat): (s: string)
    ensures IsCanonicalDigits(s)
  {
    if n < 10 then [DigitChar(n)]
    else
      var s := NatToDecimal(n / 10) + [DigitChar(n % 10)];
      assert s[0] == NatToDecimal(n / 10)[0];
      s
  }

  /** Reading back a rendered number gives the number. */
  lemma {:induction false} DecimalRoundTrip(n: nat)
    ensures DigitsValue(NatToDecimal(n)) == n
  {
    if n >= 10 {
      var s := NatToDecimal(n);
      assert s[..|s| - 1] == NatToDecimal(n / 10);
      DecimalRoundTrip(n / 10);
    }
  }

  /** Rendering the value of canonical digits gives the digits back. */
  lemma {:induction false} DigitsRoundTrip(s: string)
    requires IsCanonicalDigits(s)
    ensures NatToDecimal(DigitsValue(s)) == s
    decreases |s|
  {
    if |s| > 1 {
      var init := s[..|s| - 1];
      assert IsCanonicalDigits(init) by { assert init[0] == s[0]; }
      DigitsRoundTrip(init);
      LeadingDigitPositive(init);
      assert DigitsValue(s) / 10 == DigitsValue(init);
      assert DigitsValue(s) % 10 == DigitValue(s[|s| - 1]);
      assert s == init + [s[|s| - 1]];
    }
  }

  lemma {:induction false} LeadingDigitPositive(s: string)
    requires IsCanonicalDigits(s) && |s| >= 1 && s[0] != '0'
    ensures DigitsValue(s) >= 1
    decreases |s|
  {
    if |s| > 1 {
      var init := s[..|s| - 1];
      assert init[0] == s[0];
      LeadingDigitPositive(init);
    }
  }

  /** Python `str(n)` of an integer. */
  function IntToDecimal(n: int): string {
    if n < 0 then "-" + NatToDecimal(-n) else NatToDecimal(n)
  }

  /** An optional `+`/`-` sign followed by at least one ASCII digit: the
      integer syntax both Python `int` and JavaScript `Number` accept once
      surrounding white space is trimmed. */
  function SignedDecimal(s: string): (r: Option<int>)
    ensures r.Some? <==>
      (|s| >= 1 && IsDigits(s) ) ||
      (|s| >= 2 && (s[0] == '+' || s[0] == '-') && IsDigits(s[1..]))
    ensures r.Some? && IsDigits(s) ==> r.value == DigitsValue(s)
  {
    if |s| >= 1 && IsDigits(s) then Some(DigitsValue(s))
    else if |s| >= 2 && s[0] == '+' && IsDigits(s[1..]) then Some(DigitsValue(s[1..]))
    else if |s| >= 2 && s[0] == '-' && IsDigits(s[1..]) then
      var magnitude: int := DigitsValue(s[1..]);
      Some(-magnitude)
    else None
  }

  /** Python `int(text)` for base-10 text: `None` where `int` raises. */
  function PyInt(text: string): Option<int> {
    SignedDecimal(PyStrip(text))
  }

  /** Every integer Python renders is read back by `int`. */
  lemma PyIntRoundTrip(n: int)
    ensures PyInt(IntToDecimal(n)) == Some(n)
  {
    DecimalStripped(n);
    SignedDecimalRoundTrip(n);
  }

  /** A rendered integer has no white space to strip. */
  lemma DecimalStripped(n: int)
    ensures PyStrip(IntToDecimal(n)) == IntToDecimal(n)
    ensures JsTrim(IntToDecimal(n)) == IntToDecimal(n)
  {
    var s := IntToDecimal(n);
    DecimalEnds(n);
    TrimUnchanged(s, IsPySpace);
    TrimUnchanged(s, IsJsSpace);
  }

  /** A rendered integer starts with a sign or a digit and ends with a
      digit. */
  lemma DecimalEnds(n: int)
    ensures var s := IntToDecimal(n); |s| > 0 && (s[0] == '-' || IsDigit(s[0])) && IsDigit(s[|s| - 1])
  {
    var s := IntToDecimal(n);
    if n < 0 {
      var d := NatToDecimal(-n);
      assert s == "-" + d;
      assert s[|s| - 1] == d[|d| - 1];
    }
  }

  lemma SignedDecimalRoundTrip(n: int)
    ensures SignedDecimal(IntToDecimal(n)) == Some(n)
  {
    var s := IntToDecimal(n);
    if n < 0 {
      var d := NatToDecimal(-n);
      assert s == "-" + d && s[1..] == d;
      assert !IsDigits(s) by { assert !IsDigit(s[0]); }
      DecimalRoundTrip(-n);
    } else {
      DecimalRoundTrip(n);
    }
  }
}

=== FILE: upload_page.dfy ===
/** The upload studio page (`src/app/upload/page.tsx`): the upload state
    machine run by `handleFile`, the progress messages shown while the
    upload is processed, the three status rows, and when the generated
    previews appear. Each handler step is one atomic transition: React
    batches the setters that run before the first `await`. */
module UploadPage {
  import opened Base
  import opened Api

  /** `UploadState`; `Errored` is the page's `"error"`. */
  datatype Phase = Idle | Uploading | Processing | Completed | Errored

  datatype PageState = PageState(
    fileName: string,
    phase: Phase,
    progressMessage: string,
    generatedVideos: seq<FeedVideo>)

  const Initial: PageState := PageState("", Idle, "", [])

  const UploadingMessage: string := "Uploading textbook…"

  /** `PROGRESS_FRAMES`, in the order the timeline shows them. */
  const ProgressFrames: seq<string> := [
    "Reading chapters and parsing structure…",
    "Breaking content into learning beats…",
    "Drafting the 30-second voiceover script…",
    "Syncing captions and overlays…",
    "Almost there — final polish…"
  ]

  // ------------------------------------------------------------ transitions

  /** A file was chosen: the synchronous part of the input's `onChange` and
      `handleFile`, up to the first `await`. The timeline has already shown
      its first frame, which replaces "Uploading textbook…" in the same
      batch; the previous previews are cleared. */
  function Start(st: PageState, fileName: string): (r: PageState)
    ensures r.fileName == fileName && r.phase == Processing
    ensures r.generatedVideos == [] && r.progressMessage == ProgressFrames[0]
  {
    var uploading := st.(fileName := fileName, phase := Uploading, generatedVideos := [],
                         progressMessage := UploadingMessage);
    uploading.(phase := Processing, progressMessage := ProgressFrames[0])
  }

  /** The timeline wakes up and shows frame `k`. */
  function ShowFrame(st: PageState, k: int): (r: PageState)
    requires 0 <= k < |ProgressFrames|
    ensures r.progressMessage == ProgressFrames[k]
    ensures r.(progressMessage := st.progressMessage) == st
  {
    st.(progressMessage := ProgressFrames[k])
  }

  /** The frames shown from frame `k` on, each replacing the last. */
  function ShowFramesFrom(st: PageState, k: nat): (r: PageState)
    requires k <= |ProgressFrames|
    ensures k < |ProgressFrames| ==> r.progressMessage == ProgressFrames[|ProgressFrames| - 1]
    ensures k == |ProgressFrames| ==> r == st
    ensures r.(progressMessage := st.progressMessage) == st
    decreases |ProgressFrames| - k
  {
    if k == |ProgressFrames| then st else ShowFramesFrom(ShowFrame(st, k), k + 1)
  }

  /** The awaited upload settles. On success the page waits for the timeline
      to finish, then shows the response's videos and completes; a failure
      ends in the error phase at once and leaves the previews cleared. */
  function Settle(st: PageState, outcome: Fetch<UploadResponse>): (r: PageState)
    ensures outcome.Ok? ==>
      && r.phase == Completed
      && r.generatedVideos == outcome.value.videos
      && r.progressMessage == ProgressFrames[|ProgressFrames| - 1]
    ensures outcome.Failed? ==> r == st.(phase := Errored)
    ensures r.fileName == st.fileName
  {
    match outcome
    case Ok(response) =>
      var finished := ShowFramesFrom(st, 1);
      finished.(generatedVideos := response.videos, phase := Completed)
    case Failed => st.(phase := Errored)
  }

  /** `handleFile` for a chosen file, run to completion. */
  function HandleFile(st: PageState, fileName: string, outcome: Fetch<UploadResponse>): (r: PageState)
    ensures r.fileName == fileName
    ensures r.phase == if outcome.Ok? then Completed else Errored
    ensures outcome.Ok? ==> r.generatedVideos == outcome.value.videos
    ensures outcome.Failed? ==> r.generatedVideos == []
  {
    Settle(Start(st, fileName), outcome)
  }

  /** The input's `onChange`: an empty selection leaves the page as it was. */
  function ChooseFile(st: PageState, file: Option<string>, outcome: Fetch<UploadResponse>): (r: PageState)
    ensures file.None? ==> r == st
    ensures file.Some? ==> r == HandleFile(st, file.value, outcome)
  {
    if file.None? then st else HandleFile(st, file.value, outcome)
  }

  /** None of the page's transitions leads back to `Idle`: starting an
      upload leaves it, and the timeline ticks, the settling upload and any
      later choice of file keep it left. */
  lemma NeverBackToIdle(st: PageState, fileName: string, k: nat, outcome: Fetch<UploadResponse>, file: Option<string>)
    ensures Start(st, fileName).phase != Idle
    ensures st.phase != Idle && k < |ProgressFrames| ==> ShowFrame(st, k).phase != Idle
    ensures st.phase != Idle && k <= |ProgressFrames| ==> ShowFramesFrom(st, k).phase != Idle
    ensures st.phase != Idle ==> Settle(st, outcome).phase != Idle
    ensures st.phase != Idle || file.Some? ==> ChooseFile(st, file, outcome).phase != Idle
  {
  }

  /** The user's choice in the file dialog (`None` when cancelled) and how
      the upload it starts ends. */
  datatype Choice = Choice(file: Option<string>, outcome: Fetch<UploadResponse>)

  /** The page after a series of choices, each upload run to completion
      before the next choice. */
  function Replay(st: PageState, choices: seq<Choice>): PageState {
    if |choices| == 0 then st
    else
      var last := choices[|choices| - 1];
      ChooseFile(Replay(st, choices[..|choices| - 1]), last.file, last.outcome)
  }

  /** The last choice that picked a file. */
  function LastChosen(choices: seq<Choice>): (r: Option<Choice>)
    ensures r.Some? ==> r.value in choices && r.value.file.Some?
    ensures r.None? <==> forall i :: 0 <= i < |choices| ==> choices[i].file.None?
  {
    if |choices| == 0 then None
    else if choices[|choices| - 1].file.Some? then Some(choices[|choices| - 1])
    else
      var r := LastChosen(choices[..|choices| - 1]);
      assert forall i :: 0 <= i < |choices| - 1 ==> choices[..|choices| - 1][i] == choices[i];
      r
  }

  /** Whatever the user does, the page shows the file and the outcome of the
      last upload they started; cancelled dialogs change nothing, and the
      page is idle only if no file was ever chosen from an idle page. */
  lemma {:induction false} ReplayPhase(st: PageState, choices: seq<Choice>)
    ensures LastChosen(choices).None? ==> Replay(st, choices) == st
    ensures LastChosen(choices).Some? ==>
      var c := LastChosen(choices).value;
      && Replay(st, choices).fileName == c.file.value
      && Replay(st, choices).phase == (if c.outcome.Ok? then Completed else Errored)
    ensures Replay(st, choices).phase == Idle <==>
      st.phase == Idle && forall i :: 0 <= i < |choices| ==> choices[i].file.None?
  {
    if |choices| > 0 {
      ReplayPhase(st, choices[..|choices| - 1]);
      assert forall i :: 0 <= i < |choices| - 1 ==> choices[..|choices| - 1][i] == choices[i];
    }
  }

  // ------------------------------------------------------------ status rows

  /** The symbol of a `StatusRow`. */
  function Symbol(active: bool, done: bool): (r: string)
    ensures r == "✓" <==> done
    ensures r == "…" <==> !done && active
    ensures r == "—" <==> !done && !active
  {
    if done then "✓" else if active then "…" else "—"
  }

  datatype Row = Row(text: string, active: bool, done: bool)

  /** The Upload, Parsing and Rendering rows for a phase. */
  function Rows(p: Phase): (rows: seq<Row>)
    ensures |rows| == 3
    ensures rows[0].text == "Upload" && rows[1].text == "Parsing" && rows[2].text == "Rendering"
    ensures rows[0].active <==> p != Idle
    ensures rows[0].done <==> p != Idle && p != Errored
    ensures rows[1].active <==> p == Processing || p == Completed
    ensures rows[1].done <==> p == Completed
    ensures rows[2].active <==> p == Completed
    ensures rows[2].done <==> p == Completed
  {
    [ Row("Upload", p != Idle, p != Idle && p != Errored),
      Row("Parsing", p == Processing || p == Completed, p == Completed),
      Row("Rendering", p == Completed, p == Completed) ]
  }

  function Symbols(p: Phase): (s: seq<string>)
    ensures |s| == 3
  {
    var rows := Rows(p);
    [Symbol(rows[0].active, rows[0].done), Symbol(rows[1].active, rows[1].done),
     Symbol(rows[2].active, rows[2].done)]
  }

  /** A row is never done without being active, in any phase. */
  lemma DoneImpliesActive(p: Phase)
    ensures forall i :: 0 <= i < |Rows(p)| ==> Rows(p)[i].done ==> Rows(p)[i].active
  {
  }

  /** What the three rows read in each phase. */
  lemma SymbolsPerPhase()
    ensures Symbols(Idle) == ["—", "—", "—"]
    ensures Symbols(Uploading) == ["✓", "—", "—"]
    ensures Symbols(Processing) == ["✓", "…", "—"]
    ensures Symbols(Completed) == ["✓", "✓", "✓"]
    ensures Symbols(Errored) == ["…", "—", "—"]
  {
  }

  // ---------------------------------------------------------------- panels

  /** The previews replace the skeletons only once completed with videos. */
  predicate PreviewsShown(st: PageState) {
    st.phase == Completed && |st.generatedVideos| > 0
  }

  /** The spinner line under the rows, shown only while processing. */
  function ProgressLine(st: PageState): (r: Option<string>)
    ensures r.Some? <==> st.phase == Processing
    ensures r.Some? && st.progressMessage != "" ==> r.value == st.progressMessage
    ensures r.Some? && st.progressMessage == "" ==> r.value == "Generating study clips…"
  {
    if st.phase != Processing then None
    else if st.progressMessage != "" then Some(st.progressMessage)
    else Some("Generating study clips…")
  }

  /** The key points a preview shows: the first three at most. */
  function PreviewPoints(video: FeedVideo): (r: seq<string>)
    ensures |r| <= 3 && |r| == Min(3, |video.keyPoints|)
    ensures r == video.keyPoints[..|r|]
  {
    video.keyPoints[..Min(3, |video.keyPoints|)]
  }

  /** After a completed upload the previews show exactly when the response
      held videos; after a failed one they never show, and while the upload
      is processing the progress line is up. */
  lemma UploadOutcomes(st: PageState, fileName: string, outcome: Fetch<UploadResponse>)
    ensures outcome.Ok? ==>
      (PreviewsShown(HandleFile(st, fileName, outcome)) <==> |outcome.value.videos| > 0)
    ensures outcome.Failed? ==> !PreviewsShown(HandleFile(st, fileName, outcome))
    ensures ProgressLine(Start(st, fileName)) == Some(ProgressFrames[0])
  {
  }
}

=== FILE: video_card.dfy ===
/** The feed's video card (`src/components/VideoCard.tsx`): the note chips,
    the card's boolean toggles, what a click on the video asks the player to
    do, how player events update the playing flag, and the quiz request. */
module VideoCard {
  import opened Base
  import opened Api

  // ------------------------------------------------------------------ notes

  /** `notePoints`: the first four key points, or the summary alone when
      there are none. */
  function NotePoints(video: FeedVideo): (r: seq<string>)
    ensures 1 <= |r| <= 4
    ensures |video.keyPoints| > 0 ==>
      |r| == Min(4, |video.keyPoints|) && r == video.keyPoints[..|r|]
    ensures |video.keyPoints| == 0 ==> r == [video.summary]
  {
    var points := if |video.keyPoints| > 0 then video.keyPoints else [video.summary];
    points[..Min(4, |points|)]
  }

  // ---------------------------------------------------------------- toggles

  datatype CardState = CardState(
    isMuted: bool,
    liked: bool,
    saved: bool,
    showNotes: bool,
    isPlaying: bool)

  /** A card starts muted and (optimistically) playing. */
  const Initial: CardState := CardState(true, false, false, false, true)

  /** The heart, bookmark, speaker and notes buttons. */
  datatype Toggle = Like | Save | Mute | Notes

  /** Each button flips its own flag and no other flag of the card; the
      speaker button also re-runs the player effect (`PressEffect`). */
  function Press(st: CardState, t: Toggle): (r: CardState)
    ensures t == Like ==> r == st.(liked := !st.liked)
    ensures t == Save ==> r == st.(saved := !st.saved)
    ensures t == Mute ==> r == st.(isMuted := !st.isMuted)
    ensures t == Notes ==> r == st.(showNotes := !st.showNotes)
  {
    match t
    case Like => st.(liked := !st.liked)
    case Save => st.(saved := !st.saved)
    case Mute => st.(isMuted := !st.isMuted)
    case Notes => st.(showNotes := !st.showNotes)
  }

  /** What the `[isMuted]` effect does to the player each time it runs: it
      copies the card's muted flag onto the element and calls `play()`. */
  datatype PlayerSync = PlayerSync(muted: bool, command: Command)

  /** The effect runs when the card mounts: muted, and asked to play. */
  const MountEffect: PlayerSync := PlayerSync(Initial.isMuted, PlayCommand)

  /** The effect re-run by a press, if any: only the speaker button changes
      `isMuted`, the effect's one dependency, so only it re-runs the effect,
      which sets the new muted flag and asks the player to play again. */
  function PressEffect(st: CardState, t: Toggle): (e: Option<PlayerSync>)
    ensures e.Some? <==> t == Mute
    ensures e.Some? ==> e.value.command == PlayCommand && e.value.muted == !st.isMuted
    ensures e.Some? ==> e.value.muted == Press(st, t).isMuted
  {
    if t == Mute then Some(PlayerSync(!st.isMuted, PlayCommand)) else None
  }

  /** Pressing the speaker button restarts playback: a video paused by a
      click starts playing again once the player reports `play`, or shows
      "Tap to Play" if the new `play()` is rejected. */
  lemma MuteResumes(st: CardState)
    requires TapToPlayShown(st)
    ensures PressEffect(st, Mute) == Some(PlayerSync(!st.isMuted, PlayCommand))
    ensures !TapToPlayShown(Observe(Press(st, Mute), PlayedEvent))
    ensures TapToPlayShown(Observe(Press(st, Mute), PlayRejected))
  {
  }

  /** Pressing a button twice restores the card; presses of different
      buttons commute. */
  lemma PressTwice(st: CardState, t: Toggle, u: Toggle)
    ensures Press(Press(st, t), t) == st
    ensures Press(Press(st, t), u) == Press(Press(st, u), t)
  {
  }

  /** The speaker button's accessible name and the notes button's text. */
  function MuteLabel(st: CardState): (r: string)
    ensures r == "Unmute" <==> st.isMuted
  {
    if st.isMuted then "Unmute" else "Mute"
  }

  function NotesLabel(st: CardState): (r: string)
    ensures r == "Hide Notes" <==> st.showNotes
  {
    if st.showNotes then "Hide Notes" else "Key Notes"
  }

  // --------------------------------------------------------------- playback

  /** What a click on the video asks of the player element. */
  datatype Command = PlayCommand | PauseCommand

  function ClickVideo(paused: bool): (c: Command)
    ensures c == PlayCommand <==> paused
    ensures c == PauseCommand <==> !paused
  {
    if paused then PlayCommand else PauseCommand
  }

  /** What the player reports back: its `pause` and `play` events, and a
      rejected `play()` promise. */
  datatype PlayerEvent = PausedEvent | PlayedEvent | PlayRejected

  function Observe(st: CardState, e: PlayerEvent): (r: CardState)
    ensures r.isPlaying <==> e == PlayedEvent
    ensures r.(isPlaying := st.isPlaying) == st
  {
    st.(isPlaying := e == PlayedEvent)
  }

  /** The "Tap to Play" overlay covers the card exactly when not playing. */
  predicate TapToPlayShown(st: CardState) {
    !st.isPlaying
  }

  /** When the video's `onClick` handler runs on a playing video it pauses
      it and the overlay comes up; when it runs on a paused video it asks
      for playback, and once the video plays the overlay is removed. */
  lemma ClickRoundTrip(st: CardState)
    ensures ClickVideo(false) == PauseCommand && TapToPlayShown(Observe(st, PausedEvent))
    ensures ClickVideo(true) == PlayCommand && !TapToPlayShown(Observe(st, PlayedEvent))
    ensures TapToPlayShown(Observe(st, PlayRejected))
  {
  }

  // ------------------------------------------------------------------- quiz

  /** The brain button: `onQuiz?.(video.id)` calls back with this card's id,
      or does nothing when no callback was given. */
  function QuizRequest(video: FeedVideo, hasCallback: bool): (r: Option<string>)
    ensures r.Some? <==> hasCallback
    ensures r.Some? ==> r.value == video.id
  {
    if hasCallback then Some(video.id) else None
  }
}
